=== FILE: README.md ===
# knowledge_net in Dafny

This project models the core of knowledge_net, an automated web-research assistant. A user submits a topic. The backend grows a tree of research queries, searches and scrapes the web for each query, and asks a language model for summaries, branch decisions and finally a report. The front end streams the progress and keeps the chat history.

The parts modelled:

- **Research tree.** The `ResearchNode` tree of both backends: creation, `add_child` (fresh or pre-built node), `find_node`, `get_path_to_root`, `max_depth`, `total_children`, `get_all_data`, `build_tree_structure` and `deep_copy_tree`. This is module `ResearchTree`.
- **KNet breadth-first search** (`backend/knet.py`), in modules `Knet` and `KnetSearch`:
  - the clamped progress counter;
  - token tracking;
  - the FIFO frontier loop of `conduct_research`, with its explored set and depth bound;
  - child creation in `_analyze_and_branch`;
  - the media, shape and metadata of the final report.
- **LangGraph workflow** (`langgraph_backend/app.py`), in module `Flow`:
  - the three progress modes of `send`;
  - `scrape_node` attachment and its context dump;
  - the batch count of `summarize_node`;
  - the routing of `should_continue_node`;
  - report assembly in `gen_report_node`.
- **Web scraper post-processing** (`backend/scraper.py`), in module `Scraper`:
  - URL normalisation and the result cap;
  - filtering failed pages;
  - YouTube frame filtering;
  - merging extraction records;
  - the crawler's start/close flag.
- **Similarity metrics** (`backend/similarity_metrics.py`), in module `Similarity`:
  - the JSON walk that collects sources;
  - text normalisation;
  - the usable-source count;
  - the aggregate metrics.
- **Chat front end.** The shared conversation handling (module `Chat`), the chat store's socket reducers, persistence and actions (module `ChatContext`), and the stand-alone chat component (module `ChatInterface`). The component's new, select, delete and delete-all handlers (ChatInterface.tsx:245-284) match the store's and are modelled once, in `Chat`.
- **Visualisation.** Graph flattening in the research graph (module `GraphView`) and the choice of which research tree the layout shows (module `Layout`).
- **Shared pieces.** `Wrappers` holds an `Option` type. `Text` holds `strip`, `join`, `find`, number rendering and lower-casing. `Media` holds media collation.

Every language-model call, the web search, page downloads and parsing, and uuid generation are parameters (oracles). The model states what the code does with whatever they return. State that the source mutates in place (the tree, the message lists, the frontier) is an immutable value here, and each operation returns the successor. Where the source raises, the model returns `None`. A model call that raises, rather than replying, is not modelled: each oracle always replies.

## Model

| member | source | states |
|---|---|---|
| ResearchTree.NewNodeIsEmptyLeaf | langgraph_backend/research_node.py:7-13 | A new node has no children and no data, counts no descendants, has max depth equal to its own depth, and is well formed. |
| ResearchTree.FindNodeIsFirstInPreorder | langgraph_backend/research_node.py:15-26 | `find_node` returns the first node in pre-order with the id. It returns None exactly when no node of the subtree has that id. |
| ResearchTree.AddChild | langgraph_backend/research_node.py:33-35 | Exactly one child is appended, at the end. It is a fresh leaf holding the query, one level deeper than the parent. The earlier children and the node's own fields are unchanged. |
| ResearchTree.AdoptChild | langgraph_backend/research_node.py:29-35 | A pre-built node is appended as the last child. Only its depth is overwritten, to the parent's depth plus one. Its id, query, children and data are kept. |
| ResearchTree.AdoptFreshIsAddChild | langgraph_backend/research_node.py:28-36 | Adopting a freshly created node gives the same tree as adding a child by query: the two branches of `add_child` agree. |
| ResearchTree.AdoptFindsNew | langgraph_backend/research_node.py:28-36 | After adopting a node whose id is new to the tree, `find_node` returns that node at its new depth. |
| ResearchTree.AddChildKeepsWellFormed | backend/research_node.py:13-16 | If every child sits one level below its parent, that stays true after `add_child`. |
| ResearchTree.AddChildCounts | backend/research_node.py:13-16 | `add_child` raises `total_children` by exactly one and leaves `get_all_data` unchanged. |
| ResearchTree.DepthAlongPath | backend/research_node.py:14 | In a well-formed tree, a node reached by k child steps is exactly k levels deeper. |
| ResearchTree.PathToRoot | langgraph_backend/research_node.py:38-48 | The path has one entry more than the number of steps from the root. It starts with the root's query and ends with the node's own query. |
| ResearchTree.PathToRootEntries | langgraph_backend/research_node.py:43-48 | After the reversal, entry k is the query of the ancestor k levels below the root. |
| ResearchTree.AncestorAt | langgraph_backend/research_node.py:43-47 | The j-th query collected while climbing parent links is the query of the ancestor j levels up. |
| ResearchTree.PathToRootLength | backend/research_node.py:18-28 | In a well-formed tree rooted at depth 0, the path has length depth + 1. It runs from the root's query to the node's query. |
| ResearchTree.MaxDepthIsGreatestLeaf | langgraph_backend/research_node.py:50-53 | `max_depth` is at least the depth of every leaf and equals the depth of some leaf. |
| ResearchTree.MaxDepthAtLeastOwnDepth | backend/research_node.py:30-33 | In a well-formed tree, `max_depth` is at least the node's own depth, and equal to it for a leaf. |
| ResearchTree.TotalChildrenCountsDescendants | langgraph_backend/research_node.py:55-58 | `total_children` is the number of nodes below this one (pre-order size minus one). It is 0 for a leaf. |
| ResearchTree.AllDataIsPreorderConcat | langgraph_backend/research_node.py:60-64 | `get_all_data` concatenates every node's data in pre-order. Its length is the sum of the data lengths. |
| ResearchTree.PutSemantics | langgraph_backend/research_node.py:70 | Assignment into a dict keeps the keys unique and adds the key. The key maps to the new value and every other key keeps its value. |
| ResearchTree.PutKeepsOrder | langgraph_backend/research_node.py:70 | Re-assigning a key keeps it at its first insertion position. A new key goes to the end. |
| ResearchTree.SourcesOf | langgraph_backend/research_node.py:70 | The keys of `sources` are unique and are exactly the urls of records with a non-empty url and text. Each url maps to the text of its last such record. |
| ResearchTree.BuildSnapshot | langgraph_backend/research_node.py:67-76 | The snapshot keeps query, depth and the sources mapping above. It has one child snapshot per child, in order, with that child's query and depth. |
| ResearchTree.SnapshotKeepsShape | langgraph_backend/research_node.py:71-76 | The snapshot has exactly as many nodes as the tree. |
| ResearchTree.DeepCopy | langgraph_backend/research_node.py:79-92 | The copy equals the original: ids, queries, depths, data and child order agree at every node. |
| ResearchTree.DeepCopyFindsEveryId | langgraph_backend/research_node.py:83-92 | `find_node` on the copy succeeds for every id of the original and returns the same node. |
| ResearchTree.AttachAtGrowsAndIsFound | langgraph_backend/app.py:149-150 | Attaching under a node found by id grows the tree by the attached subtree. The target, found again, has the attached node as its last child. |
| ResearchTree.QueriesTo | langgraph_backend/app.py:133 | The queries from the root to the node with a given id. They exist exactly when the id is found, and run from the root's query to that node's query. |
| ResearchTree.QueriesToLength | langgraph_backend/app.py:133 | In a well-formed tree, the root-to-node query list has one entry per level between them, plus one. |
| Media.Collate | backend/knet.py:244-258 | Images, videos and links each hold no duplicates. Each holds exactly the items that some page lists. Links are the pages' href/text pairs, renamed to url/text. |
| Media.DedupSameElements | backend/knet.py:255-256 | De-duplication keeps exactly the same members. |
| Media.DedupOfDistinct | backend/knet.py:255-257 | A list without duplicates is left as it is. |
| Media.DedupIdempotent | langgraph_backend/app.py:266-269 | De-duplicating twice gives the same list as doing it once. |
| Media.AllImagesMembers | backend/knet.py:247-249 | An image is gathered exactly when some page lists it. |
| Media.AllLinksMembers | backend/knet.py:252-253 | A url/text link is gathered exactly when some page has a link with that href and text. |
| Knet.ProgressUpdate | backend/knet.py:22-27 | The stored progress is progress + delta, capped at 100. An event is emitted exactly when a callback is set, and it carries the stored value. |
| Knet.ProgressTraceBounded | backend/knet.py:22-25 | Starting in [0, 100] with non-negative deltas, the stored values never decrease and stay between the start and 100. |
| Knet.Track | backend/knet.py:118-119 | Tracking tokens appends the previous total plus the tokens used. The log still starts at 0 and never decreases. |
| Knet.Advance | backend/knet.py:165 | A progress update appends the capped new total. The log stays within (0, 100] and never decreases. |
| Knet.ArenaPath | backend/knet.py:134 | The path of a node has depth + 1 entries. Entry k is the query of the node's ancestor at depth k, so the path runs from the topic to the node's own query. |
| Knet.ToTree | backend/research_node.py:5-16 | The index-linked nodes rebuild into a well-formed research tree with the same queries, depths, data and child counts. |
| Knet.NewEntries | backend/knet.py:224-226 | There is one new leaf per branch query. Each is one level deeper than the analysed node and has that node as its parent. |
| Knet.Branch | backend/knet.py:224-226 | The analysed node gains one child per branch query, after its existing children. Every other node is unchanged and the tree stays well formed. |
| Knet.GrownArenaOk | backend/knet.py:224-226 | Growing the tree this way keeps it well formed: parents come earlier, a child is one level below its parent, and child lists agree with parent links. |
| Knet.PresentQueries | backend/knet.py:224-225 | The queries of the branches before the first branch without a query, in order. |
| Knet.AnalyzeAndBranch | backend/knet.py:195-231 | No data, or a reply that fails to parse, changes nothing and returns []. Otherwise children are attached for the branches before the first one without a query. The attached children are returned only if every branch had a query; otherwise [] is returned, but the attached children stay in the tree. The reply's tokens are counted. |
| Knet.ShapeOf | backend/knet.py:261-268 | The report tree keeps each node's query and depth. Its i-th child is the report tree of the node's i-th child. |
| Knet.ShapeForest | backend/knet.py:267 | The children's report trees keep the children's order, one per child. |
| Knet.TreeMetadata | backend/knet.py:276-281 | `total_queries` is the number of nodes below the root. `total_sources` is the number of data records. `max_depth_reached` is the greatest leaf depth. `total_tokens` is the given count. |
| Knet.FinalReport | backend/knet.py:233-282 | The report has the root's query as its topic and the model's reply as its content. Its media is the collation of `get_all_data`, its tree is the shape above, and its metadata includes the report call's tokens. |
| Knet.WithData | backend/knet.py:168 | Storing scraped data changes only the visited node's data. |
| Knet.PopShrinks | backend/knet.py:158-162 | Popping the front and appending children one level deeper lowers the measure (levels left, entries at the front level), so the loop ends. |
| Knet.StartOk | backend/knet.py:152-154 | The root alone, queued at depth 0, satisfies the search invariant. |
| Knet.SkipOk | backend/knet.py:161-162 | Skipping an explored or too-deep entry keeps the invariant and shrinks the frontier. |
| Knet.VisitOk | backend/knet.py:164-170 | Visiting the front entry records its query as explored and scraped at its depth, and keeps the invariant. |
| Knet.BranchOk | backend/knet.py:173-177 | Queueing the returned children at depth + 1 keeps the invariant. |
| KnetSearch.Visit | backend/knet.py:164-170 | The front entry leaves the frontier, and its query is marked explored and logged at its depth. The node's data becomes the scraper's pages for its query and nothing else in the arena changes. Those pages are the one researcher context entry appended. |
| KnetSearch.Decide | backend/knet.py:121-144 | The summary of the node's pages is the one manager context entry appended. The run aborts exactly when the decision does not parse. The token count grows by the summary's, the decision's and, on true, the analysis's tokens; the explored set and the progress log are unchanged. A decision other than true leaves the arena and the frontier as they were. On true, the arena is the one the analysis grew, and the returned children are queued one level below the node. The invariant is kept. |
| KnetSearch.Consider | backend/knet.py:121-144 | The decision step on a node whose pages had data keeps the invariant and shrinks the frontier measure. It aborts exactly when the decision reply does not parse, so it never aborts when every decision reply parses. |
| KnetSearch.Step | backend/knet.py:158-178 | One loop iteration keeps the invariant. The frontier measure falls unless a decision reply failed to parse, and no iteration aborts when every decision reply parses. The scrape log only grows, and the first scrape is the topic. |
| KnetSearch.Expand | backend/knet.py:164-178 | Scraping a fresh, shallow entry logs exactly one scrape and keeps the invariant. |
| KnetSearch.Explore | backend/knet.py:146-178 | The loop ends with an empty frontier unless a decision reply failed to parse. When every decision reply parses, it does not abort and the frontier ends empty. At least one query is scraped when the depth bound is positive. The contexts of earlier runs remain as prefixes. |
| KnetSearch.Finish | backend/knet.py:180-189 | Progress ends at 100 and the arena is kept. The report is the final report of the explored tree, with the reply to the manager context joined by newlines. Its token total is the final count. |
| KnetSearch.ConductResearch | backend/knet.py:146-193 | Every conclusion of Explore holds, and a report is produced whenever every decision reply parses. A produced report describes the explored tree: its shape, its media gathered in preorder and its metadata, whose token total is the final count. Its content is the reply to the whole manager context, and progress ends at 100. |
| KnetSearch.ValidMeans | backend/knet.py:153-177 | The search invariant spelled out. The root holds the topic and the first scrape is (topic, 0). Scrape depths are below the bound and never decrease, and no query is scraped twice. Only nodes with data above the bound have children. Progress lies in (0, 100] and token counts start at 0, both never decreasing. |
| Flow.Trunc | langgraph_backend/app.py:74 | Python `int()` on a number truncates toward zero. |
| Flow.Send | langgraph_backend/app.py:72-85 | An update stores progress + delta, a setter stores the value, and a result stores 100. Each is truncated and capped at 100, and reaches 100 exactly when its real value does. |
| Flow.UpdateNeverLowers | langgraph_backend/app.py:73-74 | A non-negative update never lowers progress in [0, 100] and never exceeds 100. |
| Flow.SetterResets | langgraph_backend/app.py:219 | Setting 0 resets progress to 0, below any earlier positive value, so progress is not monotone. |
| Flow.StepTargetPositive | langgraph_backend/app.py:185 | The per-step progress target is positive, also for an empty plan. |
| Flow.LastStepCompletes | langgraph_backend/app.py:185-192 | The update sent on the last plan step brings progress to 100. |
| Flow.Initial | langgraph_backend/app.py:312-329 | The workflow starts at the master node, with query "_" and depth 0. The plan is empty, the index is 0, both contexts are empty, and progress and tokens are 0. |
| Flow.InitialCursorOk | langgraph_backend/app.py:321-322 | Initially the current node is found in the master tree by its id. |
| Flow.Marked | langgraph_backend/app.py:132-133 | Every entry gets the prefix "[done] ", in order. |
| Flow.SourceLines | langgraph_backend/app.py:157 | Record i becomes "src [i+1] : url", a newline, then the text. |
| Flow.ContextEntry | langgraph_backend/app.py:157 | No data gives an empty entry, and one record gives its source line. |
| Flow.ContextEntrySnoc | langgraph_backend/app.py:157 | Each further record adds the separator and its own numbered source line. |
| Flow.ScrapeQuery | langgraph_backend/app.py:126-140 | A query exists exactly when the plan index is in range and the prompt returns a branch. It is then the first branch. Otherwise the source raises. |
| Flow.AttachParent | langgraph_backend/app.py:145-150 | At or beyond the depth bound, the parent is the master node. Otherwise it is the current node, found by id in the copy. |
| Flow.AttachNew | langgraph_backend/app.py:142-150 | Attachment succeeds exactly when the parent is found. The tree grows by the new node, which is found afterwards at the parent's depth plus one. |
| Flow.ScrapeNode | langgraph_backend/app.py:124-158 | It succeeds exactly when the query and the parent exist. It adds one node holding the scraped data, findable by its id, and appends one researcher context entry. Nothing else changes. |
| Flow.SummarizeNode | langgraph_backend/app.py:161-170 | It fails exactly when there is data but no researcher context. Otherwise it appends ceil(n/3) summaries for n records, each of the last researcher context entry, and none for empty data. |
| Flow.ScrapeIndex | langgraph_backend/app.py:214 | The intended index after a scrape decision: unchanged on a positive decision, one more on a negative one. |
| Flow.ScrapeIndexAgreement | langgraph_backend/app.py:214 | The index as written and the intended one agree exactly when the decision is positive or the index is 0. |
| Flow.Route | langgraph_backend/app.py:184-214 | The routing with any index rule. The report is chosen at the depth bound on the last step. The plan is chosen, with the next index and the master node, at the depth bound before the last step. Otherwise a scrape is chosen, and progress is sent first. |
| Flow.ShouldContinue | langgraph_backend/app.py:173-214 | The routing with the intended index rule. Progress stays in [0, 100], never falls, and reaches 100 on the last step. A scrape keeps or advances the index by one. |
| Flow.PassFollowsCursor | langgraph_backend/app.py:142-214 | For any index rule, as written or intended: one routing step followed by a scrape keeps the current node in the tree, and moves (plan index, depth) exactly as the abstract cursor step with that rule says. |
| Flow.CorrectedPassAdvances | langgraph_backend/app.py:195-214 | With the intended index rule, every cursor step either advances the index or goes one level deeper, and lowers a bounded rank. |
| Flow.CorrectedRunIsBounded | langgraph_backend/app.py:195-214 | With the intended index rule, a run has at most (plan length + 1) × depth bound steps. |
| Flow.AsWrittenCycles | langgraph_backend/app.py:142-214 | As written, with a 3-step plan and depth bound 2, a routing step and scrape from (plan index 1, depth 2) never reports and lands on (2, 1). From (2, 1), with a negative decision, it lands back on (1, 2). The intended rule leaves the plan there instead. |
| Flow.StripHeadingMeans | langgraph_backend/app.py:249-251 | A content without the heading is unchanged. Otherwise everything up to the end of the heading's first occurrence is dropped and the rest is trimmed. |
| Flow.StripEchoedHeading | langgraph_backend/app.py:249-251 | A content that begins with the heading loses it and is trimmed. |
| Flow.RenderSnoc | langgraph_backend/app.py:253 | Each section adds "\n\n## heading\n\ncontent" to the rendered report. |
| Flow.OutlineDoneAsWritten | langgraph_backend/app.py:244 | The outline for slot i lists the title and the headings after slot i, all marked done. |
| Flow.OutlineDone | langgraph_backend/app.py:244 | The intended outline for slot i lists the title and the headings before slot i, all marked done. |
| Flow.OutlineMarksUnwritten | langgraph_backend/app.py:244 | For headings [a, b] at slot 0, the outline as written marks b done although it is unwritten. The intended outline marks only the title. |
| Flow.ReportProgress | langgraph_backend/app.py:219-291 | The report's progress log starts at 0 and gains one step per heading. It stays below 100 until the result sets it to 100, and never decreases. |
| Flow.FillSections | langgraph_backend/app.py:227-253 | There is one section per heading, in order. Each is the fill-in reply for its slot with the echoed heading stripped. The report text is the rendering of the sections. |
| Flow.GenReportAsWritten | langgraph_backend/app.py:217-291 | The report as written: the sections answer the outline that lists the headings after each slot. The content renders the sections, progress runs 0 to 100, and media collates all data. |
| Flow.GenReport | langgraph_backend/app.py:217-291 | The report for a given outline rule. The content renders the sections and progress runs 0 to 100. Media collates all data, the tree is the snapshot, and the metadata counts queries, sources, depth and tokens. |
| Flow.IntendedOutlineIsRendered | langgraph_backend/app.py:244 | With the intended outline, slot k is told exactly the title and the headings already rendered. |
| Similarity.StringSources | backend/similarity_metrics.py:29-32 | Every entry whose value is a string that is not blank becomes a source with its key and text. Every source comes from such an entry. |
| Similarity.ExtractedAreNonBlank | backend/similarity_metrics.py:26-39 | Every extracted source text is non-blank. |
| Similarity.ExtractFollowsPreorder | backend/similarity_metrics.py:33-39 | Walking the JSON of a tree snapshot yields each node's non-blank sources in pre-order, a node's own sources before its descendants'. |
| Similarity.SubNonWord | backend/similarity_metrics.py:46 | The result holds only word characters and single spaces. It is empty exactly when the input is, and starts with a space exactly when the input starts with a non-word character. |
| Similarity.SubSpace | backend/similarity_metrics.py:47 | Every whitespace run becomes a single space, so no two whitespace characters are adjacent. |
| Similarity.PreprocessNormalizes | backend/similarity_metrics.py:42-48 | The output is lower case and holds only word characters and single spaces, with no space at either end. |
| Similarity.PreprocessIdempotent | backend/similarity_metrics.py:45-47 | Preprocessing its own output returns it unchanged. |
| Similarity.PreprocessEmptyIff | backend/similarity_metrics.py:42-48 | The output is empty exactly when the input has no word character. |
| Similarity.UsableCount | backend/similarity_metrics.py:65-70 | The sources kept for comparison are exactly those whose text has a word character. |
| Similarity.CalculateSimilarity | backend/similarity_metrics.py:52-97 | A blank main text or no sources gives ({}, 0). Otherwise the count is the number of usable sources, the score keys are unique, and there are at most that many scores. |
| Similarity.ScoreTableKeys | backend/similarity_metrics.py:93-95 | The score table has one key per distinct usable source id. |
| Similarity.ScoreTableSemantics | backend/similarity_metrics.py:93-95 | Each id maps to the cosine score of its last occurrence among the usable sources. |
| Similarity.ScoresCoverUsableSources | backend/similarity_metrics.py:78-97 | When vectorizing succeeds, every usable source id is scored with the cosine between the main text and its last occurrence. |
| Similarity.AggregateMetrics | backend/similarity_metrics.py:100-128 | The two totals pass through. Empty scores give the defaults. Otherwise the max is at least every score and equal to one of them. |
| Similarity.AverageWithinScores | backend/similarity_metrics.py:115-117 | The average is at least some score and at most the max. |
| Similarity.MaxOfValues | backend/similarity_metrics.py:117 | The max of the scores bounds every score and is attained. |
| Similarity.TopIsFirstMaximum | backend/similarity_metrics.py:119-123 | The top source is the first id in order whose score equals the max. |
| Similarity.ThresholdCountsNest | backend/similarity_metrics.py:125-126 | count(score > 0.5) ≤ count(score > 0.3) ≤ number of scores. |
| Text.Trim | backend/similarity_metrics.py:47 | `strip()` removes a whitespace prefix and suffix and nothing else. Neither end of the result is whitespace. |
| Text.TrimEmptyIffBlank | backend/similarity_metrics.py:31 | `strip()` gives the empty string exactly when the text is whitespace only. |
| Text.Find | langgraph_backend/app.py:249 | `str.find` returns -1 exactly when the substring is absent. Otherwise it returns the first position where the substring occurs. |
| Text.Lower | backend/similarity_metrics.py:45 | Lower-casing maps each character on its own and keeps the length. |
| Text.LowerChar | backend/similarity_metrics.py:45 | An ASCII capital becomes the small letter at the same place in the alphabet. Every other character is kept. |
| Text.NatToStringRoundTrip | frontend/src/components/ChatInterface.tsx:120 | The decimal rendering of a count reads back as the same number. |
| Scraper.SearchAndScrape | backend/scraper.py:22-40 | The pages are exactly the truthy scrape results, in search order. There are no more of them than URLs. |
| Scraper.KeepStep | backend/scraper.py:28-37 | Each URL adds its page exactly when the scrape result is truthy. |
| Scraper.DuckDuckGo | backend/scraper.py:42-71 | A failed request gives []. Otherwise there are at most max(n, 1) URLs, and URL i is the normalised href of hit i. |
| Scraper.CollectUrlsFills | backend/scraper.py:55-61 | When every hit has an href, there are min(hits, max(n, 1)) URLs. |
| Scraper.MissingHrefFailsSearch | backend/scraper.py:55-71 | A hit without an href, reached before the result cap, raises inside the loop, and the search returns []. |
| Scraper.CollectUrlsFails | backend/scraper.py:55-71 | The collecting loop fails when a hit without an href is reached while fewer URLs than the cap have been collected. |
| Scraper.NormalizeUrl | backend/scraper.py:56-58 | A normalised URL has no space and starts with http:// or https://. |
| Scraper.NormalizeUrlCleans | backend/scraper.py:56-58 | The normalised URL is the href with every space and every `\n` escape removed. `https://` is put in front unless what remains already has a scheme. |
| Scraper.RemoveCharIsWithout | backend/scraper.py:56 | Replacing a one-character pattern with "" removes every occurrence of that character and keeps every other character. |
| Scraper.RemoveAllAbsent | backend/scraper.py:56 | A string that does not contain the pattern is unchanged. |
| Scraper.NormalizeKeepsCleanUrl | backend/scraper.py:56-58 | A URL with a scheme and no space or backslash-n is unchanged. |
| Scraper.NormalizeAddsScheme | backend/scraper.py:56-58 | A URL with no scheme and no space or backslash-n gets "https://" in front and is otherwise unchanged. |
| Scraper.NormalizeLeavesEscape | backend/scraper.py:56 | One pass can leave a backslash-n: backslash, backslash, n, n becomes backslash, n. |
| Scraper.ExtractVideos | backend/scraper.py:121-127 | Only frame sources containing youtube.com or youtu.be are kept, and each one kept is the source of one of the frames. |
| Scraper.ExtractVideosKeepsAll | backend/scraper.py:123-126 | Every YouTube frame source is kept. |
| Scraper.ExtractVideosAppend | backend/scraper.py:123-126 | Extraction works frame by frame, so the order is kept. |
| Scraper.Present | backend/scraper.py:118-119 | Only present, non-empty attributes are kept, and all of them are. Each one kept is one of the attributes. |
| Scraper.PresentAppend | backend/scraper.py:118-119 | Attributes are collected tag by tag, so page order is kept. |
| Scraper.Override | backend/scraper.py:136-138 | Title, text, images and links come from the newspaper record when truthy, otherwise from the fallback. Other fields are unchanged. |
| Scraper.SetAll | backend/scraper.py:140-148 | Summary, keywords, authors, publish date and metadata are set from the newspaper record, possibly to None. Other fields are unchanged. |
| Scraper.MergeExtraction | backend/scraper.py:132-150 | An empty newspaper record gives the fallback record, and the keys stay unique. |
| Scraper.MergeFieldwise | backend/scraper.py:133-148 | Names the source of every field of the merge. Override fields come from the newspaper when truthy. The five metadata fields always come from the newspaper. Every other field comes from the fallback. |
| Scraper.ScrapePage | backend/scraper.py:73-111 | A failed download gives {}. A page with text is returned as downloaded. A textless page with a failed fallback gives {}. |
| Scraper.ScrapePageFallsBackForText | backend/scraper.py:94-105 | A textless newspaper page takes its text from the fallback page. |
| Scraper.Start | backend/scraper.py:169-172 | After start the crawler is started. |
| Scraper.Close | backend/scraper.py:174-177 | After close the crawler is not started. |
| Scraper.StartCloseIdempotent | backend/scraper.py:169-177 | Starting twice is starting once, and closing twice is closing once. |
| Scraper.RunStaysBalanced | backend/scraper.py:169-177 | Under any sequence of starts and closes, the crawler has been started once more than closed exactly while the flag is set. |
| Chat.FindLastIndex | frontend/src/lib/store/ChatContext.tsx:145 | `findLastIndex` returns -1 exactly when no message matches. Otherwise it returns a matching index with no match after it. |
| Chat.RemoveAt | frontend/src/lib/store/ChatContext.tsx:186 | `splice(i, 1)` removes exactly message i and keeps the others in order. |
| Chat.MarkLost | frontend/src/lib/store/ChatContext.tsx:127 | Every progress message becomes the non-progress message "Connection error". Every other message is unchanged. |
| Chat.MarkLostIdempotent | frontend/src/lib/store/ChatContext.tsx:106 | Marking lost messages twice is the same as marking them once. |
| Chat.Title | frontend/src/lib/store/ChatContext.tsx:302 | A content of up to 30 characters is its own title. A longer one is cut to its first 30 characters plus "...". |
| Chat.Send | frontend/src/lib/store/ChatContext.tsx:276-326 | Blank content changes nothing. Otherwise the messages grow by the user message and any extra. Without an open conversation, a new one titled from the content is placed first and the others are deactivated. Otherwise the open one receives the message and is the only active one. A failed emit sets the error. |
| Chat.SendActivatesCurrent | frontend/src/lib/store/ChatContext.tsx:299-318 | After a send with a fresh conversation id, a conversation is active exactly when it is the current one. |
| Chat.SendKeepsIdsUnique | frontend/src/lib/store/ChatContext.tsx:299-318 | A send with a fresh conversation id keeps conversation ids unique. |
| Chat.SendDeliversToCurrent | frontend/src/lib/store/ChatContext.tsx:304-316 | After a send, every active conversation ends with the user's message. |
| Chat.NewConversation | frontend/src/lib/store/ChatContext.tsx:347-355 | No conversation is open, the chat is empty and idle, and the conversation list is kept. |
| Chat.FindConversation | frontend/src/lib/store/ChatContext.tsx:359 | `find` returns the first conversation with the id, or nothing exactly when none has it. |
| Chat.Select | frontend/src/lib/store/ChatContext.tsx:357-374 | The target becomes current and the only active conversation. The chat shows its saved messages, or none if it is missing, and is idle without error. Ids and messages of the list are kept. |
| Chat.PersistThenSelect | frontend/src/lib/store/ChatContext.tsx:263-273 | Re-selecting the open conversation after the save effect shows the same messages. |
| Chat.Without | frontend/src/lib/store/ChatContext.tsx:378 | No conversation with the id remains. |
| Chat.WithoutKeepsOthers | frontend/src/lib/store/ChatContext.tsx:378 | Every conversation with another id is kept. |
| Chat.WithoutAppend | frontend/src/lib/store/ChatContext.tsx:378 | Filtering works conversation by conversation, so order is kept. |
| Chat.Delete | frontend/src/lib/store/ChatContext.tsx:376-384 | The list loses exactly the conversations with the id. Deleting the open conversation resets the chat as a new conversation does. Otherwise the chat and the current id are unchanged. |
| Chat.DeleteAll | frontend/src/lib/store/ChatContext.tsx:386-389 | No conversations remain, none is open, and the chat is empty. |
| Chat.Persisted | frontend/src/lib/store/ChatContext.tsx:264-268 | The saved list has the current conversation's messages replaced by the chat's. Every other conversation is unchanged. |
| ChatContext.OnStatus | frontend/src/lib/store/ChatContext.tsx:138-176 | The last live progress message is updated with the text, progress and tree, and nothing else changes. Without one, a progress message is appended. Loading becomes true. |
| ChatContext.StatusKeepsOneLive | frontend/src/lib/store/ChatContext.tsx:145-167 | A status event leaves the number of live progress messages unchanged, or makes it 1 if there were none. |
| ChatContext.StatusIsShown | frontend/src/lib/store/ChatContext.tsx:147-167 | After a status event, the last live progress message shows the event's text, progress and tree. |
| ChatContext.ReportText | frontend/src/lib/store/ChatContext.tsx:193 | The report text is the content, or the fallback text when the content is empty. It is never empty. |
| ChatContext.DropLive | frontend/src/lib/store/ChatContext.tsx:183-187 | Exactly the last live progress message is removed, if there is one. |
| ChatContext.DropLiveKeepsOthers | frontend/src/lib/store/ChatContext.tsx:183-187 | Every message that is not live progress is kept. |
| ChatContext.OnComplete | frontend/src/lib/store/ChatContext.tsx:178-222 | The last live progress message is dropped and one report message is appended, with its tree and media. Loading ends. |
| ChatContext.OnAborted | frontend/src/lib/store/ChatContext.tsx:224-247 | The last live progress message is dropped and "Research has been canceled." is appended. Loading ends. |
| ChatContext.FinishingEndsProgress | frontend/src/lib/store/ChatContext.tsx:178-247 | With at most one live progress message, completing or aborting leaves none. |
| ChatContext.OnError | frontend/src/lib/store/ChatContext.tsx:249-255 | The messages are kept, the error is set and loading ends. |
| ChatContext.OnDisconnect | frontend/src/lib/store/ChatContext.tsx:122-136 | Every progress message becomes a finished "Connection error" message, so no live progress remains. Every non-progress message is unchanged. Loading ends with "Lost connection to research server". |
| ChatContext.DisconnectIdempotent | frontend/src/lib/store/ChatContext.tsx:126-135 | A second disconnect changes nothing. |
| ChatContext.SendMessage | frontend/src/lib/store/ChatContext.tsx:276-345 | Blank content changes nothing. Otherwise the user message and one "Loading..." progress message are appended, adding exactly one live progress message. |
| ChatContext.AbortResearch | frontend/src/lib/store/ChatContext.tsx:391-407 | The messages are kept. A sent abort keeps loading until the server confirms; a failed one sets "Failed to abort research". |
| ChatContext.StatusesKeepTail | frontend/src/lib/store/ChatContext.tsx:138-176 | A run of status events only rewrites the one trailing progress message. |
| ChatContext.ResearchRound | frontend/src/lib/store/ChatContext.tsx:138-326 | Send, any number of status events, then completion leaves the earlier messages, the user message and the report, with no live progress. Loading has ended. |
| ChatContext.Load | frontend/src/lib/store/ChatContext.tsx:15-43 | Missing data or a non-array conversation list loads as empty. Each stored conversation keeps its id, title and flag. Non-array messages load as []. |
| ChatContext.SaveLoadRoundTrip | frontend/src/lib/store/ChatContext.tsx:263-273 | Loading what the save effect stored gives back the persisted conversations and the current id. |
| ChatContext.InitialLoad | frontend/src/lib/store/ChatContext.tsx:94-112 | The loaded list and current id are taken over. The open conversation is shown with progress messages marked lost, or nothing is shown if it is missing. |
| ChatContext.ReloadRestoresChat | frontend/src/lib/store/ChatContext.tsx:94-112 | After a reload the open conversation shows the chat's messages with progress marked lost, and the list is the persisted one. |
| ChatInterface.ProgressTextIsMarked | frontend/src/components/ChatInterface.tsx:80 | Every progress text contains "%)". |
| ChatInterface.FormatResponse | frontend/src/components/ChatInterface.tsx:120-122 | The report text starts with the content and follows it with the statistics line. If there are images, the image list comes next and ends the text. |
| ChatInterface.ImagesAreListed | frontend/src/components/ChatInterface.tsx:122 | Every image url appears in the report text. |
| ChatInterface.OnStatusAsWritten | frontend/src/components/ChatInterface.tsx:77-107 | The last assistant message containing "%)" gets the new progress text, or one is appended. Loading becomes true. |
| ChatInterface.OnCompleteAsWritten | frontend/src/components/ChatInterface.tsx:109-140 | The last assistant message containing "%)" is removed and the formatted report is appended. Loading ends. |
| ChatInterface.PercentReportShowsPercent | frontend/src/components/ChatInterface.tsx:83 | A finished report reading "Growth (5%)" passes the progress test. |
| ChatInterface.AsWrittenOverwritesReport | frontend/src/components/ChatInterface.tsx:83-90 | As written, the next status event overwrites that report with progress text. |
| ChatInterface.AsWrittenDeletesReport | frontend/src/components/ChatInterface.tsx:114-117 | As written, the next completion deletes that report. |
| ChatInterface.AsWrittenStatusesAddOne | frontend/src/components/ChatInterface.tsx:83-99 | As written, with no earlier "%)" message, a run of status events adds exactly one trailing progress message. |
| ChatInterface.AsWrittenStatusesStayOne | frontend/src/components/ChatInterface.tsx:83-90 | As written, further status events only rewrite that trailing message. |
| ChatInterface.AsWrittenResearchRound | frontend/src/components/ChatInterface.tsx:77-243 | As written, with no earlier "%)" message, send, status events and completion leave the earlier messages, the user message and the formatted report. |
| ChatInterface.OnStatus | frontend/src/components/ChatInterface.tsx:77-107 | The intended status reducer marks the progress message with the flag. Earlier finished messages are never changed. |
| ChatInterface.OnComplete | frontend/src/components/ChatInterface.tsx:109-140 | The intended completion drops only the flagged progress message and appends the formatted report. |
| ChatInterface.CompleteKeepsFinishedMessages | frontend/src/components/ChatInterface.tsx:113-117 | With the intended completion, every message that is not live progress survives. |
| ChatInterface.FlaggedStatusKeepsReport | frontend/src/components/ChatInterface.tsx:83 | With the intended reducer, the "Growth (5%)" report survives a status event. |
| ChatInterface.SendMessage | frontend/src/components/ChatInterface.tsx:183-243 | Blank content changes nothing. Otherwise exactly the user message is appended, with no progress placeholder. |
| ChatInterface.StatusesAddOne | frontend/src/components/ChatInterface.tsx:77-107 | With the intended reducer and no progress yet, status events add exactly one trailing progress message. |
| ChatInterface.StatusesStayOne | frontend/src/components/ChatInterface.tsx:77-107 | With the intended reducer, further status events only rewrite that message. |
| ChatInterface.ResearchRound | frontend/src/components/ChatInterface.tsx:77-243 | With the intended reducers, a research round leaves the earlier messages, the user message and the formatted report. |
| ChatInterface.FirstWithId | frontend/src/components/ChatInterface.tsx:162 | `find` returns the first stored conversation with the id, or -1 exactly when none has it. |
| ChatInterface.InitialLoad | frontend/src/components/ChatInterface.tsx:156-167 | The component's loader keeps the raw conversations. It fails exactly when the open conversation's messages are not an array, where the source's next render throws. Otherwise that conversation's messages are shown unchanged. The chat is empty when no conversation is open, or none has the open id. |
| ChatInterface.ReloadShowsSavedChat | frontend/src/components/ChatInterface.tsx:156-181 | After a reload the component shows exactly the chat's saved messages. |
| GraphView.NodeWidth | frontend/src/components/visualizations/ResearchGraph.tsx:65 | The width is 6 × query length clamped to [120, 300]. It is 120 up to 20 characters and 300 from 50. |
| GraphView.NodeOf | frontend/src/components/visualizations/ResearchGraph.tsx:68-76 | A graph node has id "query_depth", the query as name, the depth and sources, size = number of sources + 10, and height 60. Its width is 6 per query character, clamped to [120, 300]. |
| GraphView.Nodes | frontend/src/components/visualizations/ResearchGraph.tsx:62-88 | There is one graph node per tree node: node k is the graph node of the k-th tree node in pre-order, the root first. |
| GraphView.Links | frontend/src/components/visualizations/ResearchGraph.tsx:78-83 | There is one link per non-root node: one fewer links than nodes. |
| GraphView.LinksTargetNodes | frontend/src/components/visualizations/ResearchGraph.tsx:78-87 | Link k enters graph node k + 1, so the links follow the pre-order of the nodes. |
| GraphView.LinksLeaveEarlierNodes | frontend/src/components/visualizations/ResearchGraph.tsx:78-87 | Every link leaves a node that comes earlier in pre-order: its parent. |
| GraphView.DrawnLinks | frontend/src/components/visualizations/ResearchGraph.tsx:219-224 | Exactly the links whose two ends have positions are drawn. |
| GraphView.DrawnLinksAppend | frontend/src/components/visualizations/ResearchGraph.tsx:219-224 | The filter works link by link, so drawn links keep their order. |
| GraphView.AllLinksDrawnOncePlaced | frontend/src/components/visualizations/ResearchGraph.tsx:219-224 | Once every node has a position, every link is drawn. |
| Layout.LatestResearchTree | frontend/src/components/ui/ChatLayout.tsx:28-40 | The most recent finished research message with a tree wins. Only if there is none is the most recent progress message with a tree used. Otherwise there is nothing, and non-assistant messages are never chosen. |
| Layout.ViewFollowsStatus | frontend/src/components/ui/ChatLayout.tsx:36-39 | Before any research finishes, the layout shows the tree of the latest status event. |
| Layout.ViewShowsCompletedResearch | frontend/src/components/ui/ChatLayout.tsx:29-34 | After completion, the layout shows the report's tree. |

## Left out

- Language-model calls are oracle parameters: plan, queries, decisions, summaries, findings, outline, fill-ins and the KNet report. So are the web search (DuckDuckGo hits as a list of optional hrefs) and page downloads (newspaper, crawl4ai, the HTML parser). The model states what the code does with any reply. A reply that fails to parse as JSON is an explicit failure value.
- Floating point. Progress deltas and targets are Dafny reals with an explicit truncation for `int()`.
- Flow.LastStepCompletes: holds over the reals only. In Python, `97 * (100.0 / 97)` is 99.99999999999999, so `int()` stores 99 on the last step of a 97-step plan. The same caveat applies to Flow.Send, Flow.ShouldContinue and Flow.ReportProgress.
- TF-IDF vectorizing and cosine similarity are an oracle (`Vectorizer`). `np.mean` and `np.max` are exact real arithmetic.
- Media.Collate: `list(set(...))` yields an arbitrary order in Python. The model keeps the first occurrence of each item, and its contracts state only membership and distinctness.
- Timestamps (`datetime.now()`, `new Date()`, `lastUpdated`) are left out. Uuids are parameters.
- Flow.PassFollowsCursor: requires the drawn node id to be new to the tree. With a real uuid this holds with overwhelming probability, but not by construction.
- ChatContext.OnComplete: the save to local storage inside the `research_complete` handler (ChatContext.tsx:209-218) is not modelled. It uses the conversation list captured when the socket was set up, which is stale. The save effect (ChatContext.tsx:263-273) overwrites it on the next render.
- Knet.FinalReport: the always-empty `"references": []` media key (knet.py:245) is not modelled.
- Similarity.Extract: the `strip()` test treats only the six ASCII whitespace characters as blank. Python also strips U+0085, U+001C-U+001F and the Unicode spaces.
- Similarity.Preprocess: `lower()`, `\W` and `\s` are ASCII-only here. Python's patterns on `str` are Unicode, so `preprocess_text("café")` is "café" in the source and "caf" in the model.
- Similarity.CalculateSimilarity: inherits the ASCII-only preprocessing. A source whose text is "日本語" is usable in the source but not in the model.
- ChatContext.SendMessage: the blank test is ASCII-only. JavaScript's `trim()` also removes U+00A0, so the source ignores " " and the model sends it.
- ChatInterface.SendMessage: the same ASCII-only blank test.
- Chat.Send: the same ASCII-only blank test, so `sendMessage("\u00a0")` is ignored by the source but appends a message in the model.
- Chat.Title: lengths count characters. JavaScript counts UTF-16 units, so a message of 20 emoji (40 units) gets a title of 15 emoji plus "..." in the source, while the model keeps the whole message.
- GraphView.NodeOf: the width uses the character count, not the UTF-16 length.
- Text.LowerChar: lowers ASCII letters only.
- Text.IsSpace: only the six ASCII whitespace characters.
- ChatInterface.InitialLoad: conversations other than the open one keep undefined `messages` until the save effect writes `conv.messages || []`. The model reads them as [] at that point.
- Flow.SummarizeNode: the summariser oracle is a function of the prompt, so the ceil(n/3) batch summaries are all the same value. The source asks the model once per batch (app.py:165-168), and its replies may differ.
- `research_plan_node` (app.py:109-121) is not modelled. The plan is an input of the workflow state. When the reply lacks `steps`, the source raises UnboundLocalError at line 118.
- The stream writer and the Socket.IO/SSE transport are not modelled; progress values are returned instead of written. Also left out: FastAPI sessions, file writes (output.json, ctx_manager.log.txt, output.log.json), logging and printing.
- The LangGraph graph runner is not modelled. The routing and the node functions are modelled; the runner's recursion limit (1000) is not.
- The d3 force layout, node positions, zoom, focus handling and keyboard shortcuts are not modelled. Node positions are an input of `DrawnLinks`.
- `load_data`, the CSV and table output of `similarity_metrics.py` and its `__main__` are not modelled.
- `CrawlForAIScraper.search_and_scrape`, `_scrape_page` and the `_google_search` stub (scraper.py:179-238) are not modelled. The stub returns None, so the search always fails there. Only `start` and `close` are modelled.
- Concurrency: the asyncio steps run one after the other.

## Findings

| source | as written | input that shows it | evidently intended | confidence | as-written member | corrected member |
|---|---|---|---|---|---|---|
| langgraph_backend/app.py:214 | `state["idx_research_plan"] + 0 if decision["decision"] else 1` parses as `(idx + 0) if decision else 1`, so a negative decision jumps back to step 1 | a 3-step plan with depth bound 2 and every decision negative: the workflow's (plan index, current depth) after each routing step and scrape goes (1, 2) → (2, 1) → (1, 2) … and `gen_report` is never reached | `idx + (0 if decision else 1)`: a negative decision moves to the next step, and every run ends within (plan length + 1) × depth bound steps | not executed | Flow.AsWrittenCycles | Flow.CorrectedRunIsBounded |
| langgraph_backend/app.py:244 | the outline passed for slot i marks as done the headings with index `_ > i`, the ones not yet written | headings [a, b], slot 0: the prompt gets ["[done] T", "[done] b"] although b is still to be written | `if _ < i`: the title and the headings already written | not executed | Flow.OutlineMarksUnwritten | Flow.IntendedOutlineIsRendered |
| frontend/src/components/ChatInterface.tsx:83 | the progress message is found as the last assistant message whose text contains "%)" | an earlier report reading "Growth (5%)": the next status event overwrites it, and the next completion deletes it | mark progress messages with the `isProgress` flag, as the chat store does | not executed | ChatInterface.AsWrittenOverwritesReport | ChatInterface.FlaggedStatusKeepsReport |

=== FILE: chat.dfy ===
/**
  The chat state both front-end components keep: messages, conversations and
  the open conversation, with the transitions they share (sending a message,
  selecting, deleting, the connection-lost rewrite, persisting).

  Identifiers that the components draw from `uuidv4()` are parameters, and
  timestamps are left out. Socket emission is a parameter `emitOk` (false when
  `getSocket()` or `emit` throws).
 */
module Chat {
  import opened Wrappers
  import opened Text
  import opened ResearchTree
  import opened Media

  datatype Role = User | Assistant | System

  /**
    A chat message: `isProgress` is false when the flag is absent; `progress`,
    `tree` (the research tree snapshot) and `media` are absent on plain messages.
   */
  datatype Message = Message(id: string, content: string, role: Role, isProgress: bool,
                             progress: Option<int>, tree: Option<Snapshot>, media: Option<MediaBundle>)

  /** A plain message without progress, tree or media. */
  function Plain(id: string, content: string, role: Role): Message {
    Message(id, content, role, false, None, None, None)
  }

  datatype ChatState = ChatState(messages: seq<Message>, isLoading: bool, error: Option<string>)

  datatype Conversation = Conversation(id: string, title: string, messages: seq<Message>, active: bool)

  /** A conversation as read back from `localStorage`: `messages` is None when it is not an array. */
  datatype StoredConversation = StoredConversation(id: string, title: string, messages: Option<seq<Message>>, active: bool)

  /** The parsed `chatData` item: `conversations` is None when it is not an array. */
  datatype StoredData = StoredData(conversations: Option<seq<StoredConversation>>, currentId: Option<string>)

  /** Everything a component holds: the visible chat, the conversation list and the open conversation id. */
  datatype Session = Session(chat: ChatState, conversations: seq<Conversation>, current: Option<string>)

  // ---------------------------------------------------------------------------
  // Array helpers

  /** `Array.prototype.findLastIndex`. */
  function FindLastIndex(ms: seq<Message>, p: Message -> bool): (r: int)
    ensures -1 <= r < |ms|
    ensures r == -1 <==> forall i :: 0 <= i < |ms| ==> !p(ms[i])
    ensures r >= 0 ==> p(ms[r]) && forall i :: r < i < |ms| ==> !p(ms[i])
  {
    if ms == [] then -1
    else if p(ms[|ms| - 1]) then |ms| - 1
    else
      var r := FindLastIndex(ms[..|ms| - 1], p);
      assert forall i :: 0 <= i < |ms| - 1 ==> ms[..|ms| - 1][i] == ms[i];
      r
  }

  /** `splice(i, 1)`. */
  function RemoveAt(ms: seq<Message>, i: nat): (r: seq<Message>)
    requires i < |ms|
    ensures |r| == |ms| - 1
    ensures forall k :: 0 <= k < i ==> r[k] == ms[k]
    ensures forall k :: i <= k < |r| ==> r[k] == ms[k + 1]
  {
    ms[..i] + ms[i + 1..]
  }

  /** How many messages satisfy `p`. */
  function CountWhere(ms: seq<Message>, p: Message -> bool): (n: nat)
    ensures n <= |ms|
  {
    if ms == [] then 0 else CountWhere(ms[..|ms| - 1], p) + (if p(ms[|ms| - 1]) then 1 else 0)
  }

  lemma {:induction false} CountWhereAppend(a: seq<Message>, b: seq<Message>, p: Message -> bool)
    ensures CountWhere(a + b, p) == CountWhere(a, p) + CountWhere(b, p)
    decreases |b|
  {
    if b == [] {
      assert a + b == a;
    } else {
      assert (a + b)[..|a + b| - 1] == a + b[..|b| - 1];
      CountWhereAppend(a, b[..|b| - 1], p);
    }
  }

  /** The count splits around any position. */
  lemma CountWhereSplit(ms: seq<Message>, i: nat, p: Message -> bool)
    requires i < |ms|
    ensures CountWhere(ms, p) == CountWhere(ms[..i], p) + (if p(ms[i]) then 1 else 0) + CountWhere(ms[i + 1..], p)
  {
    var a, x, b := ms[..i], [ms[i]], ms[i + 1..];
    assert ms == (a + x) + b;
    CountWhereAppend(a + x, b, p);
    CountWhereAppend(a, x, p);
    assert CountWhere(x, p) == (if p(ms[i]) then 1 else 0) by { assert x[..0] == []; }
  }

  /** Removing one matching message lowers the count by one. */
  lemma CountWhereRemove(ms: seq<Message>, i: nat, p: Message -> bool)
    requires i < |ms| && p(ms[i])
    ensures CountWhere(RemoveAt(ms, i), p) == CountWhere(ms, p) - 1
  {
    CountWhereSplit(ms, i, p);
    CountWhereAppend(ms[..i], ms[i + 1..], p);
  }

  /** Replacing one matching message by another matching one keeps the count. */
  lemma CountWhereReplace(ms: seq<Message>, i: nat, m: Message, p: Message -> bool)
    requires i < |ms| && p(ms[i]) && p(m)
    ensures CountWhere(ms[i := m], p) == CountWhere(ms, p)
  {
    var ms' := ms[i := m];
    CountWhereSplit(ms, i, p);
    CountWhereSplit(ms', i, p);
    assert ms'[..i] == ms[..i] && ms'[i + 1..] == ms[i + 1..];
  }

  /** No message satisfies `p` exactly when the count is zero. */
  lemma {:induction false} CountWhereZero(ms: seq<Message>, p: Message -> bool)
    ensures CountWhere(ms, p) == 0 <==> forall i :: 0 <= i < |ms| ==> !p(ms[i])
    decreases |ms|
  {
    if ms != [] {
      CountWhereZero(ms[..|ms| - 1], p);
      assert forall i :: 0 <= i < |ms| - 1 ==> ms[..|ms| - 1][i] == ms[i];
    }
  }

  // ---------------------------------------------------------------------------
  // Connection lost

  /** A message that was still in progress becomes a "Connection error" message. */
  function ConnectionLost(m: Message): Message {
    if m.isProgress then m.(content := "Connection error", isProgress := false) else m
  }

  /** Rewrites every in-progress message as a connection error; the others are kept. */
  function MarkLost(ms: seq<Message>): (r: seq<Message>)
    ensures |r| == |ms|
    ensures forall i :: 0 <= i < |ms| ==> !r[i].isProgress
    ensures forall i :: 0 <= i < |ms| && !ms[i].isProgress ==> r[i] == ms[i]
    ensures forall i :: 0 <= i < |ms| && ms[i].isProgress ==>
              r[i] == ms[i].(content := "Connection error", isProgress := false)
  {
    seq(|ms|, i requires 0 <= i < |ms| => ConnectionLost(ms[i]))
  }

  /** Rewriting twice is rewriting once. */
  lemma MarkLostIdempotent(ms: seq<Message>)
    ensures MarkLost(MarkLost(ms)) == MarkLost(ms)
  {
  }

  // ---------------------------------------------------------------------------
  // Sending

  /** A conversation id is set when it is neither null nor empty. */
  predicate IsOpen(current: Option<string>) {
    current.Some? && current.value != []
  }

  /**
    The title of a new conversation: the text, cut to 30 characters with
    "..." when longer. Lengths count characters; JavaScript's `length` and
    `substring` count UTF-16 code units, so for text outside the Basic
    Multilingual Plane (emoji) the source cuts at a different place.
   */
  function Title(content: string): (t: string)
    ensures |t| <= 33
    ensures |content| <= 30 ==> t == content
    ensures |content| > 30 ==> |t| == 33 && t[..30] == content[..30] && t[30..] == "..."
  {
    if |content| > 30 then content[..30] + "..." else content
  }

  /** Marks only the conversation with this id as active. */
  function Activate(cs: seq<Conversation>, id: string): (r: seq<Conversation>)
    ensures |r| == |cs|
    ensures forall i :: 0 <= i < |cs| ==> r[i] == cs[i].(active := cs[i].id == id)
  {
    seq(|cs|, i requires 0 <= i < |cs| => cs[i].(active := cs[i].id == id))
  }

  /** Appends `m` to the conversation with this id and makes it the only active one. */
  function AppendTo(cs: seq<Conversation>, id: string, m: Message): (r: seq<Conversation>)
    ensures |r| == |cs|
    ensures forall i :: 0 <= i < |cs| ==>
              r[i] == cs[i].(active := cs[i].id == id,
                             messages := if cs[i].id == id then cs[i].messages + [m] else cs[i].messages)
  {
    seq(|cs|, i requires 0 <= i < |cs| =>
      cs[i].(active := cs[i].id == id, messages := if cs[i].id == id then cs[i].messages + [m] else cs[i].messages))
  }

  /** Ids as `uuidv4()` draws them for one send: the user message, the new conversation. */
  datatype SendIds = SendIds(message: string, conversation: string)

  /**
    `sendMessage(content)`: blank input is ignored. Otherwise the user message
    goes to the open conversation, or to a new conversation placed first (all
    others deactivated); the chat gains the user message followed by `extra`
    and starts loading; a failed emission records the error and stops loading.
   */
  function Send(s: Session, content: string, ids: SendIds, extra: seq<Message>, emitOk: bool): (r: Session)
    ensures IsBlank(content) ==> r == s
    ensures !IsBlank(content) ==> r.chat.messages == s.chat.messages + [Plain(ids.message, content, User)] + extra
    ensures !IsBlank(content) ==> r.chat.isLoading == emitOk
    ensures !IsBlank(content) ==> r.chat.error == if emitOk then None else Some("Failed to connect to research server")
    ensures !IsBlank(content) && !IsOpen(s.current) ==>
              r.current == Some(ids.conversation) && |r.conversations| == |s.conversations| + 1 &&
              r.conversations[0] == Conversation(ids.conversation, Title(content), [Plain(ids.message, content, User)], true) &&
              forall i :: 0 <= i < |s.conversations| ==> r.conversations[i + 1] == s.conversations[i].(active := false)
    ensures !IsBlank(content) && IsOpen(s.current) ==>
              r.current == s.current && |r.conversations| == |s.conversations| &&
              forall i :: 0 <= i < |s.conversations| ==>
                var c := s.conversations[i];
                r.conversations[i] == c.(active := c.id == s.current.value,
                                         messages := if c.id == s.current.value then c.messages + [Plain(ids.message, content, User)] else c.messages)
  {
    if IsBlank(content) then s
    else
      var m := Plain(ids.message, content, User);
      var (convs, current) :=
        if !IsOpen(s.current) then
          ([Conversation(ids.conversation, Title(content), [m], true)] + Deactivate(s.conversations), Some(ids.conversation))
        else (AppendTo(s.conversations, s.current.value, m), s.current);
      var chat := ChatState(s.chat.messages + [m] + extra, true, None);
      Session(if emitOk then chat else chat.(error := Some("Failed to connect to research server"), isLoading := false),
              convs, current)
  }

  /** Every conversation inactive. */
  function Deactivate(cs: seq<Conversation>): (r: seq<Conversation>)
    ensures |r| == |cs|
    ensures forall i :: 0 <= i < |cs| ==> r[i] == cs[i].(active := false)
  {
    seq(|cs|, i requires 0 <= i < |cs| => cs[i].(active := false))
  }

  /** The conversations marked active are exactly those with the open id. */
  predicate ActiveIsCurrent(cs: seq<Conversation>, current: Option<string>) {
    forall i :: 0 <= i < |cs| ==> (cs[i].active <==> current.Some? && cs[i].id == current.value)
  }

  predicate UniqueIds(cs: seq<Conversation>) {
    forall i, j :: 0 <= i < j < |cs| ==> cs[i].id != cs[j].id
  }

  /** The conversation list after a send: the new conversation first, or the open one updated. */
  lemma SendConversations(s: Session, content: string, ids: SendIds, extra: seq<Message>, emitOk: bool)
    requires !IsBlank(content)
    ensures var r := Send(s, content, ids, extra, emitOk);
            var m := Plain(ids.message, content, User);
            if IsOpen(s.current) then r.conversations == AppendTo(s.conversations, s.current.value, m)
            else r.conversations == [Conversation(ids.conversation, Title(content), [m], true)] + Deactivate(s.conversations)
  {
  }

  /** After a send with a fresh conversation id, the conversations marked active are exactly the open one. */
  lemma SendActivatesCurrent(s: Session, content: string, ids: SendIds, extra: seq<Message>, emitOk: bool)
    requires !IsBlank(content)
    requires forall i :: 0 <= i < |s.conversations| ==> s.conversations[i].id != ids.conversation
    ensures var r := Send(s, content, ids, extra, emitOk);
            ActiveIsCurrent(r.conversations, r.current)
  {
    var r := Send(s, content, ids, extra, emitOk);
    SendConversations(s, content, ids, extra, emitOk);
    var cs := r.conversations;
    if IsOpen(s.current) {
      assert r.current == s.current;
      forall i | 0 <= i < |cs| ensures cs[i].active <==> r.current.Some? && cs[i].id == r.current.value {
        assert cs[i].active == (s.conversations[i].id == s.current.value);
      }
    } else {
      assert r.current == Some(ids.conversation);
      var d := Deactivate(s.conversations);
      forall i | 0 <= i < |cs| ensures cs[i].active <==> r.current.Some? && cs[i].id == r.current.value {
        if i > 0 { assert cs[i] == d[i - 1] && d[i - 1].id == s.conversations[i - 1].id; }
      }
    }
  }

  /** A send with a fresh conversation id keeps conversation ids unique. */
  lemma SendKeepsIdsUnique(s: Session, content: string, ids: SendIds, extra: seq<Message>, emitOk: bool)
    requires !IsBlank(content) && UniqueIds(s.conversations)
    requires forall i :: 0 <= i < |s.conversations| ==> s.conversations[i].id != ids.conversation
    ensures UniqueIds(Send(s, content, ids, extra, emitOk).conversations)
  {
    SendConversations(s, content, ids, extra, emitOk);
    if IsOpen(s.current) {
      AppendToKeepsUnique(s.conversations, s.current.value, Plain(ids.message, content, User));
    } else {
      NewFirstKeepsUnique(Conversation(ids.conversation, Title(content), [Plain(ids.message, content, User)], true),
                          s.conversations);
    }
  }

  /** Appending to a conversation keeps the ids unique. */
  lemma AppendToKeepsUnique(cs: seq<Conversation>, id: string, m: Message)
    requires UniqueIds(cs)
    ensures UniqueIds(AppendTo(cs, id, m))
  {
    var r := AppendTo(cs, id, m);
    forall i, j | 0 <= i < j < |r| ensures r[i].id != r[j].id {
      assert r[i].id == cs[i].id && r[j].id == cs[j].id;
    }
  }

  /** A conversation with a fresh id put in front of the deactivated list keeps the ids unique. */
  lemma NewFirstKeepsUnique(c: Conversation, cs: seq<Conversation>)
    requires UniqueIds(cs) && forall i :: 0 <= i < |cs| ==> cs[i].id != c.id
    ensures UniqueIds([c] + Deactivate(cs))
  {
    var r := [c] + Deactivate(cs);
    forall i, j | 0 <= i < j < |r| ensures r[i].id != r[j].id {
      assert r[j].id == cs[j - 1].id;
      if i > 0 { assert r[i].id == cs[i - 1].id; }
    }
  }

  /** After a send, every active conversation ends with the message just sent. */
  lemma SendDeliversToCurrent(s: Session, content: string, ids: SendIds, extra: seq<Message>, emitOk: bool)
    requires !IsBlank(content)
    ensures var r := Send(s, content, ids, extra, emitOk);
            forall i :: 0 <= i < |r.conversations| && r.conversations[i].active ==>
              |r.conversations[i].messages| >= 1 &&
              r.conversations[i].messages[|r.conversations[i].messages| - 1] == Plain(ids.message, content, User)
  {
    var r := Send(s, content, ids, extra, emitOk);
    SendConversations(s, content, ids, extra, emitOk);
    var cs := r.conversations;
    if !IsOpen(s.current) {
      var d := Deactivate(s.conversations);
      assert forall i :: 0 < i < |cs| ==> cs[i] == d[i - 1];
      assert forall i :: 0 < i < |cs| ==> !cs[i].active;
    }
  }

  // ---------------------------------------------------------------------------
  // New, select, delete

  /** `newConversation()`: nothing open and an empty chat. */
  function NewConversation(s: Session): (r: Session)
    ensures r.current == None && r.chat.messages == [] && !r.chat.isLoading && r.chat.error == None
    ensures r.conversations == s.conversations
  {
    Session(ChatState([], false, None), s.conversations, None)
  }

  /** `conversations.find(c => c.id === id)`. */
  function FindConversation(cs: seq<Conversation>, id: string): (r: Option<Conversation>)
    ensures r.None? <==> forall i :: 0 <= i < |cs| ==> cs[i].id != id
    ensures r.Some? ==> exists i :: 0 <= i < |cs| && cs[i] == r.value &&
                                    r.value.id == id && forall j :: 0 <= j < i ==> cs[j].id != id
  {
    if cs == [] then None
    else if cs[0].id == id then Some(cs[0])
    else
      var r := FindConversation(cs[1..], id);
      assert forall i :: 1 <= i < |cs| ==> cs[i] == cs[1..][i - 1];
      if r.Some? then
        var i :| 0 <= i < |cs[1..]| && cs[1..][i] == r.value && r.value.id == id && forall j :: 0 <= j < i ==> cs[1..][j].id != id;
        assert cs[i + 1] == r.value;
        r
      else r
  }

  /**
    `selectConversation(id)`: opens `id`, shows the messages saved for it (none
    when it is not saved) and marks only it active.
   */
  function Select(s: Session, id: string, saved: seq<Conversation>): (r: Session)
    ensures r.current == Some(id)
    ensures ActiveIsCurrent(r.conversations, r.current)
    ensures FindConversation(saved, id).None? ==> r.chat.messages == []
    ensures FindConversation(saved, id).Some? ==> r.chat.messages == FindConversation(saved, id).value.messages
    ensures !r.chat.isLoading && r.chat.error == None
    ensures |r.conversations| == |s.conversations|
    ensures forall i :: 0 <= i < |s.conversations| ==>
              r.conversations[i].id == s.conversations[i].id && r.conversations[i].messages == s.conversations[i].messages
  {
    var messages := match FindConversation(saved, id) case Some(c) => c.messages case None => [];
    Session(ChatState(messages, false, None), Activate(s.conversations, id), Some(id))
  }

  /** The conversations without `id`, in order. */
  function Without(cs: seq<Conversation>, id: string): (r: seq<Conversation>)
    ensures |r| <= |cs|
    ensures forall i :: 0 <= i < |r| ==> r[i].id != id
  {
    if cs == [] then []
    else (if cs[0].id == id then [] else [cs[0]]) + Without(cs[1..], id)
  }

  /** Deleting keeps every other conversation, in order: deleting from two halves is deleting from the whole. */
  lemma {:induction false} WithoutAppend(a: seq<Conversation>, b: seq<Conversation>, id: string)
    ensures Without(a + b, id) == Without(a, id) + Without(b, id)
  {
    if a == [] {
      assert a + b == b;
    } else {
      assert (a + b)[0] == a[0] && (a + b)[1..] == a[1..] + b;
      WithoutAppend(a[1..], b, id);
    }
  }

  /** Every conversation with another id survives the deletion. */
  lemma {:induction false} WithoutKeepsOthers(cs: seq<Conversation>, id: string)
    ensures forall i :: 0 <= i < |cs| && cs[i].id != id ==> cs[i] in Without(cs, id)
  {
    if cs != [] {
      WithoutKeepsOthers(cs[1..], id);
      assert forall i :: 1 <= i < |cs| ==> cs[i] == cs[1..][i - 1];
    }
  }

  /** `deleteConversation(id)`: drops it from the list; deleting the open one starts a new conversation. */
  function Delete(s: Session, id: string): (r: Session)
    ensures r.conversations == Without(s.conversations, id)
    ensures s.current == Some(id) ==> r == NewConversation(s).(conversations := r.conversations)
    ensures s.current != Some(id) ==> r.chat == s.chat && r.current == s.current
  {
    var s' := s.(conversations := Without(s.conversations, id));
    if s.current == Some(id) then NewConversation(s') else s'
  }

  /** `deleteAllConversations()`. */
  function DeleteAll(s: Session): (r: Session)
    ensures r.conversations == [] && r.current == None && r.chat.messages == []
  {
    NewConversation(s.(conversations := []))
  }

  // ---------------------------------------------------------------------------
  // Persisting

  /** The conversations as saved: the open one carries the visible messages. */
  function Persisted(cs: seq<Conversation>, current: Option<string>, messages: seq<Message>): (r: seq<Conversation>)
    ensures |r| == |cs|
    ensures forall i :: 0 <= i < |cs| ==>
              r[i] == if current == Some(cs[i].id) then cs[i].(messages := messages) else cs[i]
  {
    seq(|cs|, i requires 0 <= i < |cs| => if current == Some(cs[i].id) then cs[i].(messages := messages) else cs[i])
  }

  /** Saving and then selecting the open conversation shows the same messages. */
  lemma PersistThenSelect(s: Session, id: string)
    requires s.current == Some(id)
    requires exists i :: 0 <= i < |s.conversations| && s.conversations[i].id == id
    ensures Select(s, id, Persisted(s.conversations, s.current, s.chat.messages)).chat.messages == s.chat.messages
  {
    var saved := Persisted(s.conversations, s.current, s.chat.messages);
    var k :| 0 <= k < |s.conversations| && s.conversations[k].id == id;
    assert saved[k].id == id;
    var found := FindConversation(saved, id);
    assert found.Some?;
  }
}

=== FILE: chat_context.dfy ===
/**
  The chat store provider: how the visible chat reacts to the research
  server's events (`status`, `research_complete`, `research_aborted`, `error`,
  a lost connection), what a send adds, and how the conversations are saved
  to and loaded from browser storage.

  Progress is tracked by an explicit flag: the message the store keeps up to
  date is the last assistant message with `isProgress` set.
 */
module ChatContext {
  import opened Wrappers
  import opened Text
  import opened ResearchTree
  import opened Media
  import opened Chat

  /** The assistant message that shows a running research. */
  predicate IsLiveProgress(m: Message) {
    m.role == Assistant && m.isProgress
  }

  function LiveCount(ms: seq<Message>): nat {
    CountWhere(ms, IsLiveProgress)
  }

  predicate NoLive(ms: seq<Message>) {
    forall i :: 0 <= i < |ms| ==> !IsLiveProgress(ms[i])
  }

  // ---------------------------------------------------------------------------
  // Server events

  datatype StatusUpdate = StatusUpdate(message: string, progress: int, tree: Option<Snapshot>)

  /** The `{}` media a fresh progress message starts with. */
  const NoMedia := MediaBundle([], [], [])

  /**
    `status`: the last live progress message shows the update's text, progress
    and tree; without one, a new live progress message is appended. Either way
    the chat is loading and nothing else changes.
   */
  function OnStatus(st: ChatState, u: StatusUpdate, freshId: string): (r: ChatState)
    ensures r.isLoading && r.error == st.error
    ensures FindLastIndex(st.messages, IsLiveProgress) == -1 ==>
              r.messages == st.messages + [Message(freshId, u.message, Assistant, true, Some(u.progress), u.tree, Some(NoMedia))]
    ensures var k := FindLastIndex(st.messages, IsLiveProgress);
            k >= 0 ==> |r.messages| == |st.messages| &&
                       r.messages[k] == st.messages[k].(content := u.message, progress := Some(u.progress), tree := u.tree) &&
                       forall i :: 0 <= i < |st.messages| && i != k ==> r.messages[i] == st.messages[i]
  {
    var k := FindLastIndex(st.messages, IsLiveProgress);
    var messages :=
      if k == -1 then st.messages + [Message(freshId, u.message, Assistant, true, Some(u.progress), u.tree, Some(NoMedia))]
      else st.messages[k := st.messages[k].(content := u.message, progress := Some(u.progress), tree := u.tree)];
    st.(messages := messages, isLoading := true)
  }

  /** After a status update exactly one more live progress message exists only if there was none. */
  lemma StatusKeepsOneLive(st: ChatState, u: StatusUpdate, freshId: string)
    ensures LiveCount(OnStatus(st, u, freshId).messages) == if LiveCount(st.messages) == 0 then 1 else LiveCount(st.messages)
  {
    var k := FindLastIndex(st.messages, IsLiveProgress);
    var r := OnStatus(st, u, freshId);
    CountWhereZero(st.messages, IsLiveProgress);
    if k == -1 {
      var m := Message(freshId, u.message, Assistant, true, Some(u.progress), u.tree, Some(NoMedia));
      CountWhereAppend(st.messages, [m], IsLiveProgress);
      assert [m][..0] == [];
    } else {
      assert r.messages == st.messages[k := r.messages[k]];
      CountWhereReplace(st.messages, k, r.messages[k], IsLiveProgress);
    }
  }

  /** After a status update, the live progress message the store finds shows that update. */
  lemma StatusIsShown(st: ChatState, u: StatusUpdate, freshId: string)
    ensures var r := OnStatus(st, u, freshId);
            var k := FindLastIndex(r.messages, IsLiveProgress);
            k >= 0 && r.messages[k].content == u.message && r.messages[k].progress == Some(u.progress) &&
            r.messages[k].tree == u.tree
  {
    var r := OnStatus(st, u, freshId);
    var k := FindLastIndex(st.messages, IsLiveProgress);
    if k >= 0 {
      assert IsLiveProgress(r.messages[k]);
      assert forall i :: k < i < |r.messages| ==> r.messages[i] == st.messages[i];
      assert FindLastIndex(r.messages, IsLiveProgress) == k;
    } else {
      assert FindLastIndex(r.messages, IsLiveProgress) == |st.messages|;
    }
  }

  /** A finished research as the server reports it. */
  datatype ResearchResults = ResearchResults(content: string, media: Option<MediaBundle>, tree: Option<Snapshot>)

  /** `results.content || "Error: No content available"`. */
  function ReportText(content: string): (t: string)
    ensures t != []
    ensures content != [] ==> t == content
  {
    if content == [] then "Error: No content available" else content
  }

  /** The chat's messages without the last live progress message, if there is one. */
  function DropLive(ms: seq<Message>): (r: seq<Message>)
    ensures FindLastIndex(ms, IsLiveProgress) == -1 ==> r == ms
    ensures FindLastIndex(ms, IsLiveProgress) >= 0 ==> r == RemoveAt(ms, FindLastIndex(ms, IsLiveProgress))
  {
    var k := FindLastIndex(ms, IsLiveProgress);
    if k == -1 then ms else RemoveAt(ms, k)
  }

  /** Dropping the live message keeps every other message. */
  lemma DropLiveKeepsOthers(ms: seq<Message>)
    ensures forall i :: 0 <= i < |ms| && !IsLiveProgress(ms[i]) ==> ms[i] in DropLive(ms)
  {
    var k := FindLastIndex(ms, IsLiveProgress);
    var r := DropLive(ms);
    forall i | 0 <= i < |ms| && !IsLiveProgress(ms[i]) ensures ms[i] in r {
      if k == -1 || i < k {
        assert r[i] == ms[i];
      } else {
        assert r[i - 1] == ms[i];
      }
    }
  }

  /** Dropping the live message lowers the live count by one, down to zero. */
  lemma DropLiveCount(ms: seq<Message>)
    ensures LiveCount(DropLive(ms)) == if LiveCount(ms) == 0 then 0 else LiveCount(ms) - 1
  {
    var k := FindLastIndex(ms, IsLiveProgress);
    CountWhereZero(ms, IsLiveProgress);
    if k >= 0 {
      CountWhereRemove(ms, k, IsLiveProgress);
    }
  }

  /**
    `research_complete`: the live progress message is replaced by the report,
    appended last with its media and tree; loading stops.
   */
  function OnComplete(st: ChatState, res: ResearchResults, freshId: string): (r: ChatState)
    ensures !r.isLoading && r.error == st.error
    ensures r.messages == DropLive(st.messages) + [Message(freshId, ReportText(res.content), Assistant, false, None, res.tree, res.media)]
  {
    st.(messages := DropLive(st.messages) + [Message(freshId, ReportText(res.content), Assistant, false, None, res.tree, res.media)],
        isLoading := false)
  }

  /** `research_aborted`: the live progress message is replaced by a cancellation notice; loading stops. */
  function OnAborted(st: ChatState, freshId: string): (r: ChatState)
    ensures !r.isLoading && r.error == st.error
    ensures r.messages == DropLive(st.messages) + [Plain(freshId, "Research has been canceled.", Assistant)]
  {
    st.(messages := DropLive(st.messages) + [Plain(freshId, "Research has been canceled.", Assistant)], isLoading := false)
  }

  /** Appending a message that is not live progress to a chat without live progress keeps it so. */
  lemma AppendNotLive(d: seq<Message>, m: Message)
    requires NoLive(d) && !IsLiveProgress(m)
    ensures NoLive(d + [m])
  {
    forall i | 0 <= i < |d| + 1 ensures !IsLiveProgress((d + [m])[i]) {
      if i < |d| { assert (d + [m])[i] == d[i]; }
    }
  }

  /** With at most one live progress message, dropping it leaves none. */
  lemma DropLiveLeavesNone(ms: seq<Message>)
    requires LiveCount(ms) <= 1
    ensures NoLive(DropLive(ms))
  {
    DropLiveCount(ms);
    CountWhereZero(DropLive(ms), IsLiveProgress);
  }

  /** Completing or aborting a research with at most one live progress message leaves none. */
  lemma FinishingEndsProgress(st: ChatState, res: ResearchResults, freshId: string)
    requires LiveCount(st.messages) <= 1
    ensures NoLive(OnComplete(st, res, freshId).messages)
    ensures NoLive(OnAborted(st, freshId).messages)
  {
    DropLiveLeavesNone(st.messages);
    AppendNotLive(DropLive(st.messages), Message(freshId, ReportText(res.content), Assistant, false, None, res.tree, res.media));
    AppendNotLive(DropLive(st.messages), Plain(freshId, "Research has been canceled.", Assistant));
  }

  /** `error`: the server's message is shown and loading stops; the messages are kept. */
  function OnError(st: ChatState, message: string): (r: ChatState)
    ensures r.messages == st.messages && r.error == Some(message) && !r.isLoading
  {
    st.(error := Some(message), isLoading := false)
  }

  /** `disconnect`: every progress message becomes a connection error; loading stops with an error. */
  function OnDisconnect(st: ChatState): (r: ChatState)
    ensures |r.messages| == |st.messages| && NoLive(r.messages)
    ensures forall i :: 0 <= i < |st.messages| && !st.messages[i].isProgress ==> r.messages[i] == st.messages[i]
    ensures forall i :: 0 <= i < |st.messages| && st.messages[i].isProgress ==>
              r.messages[i] == st.messages[i].(content := "Connection error", isProgress := false)
    ensures !r.isLoading && r.error == Some("Lost connection to research server")
  {
    ChatState(MarkLost(st.messages), false, Some("Lost connection to research server"))
  }

  /** A second disconnect changes nothing more. */
  lemma DisconnectIdempotent(st: ChatState)
    ensures OnDisconnect(OnDisconnect(st)) == OnDisconnect(st)
  {
    MarkLostIdempotent(st.messages);
  }

  // ---------------------------------------------------------------------------
  // User actions

  /** The placeholder that shows while the server has not reported progress. */
  function Loading(id: string): Message {
    Message(id, "Loading...", Assistant, true, None, None, None)
  }

  /** `sendMessage(content)`: the user message and a loading placeholder join the chat. */
  function SendMessage(s: Session, content: string, ids: SendIds, loadingId: string, emitOk: bool): (r: Session)
    ensures IsBlank(content) ==> r == s
    ensures !IsBlank(content) ==> r.chat.messages == s.chat.messages + [Plain(ids.message, content, User), Loading(loadingId)]
    ensures !IsBlank(content) ==> LiveCount(r.chat.messages) == LiveCount(s.chat.messages) + 1
  {
    var r := Send(s, content, ids, [Loading(loadingId)], emitOk);
    CountWhereAppend(s.chat.messages, [Plain(ids.message, content, User), Loading(loadingId)], IsLiveProgress);
    CountWhereAppend([Plain(ids.message, content, User)], [Loading(loadingId)], IsLiveProgress);
    assert [Plain(ids.message, content, User), Loading(loadingId)] == [Plain(ids.message, content, User)] + [Loading(loadingId)];
    r
  }

  /** `abortResearch()`: asking the server to abort keeps the chat loading until it confirms. */
  function AbortResearch(st: ChatState, emitOk: bool): (r: ChatState)
    ensures r.messages == st.messages
    ensures emitOk ==> r.isLoading && r.error == st.error
    ensures !emitOk ==> r.isLoading == st.isLoading && r.error == Some("Failed to abort research")
  {
    if emitOk then st.(isLoading := true) else st.(error := Some("Failed to abort research"))
  }

  /** Applies status updates in order, all new messages drawing the same id. */
  function ApplyStatuses(st: ChatState, us: seq<StatusUpdate>, freshId: string): ChatState
    decreases |us|
  {
    if us == [] then st else ApplyStatuses(OnStatus(st, us[0], freshId), us[1..], freshId)
  }

  /** Status updates only rewrite a trailing live progress message. */
  lemma {:induction false} StatusesKeepTail(st: ChatState, pre: seq<Message>, us: seq<StatusUpdate>, freshId: string)
    requires NoLive(pre) && |st.messages| == |pre| + 1 && st.messages[..|pre|] == pre && IsLiveProgress(st.messages[|pre|])
    ensures var r := ApplyStatuses(st, us, freshId).messages;
            |r| == |pre| + 1 && r[..|pre|] == pre && IsLiveProgress(r[|pre|])
    decreases |us|
  {
    if us != [] {
      var r := OnStatus(st, us[0], freshId);
      assert forall i :: 0 <= i < |pre| ==> st.messages[i] == pre[i];
      assert FindLastIndex(st.messages, IsLiveProgress) == |pre|;
      assert r.messages[..|pre|] == pre;
      StatusesKeepTail(r, pre, us[1..], freshId);
    }
  }

  /**
    A whole research round: from a chat without running research, sending a
    question, receiving any status updates and then the results leaves the
    chat with exactly the question and the report appended, and no progress.
   */
  lemma ResearchRound(s: Session, content: string, ids: SendIds, loadingId: string,
                      us: seq<StatusUpdate>, statusId: string, res: ResearchResults, reportId: string)
    requires NoLive(s.chat.messages) && !IsBlank(content)
    ensures var sent := SendMessage(s, content, ids, loadingId, true);
            var done := OnComplete(ApplyStatuses(sent.chat, us, statusId), res, reportId);
            done.messages == s.chat.messages + [Plain(ids.message, content, User),
                                                Message(reportId, ReportText(res.content), Assistant, false, None, res.tree, res.media)] &&
            NoLive(done.messages) && !done.isLoading
  {
    var pre := s.chat.messages + [Plain(ids.message, content, User)];
    var sent := SendMessage(s, content, ids, loadingId, true);
    assert sent.chat.messages == pre + [Loading(loadingId)];
    assert sent.chat.messages[..|pre|] == pre;
    StatusesKeepTail(sent.chat, pre, us, statusId);
    var mid := ApplyStatuses(sent.chat, us, statusId).messages;
    assert forall i :: 0 <= i < |pre| ==> mid[i] == pre[i];
    assert FindLastIndex(mid, IsLiveProgress) == |pre|;
    assert DropLive(mid) == pre;
  }

  // ---------------------------------------------------------------------------
  // Storage

  /** What the store saves and loads: the conversations and the open conversation. */
  datatype ChatData = ChatData(conversations: seq<Conversation>, currentId: Option<string>)

  /** A stored conversation with its messages, a missing message list read as empty. */
  function Restore(c: StoredConversation): Conversation {
    Conversation(c.id, c.title, match c.messages case Some(ms) => ms case None => [], c.active)
  }

  /**
    `loadFromStorage()`: an absent or unreadable item gives no conversations;
    a list that is not an array gives none; each conversation's messages
    default to empty.
   */
  function Load(raw: Option<StoredData>): (r: ChatData)
    ensures raw.None? || raw.value.conversations.None? ==> r.conversations == []
    ensures raw.None? ==> r.currentId == None
    ensures raw.Some? ==> r.currentId == raw.value.currentId
    ensures raw.Some? && raw.value.conversations.Some? ==>
              var cs := raw.value.conversations.value;
              |r.conversations| == |cs| &&
              forall i :: 0 <= i < |cs| ==>
                (r.conversations[i].id == cs[i].id && r.conversations[i].title == cs[i].title &&
                 r.conversations[i].active == cs[i].active &&
                 (cs[i].messages.Some? ==> r.conversations[i].messages == cs[i].messages.value) &&
                 (cs[i].messages.None? ==> r.conversations[i].messages == []))
  {
    match raw
    case None => ChatData([], None)
    case Some(d) =>
      var cs := match d.conversations case Some(cs) => cs case None => [];
      ChatData(seq(|cs|, i requires 0 <= i < |cs| => Restore(cs[i])), d.currentId)
  }

  /** What the save effect writes: the conversations with the open one carrying the visible messages. */
  function Save(s: Session): StoredData {
    var cs := Persisted(s.conversations, s.current, s.chat.messages);
    StoredData(Some(seq(|cs|, i requires 0 <= i < |cs| => StoredConversation(cs[i].id, cs[i].title, Some(cs[i].messages), cs[i].active))),
               s.current)
  }

  /** Loading what was saved gives back the conversations (with the visible messages in the open one) and the open id. */
  lemma SaveLoadRoundTrip(s: Session)
    ensures Load(Some(Save(s))) == ChatData(Persisted(s.conversations, s.current, s.chat.messages), s.current)
  {
    var cs := Persisted(s.conversations, s.current, s.chat.messages);
    var r := Load(Some(Save(s)));
    assert |r.conversations| == |cs|;
    forall i | 0 <= i < |cs| ensures r.conversations[i] == cs[i] {
    }
  }

  /**
    The first load: the stored conversations and open id are taken over; the
    open conversation's messages are shown with any progress message turned
    into a connection error, since no research survives a reload.
   */
  function InitialLoad(data: ChatData): (r: Session)
    ensures r.conversations == data.conversations && r.current == data.currentId
    ensures !r.chat.isLoading && r.chat.error == None
    ensures forall i :: 0 <= i < |r.chat.messages| ==> !r.chat.messages[i].isProgress
    ensures IsOpen(data.currentId) && FindConversation(data.conversations, data.currentId.value).Some? ==>
              r.chat.messages == MarkLost(FindConversation(data.conversations, data.currentId.value).value.messages)
    ensures !IsOpen(data.currentId) || FindConversation(data.conversations, data.currentId.value).None? ==>
              r.chat.messages == []
  {
    var messages :=
      if IsOpen(data.currentId) then
        match FindConversation(data.conversations, data.currentId.value)
        case Some(c) => MarkLost(c.messages)
        case None => []
      else [];
    Session(ChatState(messages, false, None), data.conversations, data.currentId)
  }

  /** Reloading the page right after saving shows the same chat, with running research marked as lost. */
  lemma ReloadRestoresChat(s: Session)
    requires IsOpen(s.current)
    requires exists i :: 0 <= i < |s.conversations| && s.conversations[i].id == s.current.value
    ensures InitialLoad(Load(Some(Save(s)))).chat.messages == MarkLost(s.chat.messages)
    ensures InitialLoad(Load(Some(Save(s)))).conversations == Persisted(s.conversations, s.current, s.chat.messages)
  {
    SaveLoadRoundTrip(s);
    var cs := Persisted(s.conversations, s.current, s.chat.messages);
    var k :| 0 <= k < |s.conversations| && s.conversations[k].id == s.current.value;
    assert cs[k].id == s.current.value;
    var found := FindConversation(cs, s.current.value);
    assert found.Some?;
  }
}

=== FILE: chat_interface.dfy ===
/**
  The stand-alone chat component: the same conversation handling as the chat
  store, but progress is shown as text of the form "(N%) message" and the
  final report carries a statistics footer.

  The component finds its progress message by looking for the text "%)" in an
  assistant message (`OnStatusAsWritten`, `OnCompleteAsWritten`). A finished
  report that itself contains "%)" is then taken for a progress message: the
  next research overwrites or removes it. `OnStatus` and `OnComplete` are the
  evidently intended reducers, which mark the progress message with the
  `isProgress` flag as the chat store does; the rest of this module uses them.
 */
module ChatInterface {
  import opened Wrappers
  import opened Text
  import opened Media
  import opened Knet
  import opened Chat
  import opened ChatContext

  /** `(${progress}%) ${message}`. */
  function ProgressText(u: StatusUpdate): string {
    "(" + IntToString(u.progress) + "%) " + u.message
  }

  /** Every progress text carries the "%)" marker the component searches for. */
  lemma ProgressTextIsMarked(u: StatusUpdate)
    ensures Contains(ProgressText(u), "%)")
  {
    var t := ProgressText(u);
    var n := |IntToString(u.progress)|;
    assert t[n + 1..n + 3] == "%)";
    assert OccursAt(t, "%)", n + 1);
  }

  /** A research as the component reads it: the report text, its media and its statistics. */
  datatype Results = Results(content: string, media: Option<MediaBundle>, metadata: Metadata)

  /** `Total Queries: q | Sources Used: s | Search Depth: d`. */
  function Stats(m: Metadata): string {
    Join(" | ", ["Total Queries: " + NatToString(m.totalQueries),
                 "Sources Used: " + NatToString(m.totalSources),
                 "Search Depth: " + IntToString(m.maxDepthReached)])
  }

  const StatsHeader := "\n\n---\n**Research Stats:**\n"
  const ImagesHeader := "\n\n**Relevant Images:**\n"

  /** The images the results carry, none when media or images are missing. */
  function Images(res: Results): seq<string> {
    match res.media case Some(m) => m.images case None => []
  }

  /**
    The shown report: the content, then the statistics footer, then the image
    URLs one per line when there are any.
   */
  function FormatResponse(res: Results): (r: string)
    ensures StartsWith(r, res.content)
    ensures OccursAt(r, StatsHeader + Stats(res.metadata), |res.content|)
    ensures Images(res) == [] ==> |r| == |res.content| + |StatsHeader + Stats(res.metadata)|
    ensures Images(res) != [] ==>
              |r| == |res.content| + |StatsHeader + Stats(res.metadata)| + |ImagesHeader + Join("\n", Images(res))|
    ensures Images(res) != [] ==>
              OccursAt(r, ImagesHeader + Join("\n", Images(res)), |res.content| + |StatsHeader + Stats(res.metadata)|)
  {
    var footer := StatsHeader + Stats(res.metadata);
    var images := if Images(res) != [] then ImagesHeader + Join("\n", Images(res)) else "";
    var r := res.content + footer + images;
    assert r[..|res.content|] == res.content;
    assert r[|res.content|..|res.content| + |footer|] == footer;
    assert r[|res.content| + |footer|..] == images;
    r
  }

  /** Every image URL shows up in the report. */
  lemma ImagesAreListed(res: Results, k: nat)
    requires k < |Images(res)|
    ensures Contains(FormatResponse(res), Images(res)[k])
  {
    var r := FormatResponse(res);
    var images := Images(res);
    var image := images[k];
    var at := |res.content| + |StatsHeader + Stats(res.metadata)|;
    var joined := Join("\n", images);
    assert OccursAt(r, ImagesHeader + joined, at);
    JoinContains("\n", images, k);
    var j :| 0 <= j <= |joined| && OccursAt(joined, image, j);
    OccursAfter(ImagesHeader, joined, image, j);
    OccursWithin(r, ImagesHeader + joined, at, image, |ImagesHeader| + j);
    assert OccursAt(r, image, at + |ImagesHeader| + j);
  }

  /** Every joined part occurs in the joined text. */
  lemma {:induction false} JoinContains(sep: string, parts: seq<string>, k: nat)
    requires k < |parts|
    ensures Contains(Join(sep, parts), parts[k])
    decreases |parts|
  {
    var r := Join(sep, parts);
    if |parts| == 1 {
      assert OccursAt(r, parts[0], 0);
    } else if k == 0 {
      assert r[..|parts[0]|] == parts[0];
      assert OccursAt(r, parts[0], 0);
    } else {
      var rest := Join(sep, parts[1..]);
      JoinContains(sep, parts[1..], k - 1);
      var j :| 0 <= j <= |rest| && OccursAt(rest, parts[1..][k - 1], j);
      var off := |parts[0]| + |sep|;
      assert r == parts[0] + sep + rest;
      assert r[off + j..off + j + |parts[k]|] == rest[j..j + |parts[k]|];
      assert OccursAt(r, parts[k], off + j);
    }
  }

  // ---------------------------------------------------------------------------
  // The reducers as the component writes them

  /** What the component takes for its progress message. */
  predicate ShowsPercent(m: Message) {
    m.role == Assistant && Contains(m.content, "%)")
  }

  /** `status` as written: the last assistant message containing "%)" gets the progress text. */
  function OnStatusAsWritten(st: ChatState, u: StatusUpdate, freshId: string): (r: ChatState)
    ensures r.isLoading && r.error == st.error
    ensures FindLastIndex(st.messages, ShowsPercent) == -1 ==>
              r.messages == st.messages + [Plain(freshId, ProgressText(u), Assistant)]
    ensures var k := FindLastIndex(st.messages, ShowsPercent);
            k >= 0 ==> r.messages == st.messages[k := st.messages[k].(content := ProgressText(u))]
  {
    var k := FindLastIndex(st.messages, ShowsPercent);
    var messages :=
      if k == -1 then st.messages + [Plain(freshId, ProgressText(u), Assistant)]
      else st.messages[k := st.messages[k].(content := ProgressText(u))];
    st.(messages := messages, isLoading := true)
  }

  /** `research_complete` as written: the last assistant message containing "%)" is removed. */
  function OnCompleteAsWritten(st: ChatState, res: Results, freshId: string): (r: ChatState)
    ensures !r.isLoading && r.error == st.error
    ensures var k := FindLastIndex(st.messages, ShowsPercent);
            r.messages == (if k == -1 then st.messages else RemoveAt(st.messages, k)) +
                          [Plain(freshId, FormatResponse(res), Assistant)]
  {
    var k := FindLastIndex(st.messages, ShowsPercent);
    var kept := if k == -1 then st.messages else RemoveAt(st.messages, k);
    st.(messages := kept + [Plain(freshId, FormatResponse(res), Assistant)], isLoading := false)
  }

  /** A finished report that mentions a percentage in parentheses. */
  function PercentReport(): Message {
    Plain("report", "Growth (5%)", Assistant)
  }

  lemma PercentReportShowsPercent()
    ensures ShowsPercent(PercentReport())
  {
    assert OccursAt(PercentReport().content, "%)", 9);
  }

  /** The next research's first status update overwrites the earlier report. */
  lemma AsWrittenOverwritesReport(u: StatusUpdate, freshId: string)
    ensures var st := ChatState([PercentReport()], false, None);
            OnStatusAsWritten(st, u, freshId).messages == [PercentReport().(content := ProgressText(u))]
  {
    PercentReportShowsPercent();
    var st := ChatState([PercentReport()], false, None);
    assert FindLastIndex(st.messages, ShowsPercent) == 0;
  }

  /** A research that finishes without any status update deletes the earlier report. */
  lemma AsWrittenDeletesReport(res: Results, freshId: string)
    ensures var st := ChatState([PercentReport()], true, None);
            OnCompleteAsWritten(st, res, freshId).messages == [Plain(freshId, FormatResponse(res), Assistant)]
  {
    PercentReportShowsPercent();
    var st := ChatState([PercentReport()], true, None);
    assert FindLastIndex(st.messages, ShowsPercent) == 0;
  }

  /** Applies status updates in order with the reducer as written. */
  function ApplyStatusesAsWritten(st: ChatState, us: seq<StatusUpdate>, freshId: string): ChatState
    decreases |us|
  {
    if us == [] then st else ApplyStatusesAsWritten(OnStatusAsWritten(st, us[0], freshId), us[1..], freshId)
  }

  predicate NoPercent(ms: seq<Message>) {
    forall i :: 0 <= i < |ms| ==> !ShowsPercent(ms[i])
  }

  /** As written, status updates on a chat with no "%)" reply add exactly one trailing progress reply. */
  lemma {:induction false} AsWrittenStatusesAddOne(st: ChatState, us: seq<StatusUpdate>, freshId: string)
    requires NoPercent(st.messages) && us != []
    ensures var r := ApplyStatusesAsWritten(st, us, freshId).messages;
            |r| == |st.messages| + 1 && r[..|st.messages|] == st.messages && ShowsPercent(r[|st.messages|])
    decreases |us|
  {
    var pre := st.messages;
    var r := OnStatusAsWritten(st, us[0], freshId);
    assert FindLastIndex(pre, ShowsPercent) == -1;
    ProgressTextIsMarked(us[0]);
    assert r.messages[..|pre|] == pre;
    AsWrittenStatusesStayOne(r, pre, us[1..], freshId);
  }

  /** Further status updates as written only rewrite that trailing reply. */
  lemma {:induction false} AsWrittenStatusesStayOne(st: ChatState, pre: seq<Message>, us: seq<StatusUpdate>, freshId: string)
    requires NoPercent(pre) && |st.messages| == |pre| + 1 && st.messages[..|pre|] == pre && ShowsPercent(st.messages[|pre|])
    ensures var r := ApplyStatusesAsWritten(st, us, freshId).messages;
            |r| == |pre| + 1 && r[..|pre|] == pre && ShowsPercent(r[|pre|])
    decreases |us|
  {
    if us != [] {
      var r := OnStatusAsWritten(st, us[0], freshId);
      assert forall i :: 0 <= i < |pre| ==> st.messages[i] == pre[i];
      assert FindLastIndex(st.messages, ShowsPercent) == |pre|;
      ProgressTextIsMarked(us[0]);
      assert r.messages[..|pre|] == pre;
      AsWrittenStatusesStayOne(r, pre, us[1..], freshId);
    }
  }

  /**
    As written, a whole research round still leaves every earlier message in
    place, followed by the question and the report, as long as no earlier
    assistant reply contains "%)".
   */
  lemma AsWrittenResearchRound(s: Session, content: string, ids: SendIds, us: seq<StatusUpdate>, statusId: string,
                               res: Results, reportId: string)
    requires NoPercent(s.chat.messages) && !IsBlank(content)
    ensures var sent := SendMessage(s, content, ids, true);
            var done := OnCompleteAsWritten(ApplyStatusesAsWritten(sent.chat, us, statusId), res, reportId);
            done.messages == s.chat.messages + [Plain(ids.message, content, User), Plain(reportId, FormatResponse(res), Assistant)] &&
            !done.isLoading
  {
    var pre := s.chat.messages + [Plain(ids.message, content, User)];
    var sent := SendMessage(s, content, ids, true);
    assert sent.chat.messages == pre;
    assert NoPercent(pre);
    var mid := ApplyStatusesAsWritten(sent.chat, us, statusId).messages;
    if us == [] {
      assert FindLastIndex(mid, ShowsPercent) == -1;
    } else {
      AsWrittenStatusesAddOne(sent.chat, us, statusId);
      assert forall i :: 0 <= i < |pre| ==> mid[i] == pre[i];
      assert FindLastIndex(mid, ShowsPercent) == |pre|;
      assert RemoveAt(mid, |pre|) == pre;
    }
  }

  // ---------------------------------------------------------------------------
  // The reducers as intended

  /**
    `status`: the flagged progress message gets the progress text; without one,
    a flagged progress message is appended.
   */
  function OnStatus(st: ChatState, u: StatusUpdate, freshId: string): (r: ChatState)
    ensures r.isLoading && r.error == st.error && |st.messages| <= |r.messages|
    ensures forall i :: 0 <= i < |st.messages| && !IsLiveProgress(st.messages[i]) ==> r.messages[i] == st.messages[i]
    ensures FindLastIndex(st.messages, IsLiveProgress) == -1 ==>
              r.messages == st.messages + [Message(freshId, ProgressText(u), Assistant, true, None, None, None)]
    ensures var k := FindLastIndex(st.messages, IsLiveProgress);
            k >= 0 ==> r.messages == st.messages[k := st.messages[k].(content := ProgressText(u))]
  {
    var k := FindLastIndex(st.messages, IsLiveProgress);
    var messages :=
      if k == -1 then st.messages + [Message(freshId, ProgressText(u), Assistant, true, None, None, None)]
      else st.messages[k := st.messages[k].(content := ProgressText(u))];
    st.(messages := messages, isLoading := true)
  }

  /** `research_complete`: the flagged progress message gives way to the formatted report. */
  function OnComplete(st: ChatState, res: Results, freshId: string): (r: ChatState)
    ensures !r.isLoading && r.error == st.error
    ensures r.messages == DropLive(st.messages) + [Plain(freshId, FormatResponse(res), Assistant)]
  {
    st.(messages := DropLive(st.messages) + [Plain(freshId, FormatResponse(res), Assistant)], isLoading := false)
  }

  /** Completing never loses a message that is not the live progress message. */
  lemma CompleteKeepsFinishedMessages(st: ChatState, res: Results, freshId: string)
    ensures forall i :: 0 <= i < |st.messages| && !IsLiveProgress(st.messages[i]) ==>
              st.messages[i] in OnComplete(st, res, freshId).messages
  {
    DropLiveKeepsOthers(st.messages);
    var r := OnComplete(st, res, freshId).messages;
    assert forall m :: m in DropLive(st.messages) ==> m in r;
  }

  /** With the flag, the earlier report survives the next research's first status update. */
  lemma FlaggedStatusKeepsReport(u: StatusUpdate, freshId: string)
    ensures var st := ChatState([PercentReport()], false, None);
            OnStatus(st, u, freshId).messages ==
              [PercentReport(), Message(freshId, ProgressText(u), Assistant, true, None, None, None)]
  {
    var st := ChatState([PercentReport()], false, None);
    assert FindLastIndex(st.messages, IsLiveProgress) == -1;
  }

  /** `handleSendMessage(content)`: only the user message joins the chat. */
  function SendMessage(s: Session, content: string, ids: SendIds, emitOk: bool): (r: Session)
    ensures IsBlank(content) ==> r == s
    ensures !IsBlank(content) ==> r.chat.messages == s.chat.messages + [Plain(ids.message, content, User)]
    ensures !IsBlank(content) ==> LiveCount(r.chat.messages) == LiveCount(s.chat.messages)
  {
    var r := Send(s, content, ids, [], emitOk);
    assert [Plain(ids.message, content, User)] + [] == [Plain(ids.message, content, User)];
    CountWhereAppend(s.chat.messages, [Plain(ids.message, content, User)], IsLiveProgress);
    assert [Plain(ids.message, content, User)][..0] == [];
    r
  }

  /** Applies status updates in order, all new messages drawing the same id. */
  function ApplyStatuses(st: ChatState, us: seq<StatusUpdate>, freshId: string): ChatState
    decreases |us|
  {
    if us == [] then st else ApplyStatuses(OnStatus(st, us[0], freshId), us[1..], freshId)
  }

  /** Status updates on a chat without live progress add exactly one trailing progress message. */
  lemma {:induction false} StatusesAddOne(st: ChatState, us: seq<StatusUpdate>, freshId: string)
    requires NoLive(st.messages) && us != []
    ensures var r := ApplyStatuses(st, us, freshId).messages;
            |r| == |st.messages| + 1 && r[..|st.messages|] == st.messages && IsLiveProgress(r[|st.messages|])
    decreases |us|
  {
    var pre := st.messages;
    var r := OnStatus(st, us[0], freshId);
    assert FindLastIndex(pre, IsLiveProgress) == -1;
    assert r.messages[..|pre|] == pre;
    StatusesStayOne(r, pre, us[1..], freshId);
  }

  /** Further status updates only rewrite that trailing progress message. */
  lemma {:induction false} StatusesStayOne(st: ChatState, pre: seq<Message>, us: seq<StatusUpdate>, freshId: string)
    requires NoLive(pre) && |st.messages| == |pre| + 1 && st.messages[..|pre|] == pre && IsLiveProgress(st.messages[|pre|])
    ensures var r := ApplyStatuses(st, us, freshId).messages;
            |r| == |pre| + 1 && r[..|pre|] == pre && IsLiveProgress(r[|pre|])
    decreases |us|
  {
    if us != [] {
      var r := OnStatus(st, us[0], freshId);
      assert forall i :: 0 <= i < |pre| ==> st.messages[i] == pre[i];
      assert FindLastIndex(st.messages, IsLiveProgress) == |pre|;
      assert r.messages[..|pre|] == pre;
      StatusesStayOne(r, pre, us[1..], freshId);
    }
  }

  /**
    A whole research round: sending a question, any status updates and the
    results leave every earlier message in place, followed by the question
    and the formatted report.
   */
  lemma ResearchRound(s: Session, content: string, ids: SendIds, us: seq<StatusUpdate>, statusId: string,
                      res: Results, reportId: string)
    requires NoLive(s.chat.messages) && !IsBlank(content)
    ensures var sent := SendMessage(s, content, ids, true);
            var done := OnComplete(ApplyStatuses(sent.chat, us, statusId), res, reportId);
            done.messages == s.chat.messages + [Plain(ids.message, content, User), Plain(reportId, FormatResponse(res), Assistant)] &&
            !done.isLoading
  {
    var pre := s.chat.messages + [Plain(ids.message, content, User)];
    var sent := SendMessage(s, content, ids, true);
    assert sent.chat.messages == pre;
    assert NoLive(pre);
    var mid := ApplyStatuses(sent.chat, us, statusId).messages;
    if us == [] {
      CountWhereZero(pre, IsLiveProgress);
      assert FindLastIndex(mid, IsLiveProgress) == -1;
    } else {
      StatusesAddOne(sent.chat, us, statusId);
      assert forall i :: 0 <= i < |pre| ==> mid[i] == pre[i];
      assert FindLastIndex(mid, IsLiveProgress) == |pre|;
      assert DropLive(mid) == pre;
    }
  }

  // ---------------------------------------------------------------------------
  // Storage

  /** The first stored conversation with this id, or -1 (`Array.prototype.find`, by position). */
  function FirstWithId(cs: seq<StoredConversation>, id: string): (k: int)
    ensures -1 <= k < |cs|
    ensures k == -1 <==> forall i :: 0 <= i < |cs| ==> cs[i].id != id
    ensures k >= 0 ==> cs[k].id == id && forall j :: 0 <= j < k ==> cs[j].id != id
    decreases |cs|
  {
    if cs == [] then -1
    else if cs[0].id == id then 0
    else
      var k := FirstWithId(cs[1..], id);
      assert forall i :: 1 <= i < |cs| ==> cs[i] == cs[1..][i - 1];
      if k == -1 then -1 else k + 1
  }

  /**
    The open conversation is stored, and the first stored conversation with
    its id has a `messages` value that is not an array.
   */
  predicate OpenIsUnreadable(raw: Option<StoredData>) {
    && raw.Some? && raw.value.conversations.Some? && IsOpen(raw.value.currentId)
    && var cs := raw.value.conversations.value;
       exists i :: 0 <= i < |cs| && cs[i].id == raw.value.currentId.value && cs[i].messages.None? &&
                   forall j :: 0 <= j < i ==> cs[j].id != raw.value.currentId.value
  }

  /**
    The component's first load. Unlike the context's loader, the component's
    `loadFromStorage` keeps each stored conversation as it is, so when the open
    conversation's `messages` is not an array the chat state takes `undefined`
    and the next status event, result or send throws on spreading it: that
    load is None. Otherwise the open conversation's messages are shown as
    stored, and a conversation list that is not an array gives no
    conversations.
   */
  function InitialLoad(raw: Option<StoredData>): (r: Option<Session>)
    ensures r.None? <==> OpenIsUnreadable(raw)
    ensures r.Some? ==> r.value.conversations == Load(raw).conversations
    ensures r.Some? && (raw.None? || raw.value.conversations.None?) ==> r.value.conversations == [] && r.value.chat.messages == []
    ensures r.Some? && raw.Some? ==> r.value.current == raw.value.currentId
    ensures r.Some? ==> !r.value.chat.isLoading && r.value.chat.error == None
    ensures r.Some? && raw.Some? && raw.value.conversations.Some? && IsOpen(raw.value.currentId) ==>
              var cs := raw.value.conversations.value;
              forall i :: 0 <= i < |cs| && cs[i].id == raw.value.currentId.value && cs[i].messages.Some? &&
                          (forall j :: 0 <= j < i ==> cs[j].id != raw.value.currentId.value) ==>
                r.value.chat.messages == cs[i].messages.value
    ensures r.Some? && raw.Some? && raw.value.conversations.Some? &&
            (!IsOpen(raw.value.currentId) ||
             forall i :: 0 <= i < |raw.value.conversations.value| ==>
               raw.value.conversations.value[i].id != raw.value.currentId.value) ==>
              r.value.chat.messages == []
  {
    var data := Load(raw);
    if raw.Some? && raw.value.conversations.Some? && IsOpen(raw.value.currentId) then
      var cs, id := raw.value.conversations.value, raw.value.currentId.value;
      var k := FirstWithId(cs, id);
      FirstWithIdIsFirst(cs, id);
      if k >= 0 && cs[k].messages.None? then None
      else
        var messages := if k >= 0 then cs[k].messages.value else [];
        Some(Session(ChatState(messages, false, None), data.conversations, data.currentId))
    else Some(Session(ChatState([], false, None), data.conversations, data.currentId))
  }

  /** The first position holding the id is the one `FirstWithId` returns. */
  lemma FirstWithIdIsFirst(cs: seq<StoredConversation>, id: string)
    ensures forall i :: 0 <= i < |cs| && cs[i].id == id && (forall j :: 0 <= j < i ==> cs[j].id != id) ==>
              FirstWithId(cs, id) == i
  {
  }

  /** Reloading right after saving shows the same messages, progress messages included. */
  lemma ReloadShowsSavedChat(s: Session)
    requires IsOpen(s.current)
    requires exists i :: 0 <= i < |s.conversations| && s.conversations[i].id == s.current.value
    ensures InitialLoad(Some(Save(s))).Some?
    ensures InitialLoad(Some(Save(s))).value.chat.messages == s.chat.messages
  {
    var cs := Persisted(s.conversations, s.current, s.chat.messages);
    var stored := Save(s).conversations.value;
    var k := FirstWithId(stored, s.current.value);
    var i :| 0 <= i < |s.conversations| && s.conversations[i].id == s.current.value;
    assert stored[i].id == s.current.value;
    assert stored[k].messages == Some(cs[k].messages);
    assert !OpenIsUnreadable(Some(Save(s)));
  }
}

=== FILE: flow.dfy ===
/**
  The LangGraph research workflow (`langgraph_backend/app.py`): the progress
  reporter, the `scrape`, `summarize` and `should_continue` nodes and the
  report assembly of `gen_report`. The workflow state is an immutable value;
  each node maps a state to its successor, or to None where the source raises.
  Every language-model call, the web search and the uuid generator are oracle
  parameters (`FlowOracles`); the stream writer is left out.
 */
module Flow {
  import opened Wrappers
  import opened Text
  import opened ResearchTree
  import opened Media
  import Knet

  /** Separator of the page dumps in one researcher context entry. */
  const ContextSeparator: string := "\n\n---\n\n"
  /** Separator of the manager summaries handed to the outline and fill-in prompts. */
  const FindingsSeparator: string := "\n\n------\n\n"

  // ---------------------------------------------------------------------------
  // ResearchProgress.send

  /** Python `int()` on a number: truncation toward zero. */
  function Trunc(x: real): (r: int)
    ensures 0.0 <= x ==> r as real <= x < r as real + 1.0
    ensures x < 0.0 ==> r as real - 1.0 < x <= r as real
  {
    if x >= 0.0 then x.Floor else -((-x).Floor)
  }

  /** `min(100, x)`. */
  function Cap(x: real): (r: real)
    ensures r <= 100.0 && r <= x
    ensures r == x || r == 100.0
  {
    if x < 100.0 then x else 100.0
  }

  /** The three `ptype`s of `send`: an increment, an absolute value, or the final result. */
  datatype SendKind = Update(delta: real) | Setter(value: real) | Result

  /** The progress value `send` stores. */
  function Send(progress: int, kind: SendKind): (r: int)
    ensures r <= 100
    ensures kind.Result? ==> r == 100
    ensures kind.Update? ==> (r == 100 <==> progress as real + kind.delta >= 100.0)
    ensures kind.Update? && 0.0 <= progress as real + kind.delta < 100.0 ==>
              r as real <= progress as real + kind.delta < r as real + 1.0
    ensures kind.Setter? ==> (r == 100 <==> kind.value >= 100.0)
    ensures kind.Setter? && 0.0 <= kind.value < 100.0 ==> r as real <= kind.value < r as real + 1.0
  {
    match kind
    case Update(d) => Trunc(Cap(progress as real + d))
    case Setter(v) => Trunc(Cap(v))
    case Result => 100
  }

  /** An increment never lowers an in-range progress value and never carries it past 100. */
  lemma UpdateNeverLowers(progress: int, delta: real)
    requires 0 <= progress <= 100 && 0.0 <= delta
    ensures progress <= Send(progress, Update(delta)) <= 100
  {
  }

  /** Progress is not monotone: the setter at the start of report generation resets any value to 0. */
  lemma SetterResets(progress: int)
    ensures Send(progress, Setter(0.0)) == 0
    ensures progress > 0 ==> Send(progress, Setter(0.0)) < progress
  {
  }

  /** The increment `should_continue` sends: `(idx + 1) * (100.0 / (len(plan) or 1))`. */
  function StepTarget(idx: nat, planLen: nat): real {
    (idx + 1) as real * (100.0 / (if planLen > 0 then planLen else 1) as real)
  }

  lemma StepTargetPositive(idx: nat, planLen: nat)
    ensures StepTarget(idx, planLen) > 0.0
  {
    var q := 100.0 / (if planLen > 0 then planLen else 1) as real;
    assert q > 0.0;
    MulPositive((idx + 1) as real, q);
  }

  lemma MulPositive(a: real, b: real)
    requires 0.0 < a && 0.0 < b
    ensures 0.0 < a * b
  {
  }

  /** On the last plan step the increment alone is 100, so progress from any non-negative value saturates. */
  lemma LastStepCompletes(progress: int, planLen: nat)
    requires 0 <= progress && planLen > 0
    ensures Send(progress, Update(StepTarget(planLen - 1, planLen))) == 100
  {
    var n := planLen as real;
    assert n * (100.0 / n) == 100.0;
  }

  // ---------------------------------------------------------------------------
  // The workflow state and the oracles

  datatype FlowState = FlowState(
    topic: string,
    maxDepth: int,
    numSites: int,
    master: Node,
    current: Node,
    plan: seq<string>,
    idx: nat,
    ctxResearcher: seq<string>,
    ctxManager: seq<string>,
    progress: int,
    tokens: nat)

  /** The state `start_research_workflow` starts from: a master node `"_"` at depth 0 that is also the current node. */
  function Initial(topic: string, maxDepth: int, numSites: int, rootId: NodeId): (s: FlowState)
    ensures s.master == s.current && s.master.query == "_" && s.master.depth == 0
    ensures Preorder(s.master) == [s.master]
    ensures s.plan == [] && s.idx == 0 && s.ctxResearcher == [] && s.ctxManager == []
    ensures s.progress == 0 && s.tokens == 0
  {
    FlowState(topic, maxDepth, numSites, MasterNode(rootId), MasterNode(rootId), [], 0, [], [], 0, 0)
  }

  /** The fields of the search-query prompt. */
  datatype QueryPrompt = QueryPrompt(vertical: string, topic: string, doneSteps: string, pastQueries: string, findings: string)
  /** The fields of the continue-branch prompt. */
  datatype DecidePrompt = DecidePrompt(doneSteps: string, query: string, pastQueries: string, findings: string)
  /** The fields of the report fill-in prompt. */
  datatype FillPrompt = FillPrompt(topic: string, findings: string, written: string, outline: seq<string>, slot: string)

  /**
    The calls the workflow makes into code outside the model: the search-query
    model (its `branches`, or `[""]` when the key is missing), the uuid of a new
    node, the web search, the site summary, the continue decision, the report
    outline (title and headings) and the fill-in of one heading.
   */
  datatype FlowOracles = FlowOracles(
    query: QueryPrompt -> seq<string>,
    newId: Node -> NodeId,
    search: (string, int) -> seq<Page>,
    summarize: (string, string) -> string,
    decide: DecidePrompt -> bool,
    outline: (string, string) -> (string, seq<string>),
    fill: FillPrompt -> string)

  /** Every string prefixed with `"[done] "`. */
  function Marked(xs: seq<string>): (r: seq<string>)
    ensures |r| == |xs|
    ensures forall k :: 0 <= k < |xs| ==> r[k] == "[done] " + xs[k]
  {
    seq(|xs|, k requires 0 <= k < |xs| => "[done] " + xs[k])
  }

  /** The plan steps before the current one, marked done, one per line. */
  function DoneSteps(plan: seq<string>, idx: nat): string
    requires idx <= |plan|
  {
    Join("\n", Marked(plan[..idx]))
  }

  /** The current node's ancestors' queries below the master, marked done, one per line. */
  function PastQueries(master: Node, current: Node): string {
    match QueriesTo(master, current.id)
    case Some(qs) => Join("\n", Marked(qs[1..]))
    case None => []
  }

  // ---------------------------------------------------------------------------
  // scrape_node

  /** `src [i] : url\ntext`, numbering the sources from 1. */
  function SourceLine(i: nat, p: Page): string {
    "src [" + NatToString(i + 1) + "] : " + p.url + "\n" + p.text
  }

  function SourceLines(data: seq<Page>): (r: seq<string>)
    ensures |r| == |data|
    ensures forall k :: 0 <= k < |data| ==> r[k] == SourceLine(k, data[k])
  {
    seq(|data|, k requires 0 <= k < |data| => SourceLine(k, data[k]))
  }

  /** The one researcher-context entry a scrape appends: every page of the result, in order. */
  function ContextEntry(data: seq<Page>): (r: string)
    ensures data == [] ==> r == []
    ensures |data| == 1 ==> r == SourceLine(0, data[0])
  {
    Join(ContextSeparator, SourceLines(data))
  }

  /** One more page adds the separator and that page's numbered line at the end. */
  lemma ContextEntrySnoc(data: seq<Page>, p: Page)
    requires data != []
    ensures ContextEntry(data + [p]) == ContextEntry(data) + ContextSeparator + SourceLine(|data|, p)
  {
    assert SourceLines(data + [p]) == SourceLines(data) + [SourceLine(|data|, p)];
    JoinSnoc(ContextSeparator, SourceLines(data), SourceLine(|data|, p));
  }

  /** The search query of `scrape_node`: None where the source raises (plan index past the end, no branch returned). */
  function ScrapeQuery(s: FlowState, o: FlowOracles): (r: Option<string>)
    ensures r.Some? <==> s.idx < |s.plan| && Branches(s, o) != []
    ensures r.Some? ==> r.value == Branches(s, o)[0]
  {
    if s.idx >= |s.plan| then None
    else
      var branches := o.query(QueryPrompt(s.plan[s.idx], s.topic, DoneSteps(s.plan, s.idx),
                                          PastQueries(s.master, s.current), Join(ContextSeparator, s.ctxManager)));
      if branches == [] then None else Some(branches[0])
  }

  /** The branches the query prompt of `scrape_node` returns for the current plan step. */
  function Branches(s: FlowState, o: FlowOracles): seq<string>
    requires s.idx < |s.plan|
  {
    o.query(QueryPrompt(s.plan[s.idx], s.topic, DoneSteps(s.plan, s.idx),
                        PastQueries(s.master, s.current), Join(ContextSeparator, s.ctxManager)))
  }

  /**
    The node a new one is attached to: the master itself when the current node
    is at or below the depth limit, otherwise the node carrying the current
    node's id (None when there is none; the source then calls `add_child` on `None`).
   */
  function AttachParent(master: Node, current: Node, maxDepth: int): (r: Option<Node>)
    ensures current.depth >= maxDepth ==> r == Some(master)
    ensures current.depth < maxDepth ==> r == FindNode(master, current.id)
  {
    if current.depth >= maxDepth then Some(master) else FindNode(master, current.id)
  }

  /** The attachment of `scrape_node`. */
  function AttachNew(master: Node, current: Node, maxDepth: int, node: Node): (r: Option<Node>)
    ensures r.Some? <==> AttachParent(master, current, maxDepth).Some?
    ensures r.Some? ==> r.value.id == master.id && r.value.depth == master.depth
    ensures r.Some? ==> |Preorder(r.value)| == |Preorder(master)| + |Preorder(node)|
    ensures current.depth >= maxDepth ==> r == Some(AdoptChild(master, node))
    ensures r.Some? && current.depth < maxDepth ==>
              FindNode(r.value, current.id) == Some(AdoptChild(FindNode(master, current.id).value, node))
    ensures r.Some? && FindNode(master, node.id).None? ==>
              FindNode(r.value, node.id) == Some(node.(depth := AttachParent(master, current, maxDepth).value.depth + 1))
  {
    if current.depth >= maxDepth then
      assert |Preorder(AdoptChild(master, node))| == |Preorder(master)| + |Preorder(node)| by {
        PreorderForestSnoc(master.children, node.(depth := master.depth + 1));
      }
      assert FindNode(master, node.id).None? ==> FindNode(AdoptChild(master, node), node.id) == Some(node.(depth := master.depth + 1)) by {
        if FindNode(master, node.id).None? { AdoptFindsNew(master, node); }
      }
      Some(AdoptChild(master, node))
    else
      assert FindNode(master, current.id).Some? ==>
               (|Preorder(AttachAt(master, current.id, node).value)| == |Preorder(master)| + |Preorder(node)|
                && FindNode(AttachAt(master, current.id, node).value, current.id) == Some(AdoptChild(FindNode(master, current.id).value, node))) by {
        if FindNode(master, current.id).Some? { AttachAtGrowsAndIsFound(master, current.id, node); }
      }
      assert FindNode(master, current.id).Some? && FindNode(master, node.id).None? ==>
               FindNode(AttachAt(master, current.id, node).value, node.id) == Some(node.(depth := FindNode(master, current.id).value.depth + 1)) by {
        if FindNode(master, current.id).Some? && FindNode(master, node.id).None? { AttachFindsNew(master, current.id, node); }
      }
      AttachAt(master, current.id, node)
  }

  /**
    `scrape_node`: a fresh node for the query, holding the search result, is
    attached to a deep copy of the master; it becomes the current node, and
    the result is dumped as one new researcher-context entry.
   */
  function ScrapeNode(s: FlowState, o: FlowOracles): (r: Option<FlowState>)
    ensures r.Some? <==> ScrapeQuery(s, o).Some? && AttachParent(s.master, s.current, s.maxDepth).Some?
    ensures r.Some? ==>
              var q := ScrapeQuery(s, o).value;
              var data := o.search(q, s.numSites);
              var parent := AttachParent(s.master, s.current, s.maxDepth).value;
              && r.value == s.(master := r.value.master, current := r.value.current, ctxResearcher := r.value.ctxResearcher)
              && r.value.ctxResearcher == s.ctxResearcher + [ContextEntry(data)]
              && r.value.current == Node(o.newId(s.master), q, parent.depth + 1, [], data)
              && r.value.master.id == s.master.id && r.value.master.depth == s.master.depth
              && |Preorder(r.value.master)| == |Preorder(s.master)| + 1
    ensures r.Some? && s.current.depth >= s.maxDepth ==> r.value.master == AdoptChild(s.master, r.value.current)
    ensures r.Some? && s.current.depth < s.maxDepth ==>
              FindNode(r.value.master, s.current.id) == Some(AdoptChild(FindNode(s.master, s.current.id).value, r.value.current))
    ensures r.Some? && FindNode(s.master, o.newId(s.master)).None? ==>
              FindNode(r.value.master, r.value.current.id) == Some(r.value.current)
  {
    var q :- ScrapeQuery(s, o);
    var copy := DeepCopy(s.master);
    var data := o.search(q, s.numSites);
    var node := Node(o.newId(s.master), q, 0, [], data);
    var m :- AttachNew(copy, s.current, s.maxDepth, node);
    var parent := AttachParent(copy, s.current, s.maxDepth).value;
    assert Preorder(node) == [node];
    Some(s.(master := m, current := node.(depth := parent.depth + 1), ctxResearcher := s.ctxResearcher + [ContextEntry(data)]))
  }

  // ---------------------------------------------------------------------------
  // summarize_node

  /**
    `summarize_node`: one summary per started batch of three pages of the
    current node, each summarising the whole latest researcher entry. None
    where the source raises (pages to summarise but no researcher entry).
   */
  method SummarizeNode(s: FlowState, o: FlowOracles) returns (r: Option<FlowState>)
    ensures r.None? <==> |s.current.data| > 0 && s.ctxResearcher == []
    ensures r.Some? ==> r.value == s.(ctxManager := r.value.ctxManager)
    ensures r.Some? ==> |s.ctxManager| <= |r.value.ctxManager| && r.value.ctxManager[..|s.ctxManager|] == s.ctxManager
    ensures r.Some? ==>
              var added := |r.value.ctxManager| - |s.ctxManager|;
              3 * added >= |s.current.data| && 3 * (added - 1) < |s.current.data|
    ensures r.Some? && s.current.data == [] ==> r.value.ctxManager == s.ctxManager
    ensures r.Some? && s.ctxResearcher != [] ==>
              forall k :: |s.ctxManager| <= k < |r.value.ctxManager| ==>
                r.value.ctxManager[k] == o.summarize(s.current.query, s.ctxResearcher[|s.ctxResearcher| - 1])
  {
    var n := |s.current.data|;
    if n > 0 && s.ctxResearcher == [] {
      return None;
    }
    var manager := s.ctxManager;
    var i := 0;
    while i < n
      invariant 0 <= i && i % 3 == 0 && (i <= n || (n == 0 && i == 0) || i - 3 < n)
      invariant |manager| == |s.ctxManager| + i / 3
      invariant manager[..|s.ctxManager|] == s.ctxManager
      invariant s.ctxResearcher != [] ==>
                  forall k :: |s.ctxManager| <= k < |manager| ==>
                    manager[k] == o.summarize(s.current.query, s.ctxResearcher[|s.ctxResearcher| - 1])
      decreases n - i
    {
      var summary := o.summarize(s.current.query, s.ctxResearcher[|s.ctxResearcher| - 1]);
      manager := manager + [summary];
      i := i + 3;
    }
    r := Some(s.(ctxManager := manager));
  }

  // ---------------------------------------------------------------------------
  // should_continue_node

  /** Where `should_continue` sends the workflow next. */
  datatype Goto = GotoPlan | GotoScrape | GotoReport

  /**
    The plan index handed to `scrape` as the source writes it:
    `idx + 0 if decision else 1` parses as `(idx + 0) if decision else 1`.
   */
  function ScrapeIndexAsWritten(idx: nat, decision: bool): nat {
    if decision then idx + 0 else 1
  }

  /** The evidently intended `idx + (0 if decision else 1)`: stay on the step to go deeper, otherwise move to the next. */
  function ScrapeIndex(idx: nat, decision: bool): (r: nat)
    ensures idx <= r <= idx + 1
    ensures r == idx <==> decision
  {
    idx + (if decision then 0 else 1)
  }

  /** The two agree exactly when the branch goes deeper or the index is 0. */
  lemma ScrapeIndexAgreement(idx: nat, decision: bool)
    ensures ScrapeIndexAsWritten(idx, decision) == ScrapeIndex(idx, decision) <==> decision || idx == 0
  {
  }

  /** The continue-branch decision for the current node. */
  function Decision(s: FlowState, o: FlowOracles): bool
    requires s.idx <= |s.plan|
  {
    o.decide(DecidePrompt(DoneSteps(s.plan, s.idx), s.current.query, PastQueries(s.master, s.current), Join(ContextSeparator, s.ctxManager)))
  }

  /**
    The decision of `should_continue` with the scrape index computed by `next`.
    None where the source raises (the progress message indexes the plan).
   */
  function Route(s: FlowState, o: FlowOracles, next: (nat, bool) -> nat): (r: Option<(FlowState, Goto)>)
    ensures r.None? <==> s.idx >= |s.plan|
    ensures r.Some? ==> r.value.0.progress == Send(s.progress, Update(StepTarget(s.idx, |s.plan|)))
    ensures r.Some? ==> r.value.0 == s.(progress := r.value.0.progress, idx := r.value.0.idx, current := r.value.0.current)
    ensures r.Some? ==> (r.value.1 == GotoReport <==> s.current.depth >= s.maxDepth && s.idx + 1 == |s.plan|)
    ensures r.Some? ==> (r.value.1 == GotoPlan <==> s.current.depth >= s.maxDepth && s.idx + 1 < |s.plan|)
    ensures r.Some? && r.value.1 == GotoPlan ==> r.value.0.idx == s.idx + 1 && r.value.0.current == s.master
    ensures r.Some? && r.value.1 == GotoReport ==> r.value.0.idx == s.idx && r.value.0.current == s.current
    ensures r.Some? && r.value.1 == GotoScrape ==> r.value.0.idx == next(s.idx, Decision(s, o)) && r.value.0.current == s.current
  {
    if s.idx >= |s.plan| then None
    else
      var t := s.(progress := Send(s.progress, Update(StepTarget(s.idx, |s.plan|))));
      if s.current.depth >= s.maxDepth && s.idx >= |s.plan| - 1 then Some((t, GotoReport))
      else if s.current.depth >= s.maxDepth then Some((t.(idx := s.idx + 1, current := s.master), GotoPlan))
      else Some((t.(idx := next(s.idx, Decision(s, o))), GotoScrape))
  }

  /** `should_continue_node` as the source writes it. */
  function ShouldContinueAsWritten(s: FlowState, o: FlowOracles): Option<(FlowState, Goto)> {
    Route(s, o, ScrapeIndexAsWritten)
  }

  /**
    `should_continue_node` with the intended scrape index: report once the
    depth limit is hit on the last plan step, move to the next step (back at
    the master) when it is hit earlier, otherwise scrape again, staying on the
    step or moving one on as the decision says.
   */
  function ShouldContinue(s: FlowState, o: FlowOracles): (r: Option<(FlowState, Goto)>)
    ensures r.None? <==> s.idx >= |s.plan|
    ensures r.Some? ==> r.value.0 == s.(progress := r.value.0.progress, idx := r.value.0.idx, current := r.value.0.current)
    ensures r.Some? && 0 <= s.progress <= 100 ==> s.progress <= r.value.0.progress <= 100
    ensures r.Some? && 0 <= s.progress && s.idx + 1 == |s.plan| ==> r.value.0.progress == 100
    ensures r.Some? ==> (r.value.1 == GotoReport <==> s.current.depth >= s.maxDepth && s.idx + 1 == |s.plan|)
    ensures r.Some? ==> (r.value.1 == GotoPlan <==> s.current.depth >= s.maxDepth && s.idx + 1 < |s.plan|)
    ensures r.Some? && r.value.1 == GotoPlan ==> r.value.0.idx == s.idx + 1 && r.value.0.current == s.master
    ensures r.Some? && r.value.1 == GotoReport ==> r.value.0.idx == s.idx && r.value.0.current == s.current
    ensures r.Some? && r.value.1 == GotoScrape ==> s.idx <= r.value.0.idx <= s.idx + 1 && r.value.0.current == s.current
    ensures r.Some? && r.value.1 == GotoScrape ==> r.value.0.idx == ScrapeIndex(s.idx, Decision(s, o))
  {
    var r := Route(s, o, ScrapeIndex);
    assert r.Some? && r.value.1 == GotoScrape ==> s.idx <= r.value.0.idx <= s.idx + 1 by {
      if r.Some? && r.value.1 == GotoScrape { assert r.value.0.idx == ScrapeIndex(s.idx, Decision(s, o)); }
    }
    assert r.Some? && 0 <= s.progress <= 100 ==> s.progress <= r.value.0.progress <= 100 by {
      if r.Some? && 0 <= s.progress <= 100 {
        StepTargetPositive(s.idx, |s.plan|);
        UpdateNeverLowers(s.progress, StepTarget(s.idx, |s.plan|));
      }
    }
    assert r.Some? && 0 <= s.progress && s.idx + 1 == |s.plan| ==> r.value.0.progress == 100 by {
      if r.Some? && 0 <= s.progress && s.idx + 1 == |s.plan| {
        LastStepCompletes(s.progress, |s.plan|);
      }
    }
    r
  }

  // ---------------------------------------------------------------------------
  // Where consecutive should_continue calls stand

  /** The plan index and the current node's depth seen by one `should_continue`. */
  datatype Cursor = Cursor(idx: nat, depth: int)

  /**
    The cursor of the next `should_continue` after one routed to `plan` or
    `scrape` and the following scrape succeeded (the new node lies one level
    below the master, respectively below the current node). None when the
    workflow reports or a node raises on the plan index instead.
   */
  function NextCursor(c: Cursor, planLen: nat, maxDepth: int, decision: bool, next: (nat, bool) -> nat): Option<Cursor> {
    if c.idx >= planLen then None
    else if c.depth >= maxDepth && c.idx + 1 >= planLen then None
    else if c.depth >= maxDepth then Some(Cursor(c.idx + 1, 1))
    else if next(c.idx, decision) >= planLen then None
    else Some(Cursor(next(c.idx, decision), c.depth + 1))
  }

  /** The workflow invariant a pass relies on: the current node is the master's node with its id, and the master sits at depth 0. */
  predicate CursorOk(s: FlowState) {
    FindNode(s.master, s.current.id) == Some(s.current) && s.master.depth == 0
  }

  lemma InitialCursorOk(topic: string, maxDepth: int, numSites: int, rootId: NodeId)
    ensures CursorOk(Initial(topic, maxDepth, numSites, rootId))
  {
  }

  /**
    One pass through `should_continue` (with the scrape index computed by
    `next`) and the following `scrape` keeps the invariant (given the uuid is
    new to the tree) and moves the cursor as `NextCursor` says for that `next`.
   */
  lemma PassFollowsCursor(s: FlowState, o: FlowOracles, next: (nat, bool) -> nat)
    requires CursorOk(s) && FindNode(s.master, o.newId(s.master)).None?
    requires Route(s, o, next).Some? && Route(s, o, next).value.1 != GotoReport
    requires var t := Route(s, o, next).value.0; FindNode(t.master, o.newId(t.master)).None?
    ensures var t := Route(s, o, next).value.0;
            var u := ScrapeNode(t, o);
            u.Some? ==>
              (CursorOk(u.value) &&
               Some(Cursor(u.value.idx, u.value.current.depth)) == NextCursor(Cursor(s.idx, s.current.depth), |s.plan|, s.maxDepth, Decision(s, o), next))
  {
    if Route(s, o, next).value.1 == GotoPlan {
      PlanPassFollowsCursor(s, o, next);
    } else {
      ScrapePassFollowsCursor(s, o, next);
    }
  }

  lemma PlanPassFollowsCursor(s: FlowState, o: FlowOracles, next: (nat, bool) -> nat)
    requires CursorOk(s) && FindNode(s.master, o.newId(s.master)).None?
    requires Route(s, o, next).Some? && Route(s, o, next).value.1 == GotoPlan
    requires var t := Route(s, o, next).value.0; FindNode(t.master, o.newId(t.master)).None?
    ensures var t := Route(s, o, next).value.0;
            var u := ScrapeNode(t, o);
            u.Some? ==>
              (CursorOk(u.value) &&
               Some(Cursor(u.value.idx, u.value.current.depth)) == NextCursor(Cursor(s.idx, s.current.depth), |s.plan|, s.maxDepth, Decision(s, o), next))
  {
    var t := Route(s, o, next).value.0;
    assert t.master == s.master && t.current == s.master && t.idx == s.idx + 1 && t.maxDepth == s.maxDepth;
    assert s.current.depth >= s.maxDepth && s.idx + 1 < |s.plan|;
    var u := ScrapeNode(t, o);
    if u.Some? {
      var v := u.value;
      ScrapeAdvances(t, o);
      assert AttachParent(t.master, t.current, t.maxDepth).value == s.master;
      assert v.idx == s.idx + 1 && v.current.depth == 1;
      assert CursorOk(v);
      NextCursorOnward(Cursor(s.idx, s.current.depth), |s.plan|, s.maxDepth, Decision(s, o), next, v.idx, v.current.depth);
    }
  }

  /** At the depth limit before the last step the next cursor starts the next step one level below the master. */
  lemma NextCursorOnward(c: Cursor, planLen: nat, maxDepth: int, decision: bool, next: (nat, bool) -> nat, idx: nat, depth: int)
    requires c.idx + 1 < planLen && c.depth >= maxDepth
    requires idx == c.idx + 1 && depth == 1
    ensures NextCursor(c, planLen, maxDepth, decision, next) == Some(Cursor(idx, depth))
  {
  }

  lemma ScrapePassFollowsCursor(s: FlowState, o: FlowOracles, next: (nat, bool) -> nat)
    requires CursorOk(s) && FindNode(s.master, o.newId(s.master)).None?
    requires Route(s, o, next).Some? && Route(s, o, next).value.1 == GotoScrape
    requires var t := Route(s, o, next).value.0; FindNode(t.master, o.newId(t.master)).None?
    ensures var t := Route(s, o, next).value.0;
            var u := ScrapeNode(t, o);
            u.Some? ==>
              (CursorOk(u.value) &&
               Some(Cursor(u.value.idx, u.value.current.depth)) == NextCursor(Cursor(s.idx, s.current.depth), |s.plan|, s.maxDepth, Decision(s, o), next))
  {
    var t := Route(s, o, next).value.0;
    var d := Decision(s, o);
    assert t.master == s.master && t.current == s.current && t.idx == next(s.idx, d) && t.maxDepth == s.maxDepth;
    var u := ScrapeNode(t, o);
    if u.Some? {
      var v := u.value;
      ScrapeAdvances(t, o);
      assert AttachParent(t.master, t.current, t.maxDepth).value == s.current;
      assert v.idx == next(s.idx, d) && v.current.depth == s.current.depth + 1;
      NextCursorDeeper(Cursor(s.idx, s.current.depth), |s.plan|, s.maxDepth, d, next, v.idx, v.current.depth);
    }
  }

  /** Below the depth limit the next cursor is one level down, on the step `next` picks. */
  lemma NextCursorDeeper(c: Cursor, planLen: nat, maxDepth: int, decision: bool, next: (nat, bool) -> nat, idx: nat, depth: int)
    requires c.idx < planLen && c.depth < maxDepth && next(c.idx, decision) < planLen
    requires idx == next(c.idx, decision) && depth == c.depth + 1
    ensures NextCursor(c, planLen, maxDepth, decision, next) == Some(Cursor(idx, depth))
  {
  }

  /** A successful scrape keeps the plan index and the master's depth, and puts the new node one level below its parent. */
  lemma ScrapeAdvances(t: FlowState, o: FlowOracles)
    requires ScrapeNode(t, o).Some? && FindNode(t.master, o.newId(t.master)).None?
    ensures var v := ScrapeNode(t, o).value;
            && v.idx == t.idx && t.idx < |t.plan| && v.master.depth == t.master.depth
            && v.current.depth == AttachParent(t.master, t.current, t.maxDepth).value.depth + 1
            && FindNode(v.master, v.current.id) == Some(v.current)
  {
  }

  /** A rank that every corrected pass lowers, for a depth limit of at least one. */
  function CursorRank(c: Cursor, planLen: nat, maxDepth: nat): int {
    (planLen - c.idx) * maxDepth + (maxDepth - c.depth)
  }

  /** In range, the rank is a natural number. */
  predicate InRange(c: Cursor, planLen: nat, maxDepth: nat) {
    c.idx < planLen && 1 <= c.depth <= maxDepth
  }

  /**
    With the intended scrape index every pass stays in range and strictly
    lowers the rank: plan steps are never revisited, and on one step the
    depth only grows.
   */
  lemma {:induction false} CorrectedPassAdvances(c: Cursor, planLen: nat, maxDepth: nat, decision: bool)
    requires maxDepth >= 1 && InRange(c, planLen, maxDepth)
    ensures var n := NextCursor(c, planLen, maxDepth, decision, ScrapeIndex);
            n.Some? ==>
              (InRange(n.value, planLen, maxDepth) && 0 <= CursorRank(n.value, planLen, maxDepth) < CursorRank(c, planLen, maxDepth)
               && (n.value.idx > c.idx || (n.value.idx == c.idx && n.value.depth == c.depth + 1)))
  {
    var n := NextCursor(c, planLen, maxDepth, decision, ScrapeIndex);
    if n.Some? {
      var k := planLen - c.idx;
      assert k >= 1;
      if n.value.idx == c.idx + 1 {
        assert CursorRank(n.value, planLen, maxDepth) == (k - 1) * maxDepth + (maxDepth - n.value.depth);
        assert (k - 1) * maxDepth == k * maxDepth - maxDepth;
        assert 0 <= (k - 1) * maxDepth;
      } else {
        assert CursorRank(n.value, planLen, maxDepth) == k * maxDepth + (maxDepth - n.value.depth);
        assert 0 <= k * maxDepth;
      }
    }
  }

  /** Along a run of corrected passes started in range, every pass lowers the rank by at least one. */
  lemma {:induction false} CorrectedRunLowersRank(run: seq<Cursor>, decisions: seq<bool>, planLen: nat, maxDepth: nat)
    requires maxDepth >= 1 && |run| >= 1 && InRange(run[0], planLen, maxDepth)
    requires |decisions| == |run| - 1
    requires forall k :: 0 <= k < |run| - 1 ==> NextCursor(run[k], planLen, maxDepth, decisions[k], ScrapeIndex) == Some(run[k + 1])
    ensures InRange(run[|run| - 1], planLen, maxDepth)
    ensures |run| - 1 <= CursorRank(run[0], planLen, maxDepth) - CursorRank(run[|run| - 1], planLen, maxDepth)
  {
    if |run| > 1 {
      var init := run[..|run| - 1];
      var ds := decisions[..|decisions| - 1];
      assert forall k :: 0 <= k < |init| - 1 ==> NextCursor(init[k], planLen, maxDepth, ds[k], ScrapeIndex) == Some(init[k + 1]) by {
        forall k | 0 <= k < |init| - 1
          ensures NextCursor(init[k], planLen, maxDepth, ds[k], ScrapeIndex) == Some(init[k + 1])
        {
          assert init[k] == run[k] && init[k + 1] == run[k + 1] && ds[k] == decisions[k];
        }
      }
      CorrectedRunLowersRank(init, ds, planLen, maxDepth);
      assert NextCursor(run[|run| - 2], planLen, maxDepth, decisions[|run| - 2], ScrapeIndex) == Some(run[|run| - 1]);
      CorrectedPassAdvances(run[|run| - 2], planLen, maxDepth, decisions[|run| - 2]);
    }
  }

  lemma MulMono(a: int, b: int, c: int)
    requires 0 <= a <= b && 0 <= c
    ensures 0 <= a * c <= b * c
  {
    assert (b - a) * c >= 0;
  }

  /** Every run of corrected passes started in range is finite: at most (|plan| + 1) * maxDepth cursors. */
  lemma CorrectedRunIsBounded(run: seq<Cursor>, decisions: seq<bool>, planLen: nat, maxDepth: nat)
    requires maxDepth >= 1 && |run| >= 1 && InRange(run[0], planLen, maxDepth)
    requires |decisions| == |run| - 1
    requires forall k :: 0 <= k < |run| - 1 ==> NextCursor(run[k], planLen, maxDepth, decisions[k], ScrapeIndex) == Some(run[k + 1])
    ensures |run| <= (planLen + 1) * maxDepth
  {
    CorrectedRunLowersRank(run, decisions, planLen, maxDepth);
    var first := run[0];
    var last := run[|run| - 1];
    MulMono(0, planLen - last.idx, maxDepth);
    MulMono(planLen - first.idx, planLen, maxDepth);
    assert (planLen + 1) * maxDepth == planLen * maxDepth + maxDepth;
  }

  /**
    As written, declining to go deeper sends the index back to 1. With a
    three-step plan and a depth limit of 2, a pass through `should_continue`
    and `scrape` from index 1 at depth 2 lands on index 2 at depth 1, and one
    from there with a negative decision lands back on index 1 at depth 2.
    `summarize` in between changes only the manager context, so when every
    decision is negative the workflow never reaches `gen_report` and the graph
    only stops at its recursion limit. With the intended index the second pass
    leaves the plan instead.
   */
  lemma AsWrittenCycles(s: FlowState, o: FlowOracles)
    requires CursorOk(s) && |s.plan| == 3 && s.maxDepth == 2 && FindNode(s.master, o.newId(s.master)).None?
    requires (s.idx == 1 && s.current.depth == 2) || (s.idx == 2 && s.current.depth == 1 && !Decision(s, o))
    requires var t := ShouldContinueAsWritten(s, o).value.0; FindNode(t.master, o.newId(t.master)).None?
    ensures ShouldContinueAsWritten(s, o).Some? && ShouldContinueAsWritten(s, o).value.1 != GotoReport
    ensures var u := ScrapeNode(ShouldContinueAsWritten(s, o).value.0, o);
            u.Some? ==> CursorOk(u.value) && (u.value.idx, u.value.current.depth) == (if s.idx == 1 then (2, 1) else (1, 2))
    ensures s.idx == 2 ==> NextCursor(Cursor(s.idx, s.current.depth), |s.plan|, s.maxDepth, Decision(s, o), ScrapeIndex).None?
  {
    var d := Decision(s, o);
    assert ShouldContinueAsWritten(s, o) == Route(s, o, ScrapeIndexAsWritten);
    PassFollowsCursor(s, o, ScrapeIndexAsWritten);
    if s.idx == 1 {
      assert NextCursor(Cursor(1, 2), 3, 2, d, ScrapeIndexAsWritten) == Some(Cursor(2, 1));
    } else {
      assert NextCursor(Cursor(2, 1), 3, 2, d, ScrapeIndexAsWritten) == Some(Cursor(1, 2));
      assert NextCursor(Cursor(2, 1), 3, 2, d, ScrapeIndex) == None;
    }
  }

  // ---------------------------------------------------------------------------
  // gen_report_node

  /** `sub` occurs at `i` and nowhere before. */
  predicate FirstOccurrence(s: string, sub: string, i: int) {
    OccursAt(s, sub, i) && forall j :: 0 <= j < i ==> !OccursAt(s, sub, j)
  }

  /** The echoed-heading strip of the fill-in loop. */
  function StripHeading(content: string, heading: string): string {
    var i := Find(content, heading);
    if i == -1 then content else Trim(content[i + |heading|..])
  }

  /**
    When the heading occurs in the content, all up to and including its first
    occurrence is dropped and the rest is trimmed; otherwise the content is kept.
   */
  lemma StripHeadingMeans(content: string, heading: string)
    ensures !Contains(content, heading) ==> StripHeading(content, heading) == content
    ensures Contains(content, heading) ==>
              exists i :: FirstOccurrence(content, heading, i) && StripHeading(content, heading) == Trim(content[i + |heading|..])
  {
    var i := Find(content, heading);
    if i != -1 {
      assert FirstOccurrence(content, heading, i);
    }
  }

  /** Content that opens with the heading loses exactly the heading and surrounding whitespace. */
  lemma StripEchoedHeading(heading: string, body: string)
    ensures StripHeading(heading + body, heading) == Trim(body)
  {
    var c := heading + body;
    assert OccursAt(c, heading, 0) by { assert c[0..|heading|] == heading; }
    assert c[|heading|..] == body;
  }

  datatype Section = Section(heading: string, content: string)

  /** One report section as rendered after the title. */
  function Block(sec: Section): string {
    "\n\n## " + sec.heading + "\n\n" + sec.content
  }

  function Blocks(secs: seq<Section>): string {
    if secs == [] then [] else Blocks(secs[..|secs| - 1]) + Block(secs[|secs| - 1])
  }

  /** The rendered report: the title line, then one block per section, in order. */
  function Render(title: string, secs: seq<Section>): string {
    "# " + title + "\n\n" + Blocks(secs)
  }

  /** Rendering one more section appends exactly its block. */
  lemma RenderSnoc(title: string, secs: seq<Section>, sec: Section)
    ensures Render(title, secs + [sec]) == Render(title, secs) + Block(sec)
  {
    assert (secs + [sec])[..|secs|] == secs;
  }

  /**
    The outline the fill-in prompt receives for slot `i`, as written: the
    title and the headings AFTER slot `i`, all marked done. Past the last slot
    the comprehension keeps no heading.
   */
  function OutlineDoneAsWritten(title: string, headings: seq<string>, i: nat): (r: seq<string>)
    ensures i < |headings| ==> |r| == |headings| - i
    ensures |r| > 0 && r[0] == "[done] " + title
    ensures forall k :: i < k < |headings| ==> r[k - i] == "[done] " + headings[k]
  {
    Marked([title] + (if i < |headings| then headings[i + 1..] else []))
  }

  /**
    The intended outline for slot `i`: the title and the headings already
    filled in, marked done. Past the last slot every heading is done.
   */
  function OutlineDone(title: string, headings: seq<string>, i: nat): (r: seq<string>)
    ensures |r| == (if i <= |headings| then i else |headings|) + 1
    ensures |r| > 0 && r[0] == "[done] " + title
    ensures forall k :: 0 <= k < i && k < |headings| ==> r[k + 1] == "[done] " + headings[k]
  {
    Marked([title] + (if i <= |headings| then headings[..i] else headings))
  }

  /**
    As written, the first slot of a two-heading outline is told that the
    second heading is done while the title is the only part written; the
    intended outline names no heading yet.
   */
  lemma OutlineMarksUnwritten(title: string, a: string, b: string)
    ensures OutlineDoneAsWritten(title, [a, b], 0) == ["[done] " + title, "[done] " + b]
    ensures OutlineDone(title, [a, b], 0) == ["[done] " + title]
  {
    assert [a, b][1..] == [b];
    assert [a, b][..0] == [];
    assert [title] + [b] == [title, b] && [title] + [] == [title];
  }

  /** The result event of `gen_report`. The timestamp is left out. */
  datatype ReportResult = ReportResult(topic: string, content: string, media: MediaBundle, tree: Snapshot, metadata: Knet.Metadata)

  /** The progress values report generation sends, in order. */
  predicate ReportProgressOk(log: seq<int>, headings: nat) {
    && |log| == headings + 2
    && log[0] == 0
    && log[|log| - 1] == 100
    && (forall k :: 0 <= k < |log| - 1 ==> 0 <= log[k] < 100)
    && Knet.NonDecreasing(log)
  }

  /** The total of `k` equal increments. */
  function Increments(k: nat, step: real): real {
    if k == 0 then 0.0 else Increments(k - 1, step) + step
  }

  lemma {:induction false} IncrementsIsProduct(k: nat, step: real)
    ensures Increments(k, step) == k as real * step
  {
    if k > 0 { IncrementsIsProduct(k - 1, step); }
  }

  lemma {:induction false} IncrementsGrow(i: nat, k: nat, step: real)
    requires i < k && step > 0.0
    ensures Increments(i, step) < Increments(k, step)
  {
    if i < k - 1 { IncrementsGrow(i, k - 1, step); }
  }

  /** At most `n` of the `n + 1` equal shares of 100 stay below 100. */
  lemma ReportStepBelow(i: nat, n: nat)
    requires i <= n
    ensures Increments(i, 100.0 / (n + 1) as real) < 100.0
  {
    var d := (n + 1) as real;
    assert 100.0 / d > 0.0;
    IncrementsIsProduct(n + 1, 100.0 / d);
    IncrementsGrow(i, n + 1, 100.0 / d);
  }

  /**
    The progress values report generation sends: the reset to 0, one equal
    increment of 100 / (n + 1) per heading, then the result's 100.
   */
  method ReportProgress(start: int, n: nat) returns (log: seq<int>)
    ensures ReportProgressOk(log, n)
  {
    var step := 100.0 / (n + 1) as real;
    var progress := Send(start, Setter(0.0));
    log := [progress];
    var i := 0;
    while i < n
      invariant 0 <= i <= n
      invariant |log| == i + 1 && log[0] == 0 && log[i] == progress
      invariant 0 <= progress && progress as real <= Increments(i, step)
      invariant forall k :: 0 <= k < |log| ==> 0 <= log[k] < 100
      invariant Knet.NonDecreasing(log)
    {
      ReportStepBelow(i + 1, n);
      UpdateNeverLowers(progress, step);
      progress := Send(progress, Update(step));
      Knet.AppendNonDecreasing(log, progress);
      log := log + [progress];
      i := i + 1;
    }
    Knet.AppendNonDecreasing(log, 100);
    log := log + [Send(progress, Result)];
  }

  /** The outline shown to the fill-in prompt of each slot: `OutlineDoneAsWritten` in the source. */
  type OutlineOf = (string, seq<string>, nat) -> seq<string>

  /** Section `k` answers heading `k`, filled seeing exactly the report rendered before it. */
  predicate SectionOk(sections: seq<Section>, k: nat, topic: string, findings: string, title: string, headings: seq<string>,
                      fill: FillPrompt -> string, outline: OutlineOf) {
    && k < |sections| && k < |headings|
    && sections[k].heading == headings[k]
    && sections[k].content == StripHeading(fill(FillPrompt(topic, findings, Render(title, sections[..k]),
                                                          outline(title, headings, k), headings[k])), headings[k])
  }

  /** A section list answers the outline: one section per heading, in order. */
  predicate Answers(sections: seq<Section>, topic: string, findings: string, title: string, headings: seq<string>,
                    fill: FillPrompt -> string, outline: OutlineOf) {
    |sections| == |headings| && forall k :: 0 <= k < |sections| ==> SectionOk(sections, k, topic, findings, title, headings, fill, outline)
  }

  /** The fill-in loop of `gen_report_node`: the rendered report grows by one block per heading. */
  method FillSections(topic: string, findings: string, title: string, headings: seq<string>, fill: FillPrompt -> string,
                      outline: OutlineOf)
    returns (sections: seq<Section>, raster: string)
    ensures Answers(sections, topic, findings, title, headings, fill, outline)
    ensures raster == Render(title, sections)
  {
    sections := [];
    raster := "# " + title + "\n\n";
    var i := 0;
    while i < |headings|
      invariant 0 <= i <= |headings| && |sections| == i
      invariant raster == Render(title, sections)
      invariant forall k :: 0 <= k < i ==> SectionOk(sections, k, topic, findings, title, headings, fill, outline)
    {
      var content := fill(FillPrompt(topic, findings, raster, outline(title, headings, i), headings[i]));
      content := StripHeading(content, headings[i]);
      var sec := Section(headings[i], content);
      RenderSnoc(title, sections, sec);
      SectionsSnoc(sections, topic, findings, title, headings, fill, outline, sec);
      sections := sections + [sec];
      raster := raster + Block(sec);
      i := i + 1;
    }
  }

  lemma SectionsSnoc(sections: seq<Section>, topic: string, findings: string, title: string, headings: seq<string>,
                     fill: FillPrompt -> string, outline: OutlineOf, sec: Section)
    requires |sections| < |headings|
    requires forall k :: 0 <= k < |sections| ==> SectionOk(sections, k, topic, findings, title, headings, fill, outline)
    requires sec.heading == headings[|sections|]
    requires sec.content == StripHeading(fill(FillPrompt(topic, findings, Render(title, sections),
                                                         outline(title, headings, |sections|), headings[|sections|])), headings[|sections|])
    ensures forall k :: 0 <= k <= |sections| ==> SectionOk(sections + [sec], k, topic, findings, title, headings, fill, outline)
  {
    var ss := sections + [sec];
    forall k | 0 <= k <= |sections| ensures SectionOk(ss, k, topic, findings, title, headings, fill, outline) {
      if k < |sections| {
        assert SectionOk(sections, k, topic, findings, title, headings, fill, outline);
        assert ss[..k] == sections[..k] && ss[k] == sections[k];
      } else {
        assert ss[..k] == sections;
      }
    }
  }

  /**
    `gen_report_node`: resets progress to 0, asks for an outline over the
    joined manager findings, fills each heading in order, collates the media
    of every page in the tree and assembles the metadata. `outline` is what
    each fill-in prompt is told is done; the source passes
    `OutlineDoneAsWritten` (see `GenReportAsWritten`).
   */
  method GenReport(s: FlowState, o: FlowOracles, outline: OutlineOf)
    returns (result: ReportResult, sections: seq<Section>, log: seq<int>)
    ensures var findings := Join(FindingsSeparator, s.ctxManager);
            var (title, headings) := o.outline(s.topic, findings);
            && Answers(sections, s.topic, findings, title, headings, o.fill, outline)
            && result.content == Render(title, sections)
            && ReportProgressOk(log, |headings|)
    ensures result.topic == s.topic
    ensures result.media == Collate(ConcatData(Preorder(s.master)))
    ensures result.tree == BuildSnapshot(s.master)
    ensures result.metadata == Knet.TreeMetadata(s.master, s.tokens)
  {
    var findings := Join(FindingsSeparator, s.ctxManager);
    var (title, headings) := o.outline(s.topic, findings);
    log := ReportProgress(s.progress, |headings|);
    var raster;
    sections, raster := FillSections(s.topic, findings, title, headings, o.fill, outline);
    AllDataIsPreorderConcat(s.master);
    result := ReportResult(s.topic, raster, Collate(AllData(s.master)), BuildSnapshot(s.master), Knet.TreeMetadata(s.master, s.tokens));
  }

  /** The report node as the source runs it: each slot is shown the headings after it as done. */
  method GenReportAsWritten(s: FlowState, o: FlowOracles)
    returns (result: ReportResult, sections: seq<Section>, log: seq<int>)
    ensures var findings := Join(FindingsSeparator, s.ctxManager);
            var (title, headings) := o.outline(s.topic, findings);
            && Answers(sections, s.topic, findings, title, headings, o.fill, OutlineDoneAsWritten)
            && result.content == Render(title, sections)
            && ReportProgressOk(log, |headings|)
    ensures result.media == Collate(ConcatData(Preorder(s.master)))
  {
    result, sections, log := GenReport(s, o, OutlineDoneAsWritten);
  }

  /**
    With the intended outline, the done part of slot `k`'s outline names
    exactly the title and the headings of the sections rendered before it.
   */
  lemma IntendedOutlineIsRendered(sections: seq<Section>, topic: string, findings: string, title: string,
                                  headings: seq<string>, fill: FillPrompt -> string, k: nat)
    requires Answers(sections, topic, findings, title, headings, fill, OutlineDone) && k < |sections|
    ensures OutlineDone(title, headings, k) == Marked([title] + seq(k, j requires 0 <= j < k => sections[j].heading))
  {
    var hs := seq(k, j requires 0 <= j < k => sections[j].heading);
    forall j | 0 <= j < k ensures hs[j] == headings[j] {
      assert SectionOk(sections, j, topic, findings, title, headings, fill, OutlineDone);
    }
    assert headings[..k] == hs;
  }
}

=== FILE: graph_view.dfy ===
/**
  The research graph view: the tree snapshot is flattened into graph nodes in
  pre-order and one link from each node to each of its children, and a link
  is drawn once both of its ends have a position.

  The force simulation that assigns positions is left out; positions are a
  parameter (the set of node ids that have one).
 */
module GraphView {
  import opened Text
  import opened ResearchTree

  datatype GraphNode = GraphNode(id: string, name: string, size: nat, depth: int, width: int, height: int,
                                 sources: Dict<string>)

  datatype GraphLink = GraphLink(source: string, target: string)

  /** `${query}_${depth}`. */
  function NodeId(t: Snapshot): string {
    t.query + "_" + IntToString(t.depth)
  }

  /** Six pixels per character of the query, at least 120 and at most 300. */
  function NodeWidth(queryLength: nat): (w: int)
    ensures 120 <= w <= 300
    ensures queryLength <= 20 ==> w == 120
    ensures 20 <= queryLength <= 50 ==> w == 6 * queryLength
    ensures queryLength >= 50 ==> w == 300
  {
    var scaled := if 6 * queryLength < 300 then 6 * queryLength else 300;
    if scaled > 120 then scaled else 120
  }

  const NodeHeight := 60

  /**
    The graph node for one tree node: sized by its number of sources. The
    width uses the query's length in characters, where JavaScript counts
    UTF-16 code units.
   */
  function NodeOf(t: Snapshot): (n: GraphNode)
    ensures n.id == NodeId(t) && n.name == t.query && n.depth == t.depth && n.sources == t.sources
    ensures n.size == |t.sources| + 10 && n.height == NodeHeight && n.width == NodeWidth(|t.query|)
  {
    GraphNode(NodeId(t), t.query, |t.sources| + 10, t.depth, NodeWidth(|t.query|), NodeHeight, t.sources)
  }

  /** The snapshot's nodes in pre-order: the node itself, then each child's subtree in order. */
  function SnapshotPreorder(t: Snapshot): (r: seq<Snapshot>)
    ensures |r| == SnapshotSize(t) && r[0] == t
    decreases t, 1
  {
    [t] + SnapshotPreorderForest(t.children, t)
  }

  function SnapshotPreorderForest(ts: seq<Snapshot>, ghost parent: Snapshot): (r: seq<Snapshot>)
    requires forall i :: 0 <= i < |ts| ==> ts[i] < parent
    ensures |r| == SnapshotForestSize(ts)
    decreases parent, 0, |ts|
  {
    if ts == [] then []
    else SnapshotPreorder(ts[0]) + SnapshotPreorderForest(ts[1..], parent)
  }

  /** The graph nodes of a tree: one per snapshot node, in pre-order. */
  function Nodes(t: Snapshot): (r: seq<GraphNode>)
    ensures |r| == SnapshotSize(t) && r[0] == NodeOf(t)
    ensures forall k :: 0 <= k < |r| ==> r[k] == NodeOf(SnapshotPreorder(t)[k])
    decreases t, 1
  {
    [NodeOf(t)] + NodesForest(t.children, t)
  }

  function NodesForest(ts: seq<Snapshot>, ghost parent: Snapshot): (r: seq<GraphNode>)
    requires forall i :: 0 <= i < |ts| ==> ts[i] < parent
    ensures |r| == SnapshotForestSize(ts)
    ensures forall k :: 0 <= k < |r| ==> r[k] == NodeOf(SnapshotPreorderForest(ts, parent)[k])
    decreases parent, 0, |ts|
  {
    if ts == [] then []
    else Nodes(ts[0]) + NodesForest(ts[1..], parent)
  }

  /** The links of a tree: for each child, the link to it followed by the links inside its subtree. */
  function Links(t: Snapshot): (r: seq<GraphLink>)
    ensures |r| == SnapshotSize(t) - 1
    decreases t, 1
  {
    LinksForest(t.children, NodeId(t), t)
  }

  function LinksForest(ts: seq<Snapshot>, parentId: string, ghost parent: Snapshot): (r: seq<GraphLink>)
    requires forall i :: 0 <= i < |ts| ==> ts[i] < parent
    ensures |r| == SnapshotForestSize(ts)
    decreases parent, 0, |ts|
  {
    if ts == [] then []
    else [GraphLink(parentId, NodeId(ts[0]))] + Links(ts[0]) + LinksForest(ts[1..], parentId, parent)
  }

  /**
    The k-th link leads to the (k+1)-th node: every node but the root is
    entered by exactly the link pushed just before it.
   */
  lemma {:induction false} LinksTargetNodes(t: Snapshot)
    ensures forall k :: 0 <= k < |Links(t)| ==> Links(t)[k].target == Nodes(t)[k + 1].id
    decreases t, 1
  {
    LinksForestTargetNodes(t.children, NodeId(t), t);
    assert Nodes(t)[1..] == NodesForest(t.children, t);
  }

  lemma {:induction false} LinksForestTargetNodes(ts: seq<Snapshot>, parentId: string, parent: Snapshot)
    requires forall i :: 0 <= i < |ts| ==> ts[i] < parent
    ensures forall k :: 0 <= k < |LinksForest(ts, parentId, parent)| ==>
              LinksForest(ts, parentId, parent)[k].target == NodesForest(ts, parent)[k].id
    decreases parent, 0, |ts|
  {
    if ts != [] {
      var into := GraphLink(parentId, NodeId(ts[0]));
      LinksTargetNodes(ts[0]);
      LinksForestTargetNodes(ts[1..], parentId, parent);
      assert LinksForest(ts, parentId, parent) == [into] + Links(ts[0]) + LinksForest(ts[1..], parentId, parent);
      assert NodesForest(ts, parent) == Nodes(ts[0]) + NodesForest(ts[1..], parent);
      TargetsLineUp(into, Links(ts[0]), LinksForest(ts[1..], parentId, parent), Nodes(ts[0]), NodesForest(ts[1..], parent));
    }
  }

  /** The link into a subtree, its inner links and the later links enter the subtree's nodes and then the later nodes, in step. */
  lemma TargetsLineUp(into: GraphLink, sub: seq<GraphLink>, rest: seq<GraphLink>, first: seq<GraphNode>, later: seq<GraphNode>)
    requires |first| == |sub| + 1 && |rest| == |later| && into.target == first[0].id
    requires forall k :: 0 <= k < |sub| ==> sub[k].target == first[k + 1].id
    requires forall k :: 0 <= k < |rest| ==> rest[k].target == later[k].id
    ensures forall k :: 0 <= k < |[into] + sub + rest| ==> ([into] + sub + rest)[k].target == (first + later)[k].id
  {
    var ls := [into] + sub + rest;
    var ns := first + later;
    forall k | 0 <= k < |ls| ensures ls[k].target == ns[k].id {
      if k == 0 {
      } else if k <= |sub| {
        assert ls[k] == sub[k - 1] && ns[k] == first[k];
      } else {
        assert ls[k] == rest[k - |first|] && ns[k] == later[k - |first|];
      }
    }
  }

  /** The k-th link leaves one of the nodes up to the k-th. */
  predicate LeavesUpTo(ns: seq<GraphNode>, ls: seq<GraphLink>, k: int) {
    0 <= k < |ls| && exists j :: 0 <= j <= k && j < |ns| && ns[j].id == ls[k].source
  }

  /** The k-th link leaves one of the nodes before the k-th. */
  predicate LeavesBefore(ns: seq<GraphNode>, ls: seq<GraphLink>, k: int) {
    0 <= k < |ls| && exists j :: 0 <= j < k && j < |ns| && ns[j].id == ls[k].source
  }

  /** Every link leaves a node that comes no later than the node it enters. */
  lemma {:induction false} LinksLeaveEarlierNodes(t: Snapshot)
    ensures forall k :: 0 <= k < |Links(t)| ==> LeavesUpTo(Nodes(t), Links(t), k)
    decreases t, 1
  {
    var ls := Links(t);
    var fs := NodesForest(t.children, t);
    assert ls == LinksForest(t.children, NodeId(t), t);
    LinksForestLeaveEarlierNodes(t.children, NodeId(t), t);
    var ns := Nodes(t);
    assert ns == [NodeOf(t)] + fs;
    forall k | 0 <= k < |ls| ensures LeavesUpTo(ns, ls, k) {
      if ls[k].source == NodeId(t) {
        assert ns[0].id == ls[k].source;
      } else {
        assert LeavesBefore(fs, ls, k);
        var j :| 0 <= j < k && j < |fs| && fs[j].id == ls[k].source;
        assert ns[j + 1] == fs[j];
      }
    }
  }

  /**
    Each link of a forest leaves the forest's parent or one of the forest's
    nodes that come before the node it enters.
   */
  lemma {:induction false} LinksForestLeaveEarlierNodes(ts: seq<Snapshot>, parentId: string, parent: Snapshot)
    requires forall i :: 0 <= i < |ts| ==> ts[i] < parent
    ensures forall k :: 0 <= k < |LinksForest(ts, parentId, parent)| ==>
              LinksForest(ts, parentId, parent)[k].source == parentId ||
              LeavesBefore(NodesForest(ts, parent), LinksForest(ts, parentId, parent), k)
    decreases parent, 0, |ts|
  {
    if ts != [] {
      var ls := LinksForest(ts, parentId, parent);
      var ns := NodesForest(ts, parent);
      var head := [GraphLink(parentId, NodeId(ts[0]))] + Links(ts[0]);
      var first := Nodes(ts[0]);
      LinksLeaveEarlierNodes(ts[0]);
      LinksForestLeaveEarlierNodes(ts[1..], parentId, parent);
      assert ls == head + LinksForest(ts[1..], parentId, parent);
      assert ns == first + NodesForest(ts[1..], parent);
      HeadLinksLeaveEarlier(first, NodesForest(ts[1..], parent), GraphLink(parentId, NodeId(ts[0])), Links(ts[0]),
                            LinksForest(ts[1..], parentId, parent));
      TailLinksLeaveEarlier(first, NodesForest(ts[1..], parent), head, LinksForest(ts[1..], parentId, parent), parentId);
    }
  }

  /** The links of the first subtree, after the link into it, leave nodes of that subtree that come earlier. */
  lemma HeadLinksLeaveEarlier(first: seq<GraphNode>, later: seq<GraphNode>, into: GraphLink, sub: seq<GraphLink>,
                              rest: seq<GraphLink>)
    requires forall k :: 0 <= k < |sub| ==> LeavesUpTo(first, sub, k)
    ensures forall k :: 0 < k <= |sub| ==> LeavesBefore(first + later, [into] + sub + rest, k)
  {
    var ns := first + later;
    var ls := [into] + sub + rest;
    forall k | 0 < k <= |sub| ensures LeavesBefore(ns, ls, k) {
      assert ls[k] == sub[k - 1];
      assert LeavesUpTo(first, sub, k - 1);
      var j :| 0 <= j <= k - 1 && j < |first| && first[j].id == sub[k - 1].source;
      assert ns[j] == first[j];
    }
  }

  /** Links of the later subtrees keep leaving the parent or an earlier node once the first subtree is put in front. */
  lemma TailLinksLeaveEarlier(first: seq<GraphNode>, later: seq<GraphNode>, head: seq<GraphLink>, rest: seq<GraphLink>,
                              parentId: string)
    requires |first| == |head|
    requires forall k :: 0 <= k < |rest| ==> rest[k].source == parentId || LeavesBefore(later, rest, k)
    ensures forall k :: |head| <= k < |head| + |rest| ==>
              (head + rest)[k].source == parentId || LeavesBefore(first + later, head + rest, k)
  {
    var ns := first + later;
    var ls := head + rest;
    var m := |head|;
    forall k | m <= k < |ls| && ls[k].source != parentId ensures LeavesBefore(ns, ls, k) {
      assert ls[k] == rest[k - m];
      assert LeavesBefore(later, rest, k - m);
      var j :| 0 <= j < k - m && j < |later| && later[j].id == rest[k - m].source;
      assert ns[m + j] == later[j];
    }
  }

  /** The links the view draws: those whose two ends both have a position, in order. */
  function DrawnLinks(links: seq<GraphLink>, positioned: set<string>): (r: seq<GraphLink>)
    ensures |r| <= |links|
    ensures forall i :: 0 <= i < |r| ==> r[i] in links && r[i].source in positioned && r[i].target in positioned
    ensures forall i :: 0 <= i < |links| && links[i].source in positioned && links[i].target in positioned ==>
              links[i] in r
  {
    if links == [] then []
    else
      var rest := DrawnLinks(links[1..], positioned);
      assert forall i :: 1 <= i < |links| ==> links[i] == links[1..][i - 1];
      if links[0].source in positioned && links[0].target in positioned then [links[0]] + rest else rest
  }

  /** Drawing keeps the links' order: the links of a concatenation are drawn part by part. */
  lemma {:induction false} DrawnLinksAppend(xs: seq<GraphLink>, ys: seq<GraphLink>, positioned: set<string>)
    ensures DrawnLinks(xs + ys, positioned) == DrawnLinks(xs, positioned) + DrawnLinks(ys, positioned)
  {
    if xs == [] {
      assert xs + ys == ys;
    } else {
      assert (xs + ys)[0] == xs[0] && (xs + ys)[1..] == xs[1..] + ys;
      DrawnLinksAppend(xs[1..], ys, positioned);
    }
  }

  /** The ids of the graph nodes. */
  function Ids(ns: seq<GraphNode>): set<string> {
    set i | 0 <= i < |ns| :: ns[i].id
  }

  /** Once every node has a position, every link of the tree is drawn. */
  lemma AllLinksDrawnOncePlaced(t: Snapshot, positioned: set<string>)
    requires Ids(Nodes(t)) <= positioned
    ensures forall k :: 0 <= k < |Links(t)| ==> Links(t)[k] in DrawnLinks(Links(t), positioned)
  {
    LinksTargetNodes(t);
    LinksLeaveEarlierNodes(t);
    var ns := Nodes(t);
    forall k | 0 <= k < |Links(t)|
      ensures Links(t)[k].source in positioned && Links(t)[k].target in positioned
    {
      assert ns[k + 1].id in Ids(ns);
      assert LeavesUpTo(ns, Links(t), k);
      var j :| 0 <= j <= k && j < |ns| && ns[j].id == Links(t)[k].source;
      assert ns[j].id in Ids(ns);
    }
  }
}

=== FILE: knet.dfy ===
/**
  The backend research engine (`KNet` in `backend/knet.py`): a breadth-first
  exploration of search queries with a FIFO frontier of `(node, depth)` pairs,
  a set of explored query strings, a depth bound, a saturating progress counter
  and the final report's media and metadata.

  The LLM and the scraper are opaque oracles passed in as functions. The tree
  that the source mutates in place is an arena: entry `i` is node `i`, its
  parent is an index, its children a list of indices; `ToTree` rebuilds the
  `ResearchTree.Node` view used by the report.
 */
module Knet {
  import opened Wrappers
  import opened Text
  import opened ResearchTree
  import opened Media

  /** `KNet.max_depth` as set by the constructor. */
  const DefaultMaxDepth: nat := 2

  // ---------------------------------------------------------------------------
  // ResearchProgress

  datatype ProgressEvent = ProgressEvent(progress: int, message: string)

  /**
    `ResearchProgress.update`: adds `delta`, saturates at 100 and hands exactly
    the stored value to the callback, when there is one.
   */
  function ProgressUpdate(progress: int, delta: int, message: string, hasCallback: bool): (r: (int, Option<ProgressEvent>))
    ensures r.0 <= 100
    ensures r.0 == progress + delta || (r.0 == 100 && progress + delta > 100)
    ensures r.1.Some? <==> hasCallback
    ensures r.1.Some? ==> r.1.value == ProgressEvent(r.0, message)
  {
    var p := progress + delta;
    var stored := if p > 100 then 100 else p;
    (stored, if hasCallback then Some(ProgressEvent(stored, message)) else None)
  }

  /** The stored values after applying each delta in turn. */
  function ProgressTrace(start: int, deltas: seq<int>): (r: seq<int>)
    ensures |r| == |deltas|
    decreases |deltas|
  {
    if deltas == [] then []
    else
      var next := ProgressUpdate(start, deltas[0], "", false).0;
      [next] + ProgressTrace(next, deltas[1..])
  }

  predicate NonDecreasing(s: seq<int>) {
    forall i, j :: 0 <= i < j < |s| ==> s[i] <= s[j]
  }

  /** With non-negative deltas from a start in [0, 100] progress never decreases and never exceeds 100. */
  lemma {:induction false} ProgressTraceBounded(start: int, deltas: seq<int>)
    requires 0 <= start <= 100
    requires forall i :: 0 <= i < |deltas| ==> deltas[i] >= 0
    ensures NonDecreasing(ProgressTrace(start, deltas))
    ensures forall i :: 0 <= i < |deltas| ==> start <= ProgressTrace(start, deltas)[i] <= 100
    decreases |deltas|
  {
    if deltas != [] {
      var next := ProgressUpdate(start, deltas[0], "", false).0;
      ProgressTraceBounded(next, deltas[1..]);
      var r := ProgressTrace(start, deltas);
      assert r[1..] == ProgressTrace(next, deltas[1..]);
    }
  }

  // ---------------------------------------------------------------------------
  // Oracles: the LLM and the scraper

  /** An LLM reply with the tokens it reported (`usage_metadata.total_token_count`). */
  datatype Reply<T> = Reply(value: T, tokens: nat)

  /**
    The branch analysis call: it raised before replying, or it replied with a
    JSON list of branches (`None` when the reply did not parse or has no
    `branches` key); each branch holds its `query`, or `None` when it has none.
   */
  datatype AnalysisReply = AnalysisFailed | Analysis(tokens: nat, branches: Option<seq<Option<string>>>)

  datatype Oracles = Oracles(
    /** `scraper.search_and_scrape(query, 3)`. */
    scrape: string -> seq<Page>,
    /** The key-findings extraction of `_should_branch_deeper` (topic, node data). */
    summarize: (string, seq<Page>) -> Reply<string>,
    /** The branch decision (query, depth, path from root, manager context); `None` when the JSON has no boolean decision. */
    decide: (string, int, seq<string>, seq<string>) -> Reply<Option<bool>>,
    /** The branch analysis (topic, manager context). */
    analyze: (string, seq<string>) -> AnalysisReply,
    /** The report text (root query, joined findings). */
    report: (string, string) -> Reply<string>)

  // ---------------------------------------------------------------------------
  // The tree as an arena

  /** Node `i` of the research tree; `parent` is -1 for the root. */
  datatype Entry = Entry(query: string, depth: int, parent: int, children: seq<nat>, data: seq<Page>)

  /**
    The arena is a tree rooted at entry 0 with depth 0: every other entry's
    parent comes before it and is one level up, and the children lists point
    forward to entries that name this one as their parent.
   */
  predicate ArenaOk(a: seq<Entry>) {
    && |a| >= 1 && a[0].parent == -1 && a[0].depth == 0
    && (forall j :: 0 <= j < |a| ==> a[j].depth >= 0)
    && (forall j :: 1 <= j < |a| ==> 0 <= a[j].parent < j)
    && (forall i, j :: 0 <= i < |a| && 1 <= j < |a| && a[j].parent == i ==> a[j].depth == a[i].depth + 1)
    && (forall i, k :: 0 <= i < |a| && 0 <= k < |a[i].children| ==>
          i < a[i].children[k] < |a| && a[a[i].children[k]].parent == i)
  }

  /** The entry `j` parent links above entry `i`. */
  function Ancestor(a: seq<Entry>, i: nat, j: nat): (r: nat)
    requires ArenaOk(a) && i < |a| && j <= a[i].depth
    ensures r < |a| && a[r].depth == a[i].depth - j
    decreases j
  {
    if j == 0 then i else Ancestor(a, a[i].parent as nat, j - 1)
  }

  /**
    `get_path_to_root` on the arena: the queries from the root down to entry
    `i`, entry `k` being the query of the ancestor at depth `k`.
   */
  function ArenaPath(a: seq<Entry>, i: nat): (r: seq<string>)
    requires ArenaOk(a) && i < |a|
    ensures |r| == a[i].depth + 1 && r[0] == a[0].query && r[|r| - 1] == a[i].query
    ensures forall k :: 0 <= k < |r| ==> r[k] == a[Ancestor(a, i, a[i].depth - k)].query
    decreases i
  {
    if i == 0 then [a[0].query]
    else
      var p := a[i].parent as nat;
      var q := ArenaPath(a, p);
      ArenaPathSnoc(a, i, p, q);
      q + [a[i].query]
  }

  /** One step of `ArenaPath`: the parent's path, entry by entry, followed by the entry's own query. */
  lemma ArenaPathSnoc(a: seq<Entry>, i: nat, p: nat, q: seq<string>)
    requires ArenaOk(a) && 0 < i < |a| && p == a[i].parent
    requires |q| == a[p].depth + 1 && forall k :: 0 <= k < |q| ==> q[k] == a[Ancestor(a, p, a[p].depth - k)].query
    ensures forall k :: 0 <= k < |q| + 1 ==> (q + [a[i].query])[k] == a[Ancestor(a, i, a[i].depth - k)].query
  {
    var r := q + [a[i].query];
    assert a[i].depth == a[p].depth + 1;
    forall k | 0 <= k < |r| ensures r[k] == a[Ancestor(a, i, a[i].depth - k)].query {
      if k < |q| {
        assert Ancestor(a, i, a[i].depth - k) == Ancestor(a, p, a[p].depth - k);
      }
    }
  }

  /** The `ResearchTree.Node` view of entry `i` and everything below it; the arena index serves as the node id. */
  function ToTree(a: seq<Entry>, i: nat): (r: Node)
    requires ArenaOk(a) && i < |a|
    ensures r.id == i && r.query == a[i].query && r.depth == a[i].depth && r.data == a[i].data
    ensures |r.children| == |a[i].children|
    ensures WellFormed(r)
    decreases |a| - i, |a[i].children| + 1
  {
    var cs := ToForest(a, i, a[i].children);
    Node(i, a[i].query, a[i].depth, cs, a[i].data)
  }

  function ToForest(a: seq<Entry>, parent: nat, cs: seq<nat>): (r: seq<Node>)
    requires ArenaOk(a) && parent < |a|
    requires forall k :: 0 <= k < |cs| ==> parent < cs[k] < |a| && a[cs[k]].parent == parent
    ensures |r| == |cs|
    ensures forall k :: 0 <= k < |cs| ==> r[k].depth == a[parent].depth + 1 && WellFormed(r[k])
    decreases |a| - parent, |cs|
  {
    if cs == [] then []
    else [ToTree(a, cs[0])] + ToForest(a, parent, cs[1..])
  }

  // ---------------------------------------------------------------------------
  // _analyze_and_branch

  /** The entries `_analyze_and_branch` creates: one fresh leaf per branch query, one level below `n`. */
  function NewEntries(depth: int, n: nat, branches: seq<string>): (r: seq<Entry>)
    ensures |r| == |branches|
    ensures forall k :: 0 <= k < |branches| ==> r[k] == Entry(branches[k], depth + 1, n, [], [])
  {
    seq(|branches|, k requires 0 <= k < |branches| => Entry(branches[k], depth + 1, n, [], []))
  }

  /** The indices `|a|, |a| + 1, ...` the new entries get. */
  function FreshIndices(from: nat, count: nat): (r: seq<nat>)
    ensures |r| == count && forall k :: 0 <= k < count ==> r[k] == from + k
  {
    seq(count, k requires 0 <= k < count => from + k)
  }

  /**
    What branching entry `n` does to the arena: the new entries
    are appended as leaves one level down with `n` as parent, their indices
    are added to `n`'s children, and nothing else changes.
   */
  predicate Grown(a: seq<Entry>, b: seq<Entry>, n: nat, kids: seq<nat>) {
    && n < |a| && |b| == |a| + |kids|
    && b[n] == a[n].(children := a[n].children + kids)
    && (forall i :: 0 <= i < |a| && i != n ==> b[i] == a[i])
    && (forall i :: 0 <= i < |a| ==>
          b[i].query == a[i].query && b[i].depth == a[i].depth && b[i].parent == a[i].parent && b[i].data == a[i].data)
    && (forall k :: 0 <= k < |kids| ==> kids[k] == |a| + k)
    && (forall i :: |a| <= i < |b| ==> b[i].depth == a[n].depth + 1 && b[i].parent == n && b[i].children == [] && b[i].data == [])
  }

  /** Growing a well-formed arena keeps it well formed. */
  lemma GrownArenaOk(a: seq<Entry>, b: seq<Entry>, n: nat, kids: seq<nat>)
    requires ArenaOk(a) && Grown(a, b, n, kids)
    ensures ArenaOk(b)
  {
    assert b[0].parent == a[0].parent by {
      if n == 0 { assert b[0] == a[0].(children := a[0].children + kids); }
    }
    forall j | 1 <= j < |b| ensures 0 <= b[j].parent < j {
      if j < |a| && j != n { assert b[j] == a[j]; }
    }
    forall i, j | 0 <= i < |b| && 1 <= j < |b| && b[j].parent == i ensures b[j].depth == b[i].depth + 1 {
      if j < |a| {
        if j != n { assert b[j] == a[j]; }
        assert a[j].parent == i;
      }
    }
    forall i, k | 0 <= i < |b| && 0 <= k < |b[i].children|
      ensures i < b[i].children[k] < |b| && b[b[i].children[k]].parent == i
    {
      if i == n && k >= |a[n].children| {
        assert b[i].children[k] == kids[k - |a[n].children|];
      } else if i < |a| {
        if i != n { assert b[i] == a[i]; }
        assert b[i].children[k] == a[i].children[k];
        var c := a[i].children[k];
        if c != n { assert b[c] == a[c]; }
      }
    }
  }

  /** Appends one leaf per branch query below entry `n` and records them as its children. */
  function Branch(a: seq<Entry>, n: nat, bs: seq<string>): (r: (seq<Entry>, seq<nat>))
    requires ArenaOk(a) && n < |a|
    ensures ArenaOk(r.0) && Grown(a, r.0, n, r.1)
    ensures |r.1| == |bs| && forall k :: 0 <= k < |bs| ==> r.0[|a| + k].query == bs[k]
  {
    var kids := FreshIndices(|a|, |bs|);
    var b := a[n := a[n].(children := a[n].children + kids)] + NewEntries(a[n].depth, n, bs);
    AppendedLeavesGrow(a, n, bs);
    GrownArenaOk(a, b, n, kids);
    (b, kids)
  }

  /** The arena `Branch` builds is `a` grown below `n`, its new entries holding the branch queries in order. */
  lemma AppendedLeavesGrow(a: seq<Entry>, n: nat, bs: seq<string>)
    requires n < |a|
    ensures var kids := FreshIndices(|a|, |bs|);
            var b := a[n := a[n].(children := a[n].children + kids)] + NewEntries(a[n].depth, n, bs);
            Grown(a, b, n, kids) && forall k :: 0 <= k < |bs| ==> b[|a| + k].query == bs[k]
  {
    var kids := FreshIndices(|a|, |bs|);
    var leaves := NewEntries(a[n].depth, n, bs);
    var b := a[n := a[n].(children := a[n].children + kids)] + leaves;
    assert forall i :: |a| <= i < |b| ==> b[i] == leaves[i - |a|];
  }

  /** The queries of the branches before the first one without a `query`. */
  function PresentQueries(bs: seq<Option<string>>): (r: seq<string>)
    ensures |r| <= |bs|
    ensures forall k :: 0 <= k < |r| ==> bs[k] == Some(r[k])
    ensures |r| == |bs| || bs[|r|].None?
  {
    if bs == [] || bs[0].None? then [] else [bs[0].value] + PresentQueries(bs[1..])
  }

  /**
    The outcome of `_analyze_and_branch`: the arena afterwards, the children
    it attached to the node, the nodes it returned and the tokens it counted.
   */
  datatype Branching = Branching(arena: seq<Entry>, attached: seq<nat>, returned: seq<nat>, tokens: nat)

  /**
    `_analyze_and_branch(node)`: nothing for a node without data; nothing
    (and no tokens) when the call raises; nothing but the tokens when the reply
    does not parse. Otherwise the branches are attached one by one as new
    children; a branch without a `query` raises, which keeps the children
    attached so far in the tree but returns no node at all.
   */
  function AnalyzeAndBranch(a: seq<Entry>, n: nat, reply: AnalysisReply): (r: Branching)
    requires ArenaOk(a) && n < |a|
    ensures ArenaOk(r.arena) && Grown(a, r.arena, n, r.attached)
    ensures r.returned == r.attached || r.returned == []
    ensures a[n].data == [] || reply.AnalysisFailed? ==> r == Branching(a, [], [], 0)
    ensures reply.Analysis? && a[n].data != [] ==> r.tokens == reply.tokens
    ensures reply.Analysis? && reply.branches.None? ==> r.arena == a && r.attached == [] && r.returned == []
    ensures reply.Analysis? && reply.branches.Some? && a[n].data != [] ==>
              var bs := reply.branches.value;
              && |r.attached| <= |bs|
              && (forall k :: 0 <= k < |r.attached| ==> bs[k] == Some(r.arena[|a| + k].query))
              && (|r.attached| == |bs| || bs[|r.attached|].None?)
              && r.returned == (if |r.attached| == |bs| then r.attached else [])
  {
    assert a[n].(children := a[n].children + []) == a[n];
    if a[n].data == [] then Branching(a, [], [], 0)
    else
      match reply
      case AnalysisFailed => Branching(a, [], [], 0)
      case Analysis(tokens, None) => Branching(a, [], [], tokens)
      case Analysis(tokens, Some(bs)) =>
        var qs := PresentQueries(bs);
        var b := Branch(a, n, qs);
        Branching(b.0, b.1, if |qs| == |bs| then b.1 else [], tokens)
  }

  // ---------------------------------------------------------------------------
  // The report

  /** The report's tree: `{query, depth, children}` without sources. */
  datatype Shape = Shape(query: string, depth: int, children: seq<Shape>)

  function ShapeOf(t: Node): (r: Shape)
    ensures r.query == t.query && r.depth == t.depth && |r.children| == |t.children|
    ensures forall k :: 0 <= k < |t.children| ==> r.children[k] == ShapeOf(t.children[k])
  {
    Shape(t.query, t.depth, ShapeForest(t.children))
  }

  function ShapeForest(cs: seq<Node>): (r: seq<Shape>)
    ensures |r| == |cs| && forall k :: 0 <= k < |cs| ==> r[k] == ShapeOf(cs[k])
  {
    if cs == [] then [] else [ShapeOf(cs[0])] + ShapeForest(cs[1..])
  }

  datatype Metadata = Metadata(totalQueries: nat, totalSources: nat, maxDepthReached: int, totalTokens: nat)

  datatype Report = Report(topic: string, content: string, media: MediaBundle, tree: Shape, metadata: Metadata)

  /**
    The report metadata shared by both back ends: the query count is the
    number of descendants of the root, the source count the number of page
    records over all nodes, and the depth the deepest node of the tree.
   */
  function TreeMetadata(root: Node, tokens: nat): (m: Metadata)
    ensures m.totalQueries == |Preorder(root)| - 1
    ensures m.totalSources == DataCount(Preorder(root))
    ensures WellFormed(root) ==> m.maxDepthReached >= root.depth
    ensures forall k :: 0 <= k < |Leaves(root)| ==> Leaves(root)[k].depth <= m.maxDepthReached
    ensures exists k :: 0 <= k < |Leaves(root)| && Leaves(root)[k].depth == m.maxDepthReached
    ensures m.totalTokens == tokens
  {
    TotalChildrenCountsDescendants(root);
    AllDataIsPreorderConcat(root);
    ConcatDataLength(Preorder(root));
    MaxDepthIsGreatestLeaf(root);
    assert WellFormed(root) ==> MaxDepth(root) >= root.depth by {
      if WellFormed(root) { MaxDepthAtLeastOwnDepth(root); }
    }
    Metadata(TotalChildren(root), |AllData(root)|, MaxDepth(root), tokens)
  }

  /**
    The report of `_generate_final_report`: the media bundle collates every
    page of the tree, and the token total includes the report call itself.
   */
  function FinalReport(root: Node, tokensSoFar: nat, reply: Reply<string>): (r: Report)
    ensures r.topic == root.query && r.content == reply.value
    ensures r.metadata == TreeMetadata(root, tokensSoFar + reply.tokens)
    ensures r.metadata.totalTokens == tokensSoFar + reply.tokens
    ensures r.media == Collate(ConcatData(Preorder(root)))
    ensures r.tree == ShapeOf(root)
  {
    AllDataIsPreorderConcat(root);
    Report(root.query, reply.value, Collate(AllData(root)), ShapeOf(root), TreeMetadata(root, tokensSoFar + reply.tokens))
  }

  // ---------------------------------------------------------------------------
  // conduct_research

  /** How many frontier entries sit at depth `d`. */
  function CountAt(f: seq<(nat, int)>, d: int): nat
    decreases |f|
  {
    if f == [] then 0 else (if f[0].1 == d then 1 else 0) + CountAt(f[1..], d)
  }

  /** Entries at other depths do not change the count at `d`. */
  lemma {:induction false} CountAtAppend(f: seq<(nat, int)>, g: seq<(nat, int)>, d: int)
    requires forall k :: 0 <= k < |g| ==> g[k].1 != d
    ensures CountAt(f + g, d) == CountAt(f, d)
    decreases |f| + |g|
  {
    if f == [] {
      assert f + g == g;
      if g != [] {
        CountAtAppend([], g[1..], d);
        assert [] + g[1..] == g[1..];
      }
    } else {
      assert (f + g)[1..] == f[1..] + g;
      CountAtAppend(f[1..], g, d);
    }
  }

  /** The frontier entries for freshly created children at depth `d`. */
  function Enqueue(kids: seq<nat>, d: int): (r: seq<(nat, int)>)
    ensures |r| == |kids| && forall k :: 0 <= k < |kids| ==> r[k] == (kids[k], d)
  {
    seq(|kids|, k requires 0 <= k < |kids| => (kids[k], d))
  }

  /** Termination measure, first component: levels left below the bound for the front entry. */
  function LevelsLeft(f: seq<(nat, int)>, maxDepth: nat): int {
    if f == [] then 0 else maxDepth + 1 - f[0].1
  }

  /** Termination measure, second component: entries sharing the front entry's depth. */
  function FrontCount(f: seq<(nat, int)>): nat {
    if f == [] then 0 else CountAt(f, f[0].1)
  }

  /**
    Every frontier entry is a leaf whose recorded depth is its node's depth,
    within the bound; indices grow along the frontier, depths do not fall,
    and they span at most two consecutive levels.
   */
  predicate FrontierOk(a: seq<Entry>, f: seq<(nat, int)>, maxDepth: nat) {
    && (forall k :: 0 <= k < |f| ==>
          f[k].0 < |a| && f[k].1 == a[f[k].0].depth && 0 <= f[k].1 <= maxDepth && a[f[k].0].children == [])
    && (forall k, l :: 0 <= k < l < |f| ==> f[k].0 < f[l].0 && f[k].1 <= f[l].1)
    && (forall k :: 0 <= k < |f| ==> f[k].1 <= f[0].1 + 1)
  }

  /**
    The scraped `(query, depth)` log: depths below the bound and in
    breadth-first (non-decreasing) order, queries pairwise different, and the
    explored set is exactly the logged queries.
   */
  predicate LogOk(log: seq<(string, int)>, explored: set<string>, maxDepth: nat) {
    && (forall k :: 0 <= k < |log| ==> 0 <= log[k].1 < maxDepth)
    && (forall k, l :: 0 <= k < l < |log| ==> log[k].0 != log[l].0 && log[k].1 <= log[l].1)
    && explored == (set k | 0 <= k < |log| :: log[k].0)
  }

  /** Nothing scraped so far is deeper than an entry still waiting. */
  predicate LogBeforeFrontier(log: seq<(string, int)>, f: seq<(nat, int)>) {
    forall k, l :: 0 <= k < |log| && 0 <= l < |f| ==> log[k].1 <= f[l].1
  }

  /** Only nodes with data, above the bound, have children. */
  predicate BranchesOk(a: seq<Entry>, maxDepth: nat) {
    forall i :: 0 <= i < |a| && a[i].children != [] ==> a[i].data != [] && a[i].depth < maxDepth
  }

  /** The state the exploration loop keeps between iterations. */
  predicate SearchInv(a: seq<Entry>, f: seq<(nat, int)>, explored: set<string>, log: seq<(string, int)>, maxDepth: nat) {
    && ArenaOk(a)
    && FrontierOk(a, f, maxDepth)
    && LogOk(log, explored, maxDepth)
    && LogBeforeFrontier(log, f)
    && BranchesOk(a, maxDepth)
  }

  /** Popping an entry that is skipped keeps the loop state. */
  lemma SkipKeeps(a: seq<Entry>, f: seq<(nat, int)>, explored: set<string>, log: seq<(string, int)>, maxDepth: nat)
    requires SearchInv(a, f, explored, log, maxDepth) && f != []
    ensures SearchInv(a, f[1..], explored, log, maxDepth)
  {
    var g := f[1..];
    forall k | 0 <= k < |g| ensures g[k].1 <= g[0].1 + 1 {
      assert g[k] == f[k + 1] && g[0] == f[1];
    }
  }

  /** The arena after `node.data = data` on entry `n`: nothing else changes. */
  function WithData(a: seq<Entry>, n: nat, data: seq<Page>): (r: seq<Entry>)
    requires n < |a|
    ensures |r| == |a| && r[n] == a[n].(data := data)
    ensures forall i :: 0 <= i < |a| && i != n ==> r[i] == a[i]
    ensures forall i :: 0 <= i < |a| ==>
              r[i].query == a[i].query && r[i].depth == a[i].depth && r[i].parent == a[i].parent && r[i].children == a[i].children
  {
    a[n := a[n].(data := data)]
  }

  lemma WithDataArenaOk(a: seq<Entry>, n: nat, data: seq<Page>)
    requires ArenaOk(a) && n < |a|
    ensures ArenaOk(WithData(a, n, data))
  {
  }

  lemma VisitFrontier(a: seq<Entry>, f: seq<(nat, int)>, maxDepth: nat, data: seq<Page>)
    requires FrontierOk(a, f, maxDepth) && f != []
    ensures FrontierOk(WithData(a, f[0].0, data), f[1..], maxDepth)
  {
    var g := f[1..];
    forall k | 0 <= k < |g| ensures g[k].1 <= g[0].1 + 1 {
      assert g[k] == f[k + 1] && g[0] == f[1];
    }
  }

  lemma VisitLog(f: seq<(nat, int)>, explored: set<string>, log: seq<(string, int)>, maxDepth: nat, q: string)
    requires LogOk(log, explored, maxDepth) && LogBeforeFrontier(log, f)
    requires f != [] && 0 <= f[0].1 < maxDepth && q !in explored
    requires forall k, l :: 0 <= k < l < |f| ==> f[k].1 <= f[l].1
    ensures LogOk(log + [(q, f[0].1)], explored + {q}, maxDepth)
    ensures LogBeforeFrontier(log + [(q, f[0].1)], f[1..])
  {
    var log' := log + [(q, f[0].1)];
    forall k, l | 0 <= k < l < |log'| ensures log'[k].0 != log'[l].0 && log'[k].1 <= log'[l].1 {
      if l == |log| {
        assert log[k].0 in explored;
      }
    }
    forall x | x in explored + {q} ensures x in (set k | 0 <= k < |log'| :: log'[k].0) {
      if x == q {
        assert log'[|log|].0 == x;
      } else {
        var k :| 0 <= k < |log| && log[k].0 == x;
        assert log'[k].0 == x;
      }
    }
    forall k, l | 0 <= k < |log'| && 0 <= l < |f[1..]| ensures log'[k].1 <= f[1..][l].1 {
      assert f[1..][l] == f[l + 1];
    }
  }

  lemma VisitBranches(a: seq<Entry>, maxDepth: nat, n: nat, data: seq<Page>)
    requires BranchesOk(a, maxDepth) && n < |a| && a[n].children == []
    ensures BranchesOk(WithData(a, n, data), maxDepth)
  {
  }

  /** Popping an unexplored entry above the bound and recording its pages keeps the loop state. */
  lemma VisitKeeps(a: seq<Entry>, f: seq<(nat, int)>, explored: set<string>, log: seq<(string, int)>, maxDepth: nat,
                   data: seq<Page>)
    requires SearchInv(a, f, explored, log, maxDepth) && f != []
    requires a[f[0].0].query !in explored && f[0].1 < maxDepth
    ensures SearchInv(WithData(a, f[0].0, data), f[1..], explored + {a[f[0].0].query},
                      log + [(a[f[0].0].query, f[0].1)], maxDepth)
  {
    WithDataArenaOk(a, f[0].0, data);
    VisitFrontier(a, f, maxDepth, data);
    VisitLog(f, explored, log, maxDepth, a[f[0].0].query);
    VisitBranches(a, maxDepth, f[0].0, data);
  }

  lemma BranchFrontier(a: seq<Entry>, b: seq<Entry>, f: seq<(nat, int)>, maxDepth: nat, n: nat, kids: seq<nat>,
                        queued: seq<nat>)
    requires FrontierOk(a, f, maxDepth) && Grown(a, b, n, kids) && (queued == kids || queued == [])
    requires 0 <= a[n].depth < maxDepth
    requires forall k :: 0 <= k < |f| ==> f[k].0 != n && a[n].depth <= f[k].1 <= a[n].depth + 1
    ensures FrontierOk(b, f + Enqueue(queued, a[n].depth + 1), maxDepth)
  {
    if queued == [] {
      GrownKeepsFrontier(a, b, f, maxDepth, n, kids);
      assert f + Enqueue(queued, a[n].depth + 1) == f;
    } else {
      AppendedFrontier(a, b, f, maxDepth, n, kids);
    }
  }

  /** Entries already queued are untouched by growing the tree below another entry. */
  lemma GrownKeepsFrontier(a: seq<Entry>, b: seq<Entry>, f: seq<(nat, int)>, maxDepth: nat, n: nat, kids: seq<nat>)
    requires FrontierOk(a, f, maxDepth) && Grown(a, b, n, kids)
    requires forall k :: 0 <= k < |f| ==> f[k].0 != n
    ensures FrontierOk(b, f, maxDepth)
  {
    forall k | 0 <= k < |f| ensures b[f[k].0] == a[f[k].0] {
    }
  }

  /** Queueing all the new children one level down keeps the frontier breadth-first. */
  lemma AppendedFrontier(a: seq<Entry>, b: seq<Entry>, f: seq<(nat, int)>, maxDepth: nat, n: nat, kids: seq<nat>)
    requires FrontierOk(a, f, maxDepth) && Grown(a, b, n, kids)
    requires 0 <= a[n].depth < maxDepth
    requires forall k :: 0 <= k < |f| ==> f[k].0 != n && a[n].depth <= f[k].1 <= a[n].depth + 1
    ensures FrontierOk(b, f + Enqueue(kids, a[n].depth + 1), maxDepth)
  {
    var g := f + Enqueue(kids, a[n].depth + 1);
    AppendedEntries(a, b, f, g, maxDepth, n, kids);
    AppendedOrder(a, b, f, g, maxDepth, n, kids);
  }

  lemma AppendedEntries(a: seq<Entry>, b: seq<Entry>, f: seq<(nat, int)>, g: seq<(nat, int)>, maxDepth: nat, n: nat,
                        kids: seq<nat>)
    requires FrontierOk(a, f, maxDepth) && Grown(a, b, n, kids)
    requires 0 <= a[n].depth < maxDepth && g == f + Enqueue(kids, a[n].depth + 1)
    requires forall k :: 0 <= k < |f| ==> f[k].0 != n && a[n].depth <= f[k].1 <= a[n].depth + 1
    ensures forall k :: 0 <= k < |g| ==>
              g[k].0 < |b| && g[k].1 == b[g[k].0].depth && 0 <= g[k].1 <= maxDepth && b[g[k].0].children == []
    ensures forall k :: 0 <= k < |g| ==> g[k].1 <= g[0].1 + 1
  {
    var d := a[n].depth;
    var added := Enqueue(kids, d + 1);
    forall k | 0 <= k < |g|
      ensures && g[k].0 < |b| && g[k].1 == b[g[k].0].depth && 0 <= g[k].1 <= maxDepth && b[g[k].0].children == []
              && g[k].1 <= g[0].1 + 1
    {
      if k >= |f| {
        assert g[k] == added[k - |f|] == (|a| + (k - |f|), d + 1);
      } else {
        assert g[k] == f[k];
        assert b[f[k].0] == a[f[k].0];
      }
      if f != [] { assert g[0] == f[0]; } else { assert g[0] == added[0]; }
    }
  }

  lemma AppendedOrder(a: seq<Entry>, b: seq<Entry>, f: seq<(nat, int)>, g: seq<(nat, int)>, maxDepth: nat, n: nat,
                      kids: seq<nat>)
    requires FrontierOk(a, f, maxDepth) && Grown(a, b, n, kids)
    requires g == f + Enqueue(kids, a[n].depth + 1)
    requires forall k :: 0 <= k < |f| ==> a[n].depth <= f[k].1 <= a[n].depth + 1
    ensures forall k, l :: 0 <= k < l < |g| ==> g[k].0 < g[l].0 && g[k].1 <= g[l].1
  {
    var d := a[n].depth;
    forall k, l | 0 <= k < l < |g| ensures g[k].0 < g[l].0 && g[k].1 <= g[l].1 {
      if l >= |f| {
        assert g[l] == (|a| + (l - |f|), d + 1);
        if k >= |f| { assert g[k] == (|a| + (k - |f|), d + 1); } else { assert g[k] == f[k]; }
      } else {
        assert g[k] == f[k] && g[l] == f[l];
      }
    }
  }

  lemma BranchLog(f: seq<(nat, int)>, log: seq<(string, int)>, kids: seq<nat>, d: int)
    requires LogBeforeFrontier(log, f)
    requires forall k :: 0 <= k < |log| ==> log[k].1 <= d
    ensures LogBeforeFrontier(log, f + Enqueue(kids, d + 1))
  {
    var added := Enqueue(kids, d + 1);
    var g := f + added;
    forall k, l | 0 <= k < |log| && 0 <= l < |g| ensures log[k].1 <= g[l].1 {
      if l < |f| { assert g[l] == f[l]; } else { assert g[l] == added[l - |f|]; }
    }
  }

  lemma BranchBranches(a: seq<Entry>, b: seq<Entry>, maxDepth: nat, n: nat, kids: seq<nat>)
    requires BranchesOk(a, maxDepth) && Grown(a, b, n, kids)
    requires a[n].data != [] && a[n].depth < maxDepth
    ensures BranchesOk(b, maxDepth)
  {
    forall i | 0 <= i < |b| && b[i].children != [] ensures b[i].data != [] && b[i].depth < maxDepth {
      if i < |a| && i != n { assert b[i] == a[i]; }
    }
  }

  /**
    Branching the entry visited last keeps the loop state: its new children
    join the back of the frontier one level down.
   */
  lemma BranchKeeps(a: seq<Entry>, b: seq<Entry>, f: seq<(nat, int)>, explored: set<string>, log: seq<(string, int)>,
                    maxDepth: nat, n: nat, kids: seq<nat>, queued: seq<nat>)
    requires SearchInv(a, f, explored, log, maxDepth) && ArenaOk(b) && Grown(a, b, n, kids)
    requires queued == kids || queued == []
    requires a[n].data != [] && a[n].depth < maxDepth
    requires forall k :: 0 <= k < |f| ==> f[k].0 != n && a[n].depth <= f[k].1 <= a[n].depth + 1
    requires forall k :: 0 <= k < |log| ==> log[k].1 <= a[n].depth
    ensures SearchInv(b, f + Enqueue(queued, a[n].depth + 1), explored, log, maxDepth)
  {
    BranchFrontier(a, b, f, maxDepth, n, kids, queued);
    BranchLog(f, log, queued, a[n].depth);
    BranchBranches(a, b, maxDepth, n, kids);
  }

  lemma AppendNonDecreasing(s: seq<int>, x: int)
    requires NonDecreasing(s) && (|s| > 0 ==> s[|s| - 1] <= x)
    ensures NonDecreasing(s + [x])
  {
  }

  /** The termination measure falls from frontier `f` to frontier `g`. */
  predicate Shrinks(f: seq<(nat, int)>, g: seq<(nat, int)>, maxDepth: nat) {
    || LevelsLeft(g, maxDepth) < LevelsLeft(f, maxDepth)
    || (LevelsLeft(g, maxDepth) == LevelsLeft(f, maxDepth) && FrontCount(g) < FrontCount(f))
  }

  /**
    Taking the front entry and appending entries one level below it shrinks
    the measure, whatever their number.
   */
  lemma {:induction false} PopShrinks(f: seq<(nat, int)>, added: seq<(nat, int)>, maxDepth: nat)
    requires f != [] && f[0].1 <= maxDepth
    requires forall k :: 0 <= k < |f| ==> f[0].1 <= f[k].1 <= f[0].1 + 1
    requires forall k :: 0 <= k < |added| ==> added[k].1 == f[0].1 + 1
    ensures Shrinks(f, f[1..] + added, maxDepth)
  {
    var d := f[0].1;
    var rest := f[1..];
    var g := rest + added;
    assert FrontCount(f) == 1 + CountAt(rest, d);
    CountAtAppend(rest, added, d);
    if rest != [] {
      assert g[0] == rest[0] == f[1];
    } else if added != [] {
      assert g[0] == added[0];
    } else {
      assert g == [];
    }
  }

  predicate ProgressOk(log: seq<int>) {
    |log| > 0 && NonDecreasing(log) && forall i :: 0 <= i < |log| ==> 0 < log[i] <= 100
  }

  predicate TokensOk(log: seq<nat>) {
    |log| > 0 && log[0] == 0 && NonDecreasing(log)
  }

  function Last<T>(s: seq<T>): T
    requires |s| > 0
  {
    s[|s| - 1]
  }

  /** Records one `ResearchProgress.update`: the log stays within (0, 100] and never falls. */
  function Advance(log: seq<int>, delta: nat): (r: seq<int>)
    requires ProgressOk(log)
    ensures ProgressOk(r) && |r| == |log| + 1 && r[..|log|] == log
    ensures Last(r) == ProgressUpdate(Last(log), delta, "", false).0
  {
    var p := ProgressUpdate(Last(log), delta, "", false).0;
    AppendNonDecreasing(log, p);
    assert (log + [p])[..|log|] == log;
    log + [p]
  }

  /** Records one `_track_tokens` call: the count only grows, by exactly the tokens used. */
  function Track(log: seq<nat>, used: nat): (r: seq<nat>)
    requires TokensOk(log)
    ensures TokensOk(r) && |r| == |log| + 1 && r[..|log|] == log
    ensures Last(r) == Last(log) + used
  {
    var t := Last(log) + used;
    AppendNonDecreasing(log, t);
    assert (log + [t])[..|log|] == log;
    log + [t]
  }

  /**
    The search part of the loop invariant: `SearchInv`, the root holds the
    topic, and before the first scrape the frontier holds at most the root.
   */
  predicate SearchOk(a: seq<Entry>, f: seq<(nat, int)>, explored: set<string>, scraped: seq<(string, int)>,
                     topic: string, maxDepth: nat) {
    && SearchInv(a, f, explored, scraped, maxDepth)
    && a[0].query == topic
    && (|scraped| > 0 ==> scraped[0] == (topic, 0))
    && (|scraped| == 0 ==> |f| <= 1 && (|f| == 1 ==> f[0] == (0, 0)))
  }

  /** The search `conduct_research` starts from: the root alone, holding the topic, queued at depth 0. */
  lemma StartOk(topic: string, maxDepth: nat)
    ensures SearchOk([Entry(topic, 0, -1, [], [])], [(0, 0)], {}, [], topic, maxDepth)
  {
  }

  lemma SkipOk(a: seq<Entry>, f: seq<(nat, int)>, explored: set<string>, scraped: seq<(string, int)>,
               topic: string, maxDepth: nat)
    requires SearchOk(a, f, explored, scraped, topic, maxDepth) && f != []
    ensures SearchOk(a, f[1..], explored, scraped, topic, maxDepth)
    ensures Shrinks(f, f[1..], maxDepth)
  {
    SkipKeeps(a, f, explored, scraped, maxDepth);
    PopShrinks(f, [], maxDepth);
    assert f[1..] + [] == f[1..];
  }

  lemma VisitOk(a: seq<Entry>, f: seq<(nat, int)>, explored: set<string>, scraped: seq<(string, int)>,
                topic: string, maxDepth: nat, data: seq<Page>)
    requires SearchOk(a, f, explored, scraped, topic, maxDepth) && f != []
    requires a[f[0].0].query !in explored && f[0].1 < maxDepth
    ensures SearchOk(WithData(a, f[0].0, data), f[1..], explored + {a[f[0].0].query},
                     scraped + [(a[f[0].0].query, f[0].1)], topic, maxDepth)
    ensures Shrinks(f, f[1..], maxDepth)
  {
    VisitKeeps(a, f, explored, scraped, maxDepth, data);
    PopShrinks(f, [], maxDepth);
    assert f[1..] + [] == f[1..];
    if scraped != [] {
      assert (scraped + [(a[f[0].0].query, f[0].1)])[0] == scraped[0];
    }
  }

  lemma BranchOk(a: seq<Entry>, b: seq<Entry>, f: seq<(nat, int)>, explored: set<string>, scraped: seq<(string, int)>,
                 topic: string, maxDepth: nat, n: nat, kids: seq<nat>, queued: seq<nat>)
    requires SearchOk(a, f, explored, scraped, topic, maxDepth) && |scraped| > 0
    requires ArenaOk(b) && Grown(a, b, n, kids) && (queued == kids || queued == [])
    requires a[n].data != [] && a[n].depth < maxDepth
    requires forall k :: 0 <= k < |f| ==> f[k].0 != n && a[n].depth <= f[k].1 <= a[n].depth + 1
    requires forall k :: 0 <= k < |scraped| ==> scraped[k].1 <= a[n].depth
    ensures SearchOk(b, f + Enqueue(queued, a[n].depth + 1), explored, scraped, topic, maxDepth)
  {
    BranchKeeps(a, b, f, explored, scraped, maxDepth, n, kids, queued);
  }
}

=== FILE: knet_search.dfy ===
/**
  The exploration loop of `KNet.conduct_research` over the arena: the state
  carried between frontier entries, the visit and branch steps, and the loop
  itself with its invariant.
 */
module KnetSearch {
  import opened Wrappers
  import opened Text
  import opened Media
  import opened ResearchTree
  import opened Knet

  /** The state `conduct_research` carries from one frontier entry to the next. */
  datatype Search = Search(
    arena: seq<Entry>,
    frontier: seq<(nat, int)>,
    explored: set<string>,
    /** The `(query, depth)` of every scrape, in order. */
    scraped: seq<(string, int)>,
    /** The stored progress after every update. */
    progressLog: seq<int>,
    /** `token_count` after every update. */
    tokenLog: seq<nat>,
    ctxResearcher: seq<seq<Page>>,
    ctxManager: seq<string>)

  /** The loop invariant of `conduct_research`. */
  predicate Valid(s: Search, topic: string, maxDepth: nat) {
    && SearchOk(s.arena, s.frontier, s.explored, s.scraped, topic, maxDepth)
    && ProgressOk(s.progressLog)
    && TokensOk(s.tokenLog)
  }

  lemma ValidOfParts(a: seq<Entry>, f: seq<(nat, int)>, explored: set<string>, scraped: seq<(string, int)>,
                     progressLog: seq<int>, tokenLog: seq<nat>, ctxResearcher: seq<seq<Page>>, ctxManager: seq<string>,
                     topic: string, maxDepth: nat)
    requires SearchOk(a, f, explored, scraped, topic, maxDepth)
    requires ProgressOk(progressLog) && TokensOk(tokenLog)
    ensures Valid(Search(a, f, explored, scraped, progressLog, tokenLog, ctxResearcher, ctxManager), topic, maxDepth)
  {
  }

  /** `b` is `a` with items appended. */
  predicate Extends<T(==)>(a: seq<T>, b: seq<T>) {
    |a| <= |b| && b[..|a|] == a
  }

  lemma ExtendsTrans<T>(a: seq<T>, b: seq<T>, c: seq<T>)
    requires Extends(a, b) && Extends(b, c)
    ensures Extends(a, c)
  {
    assert c[..|a|] == c[..|b|][..|a|];
  }

  /** The researcher and manager contexts only grow: nothing earlier is forgotten. */
  predicate ContextsGrow(s: Search, t: Search) {
    Extends(s.ctxResearcher, t.ctxResearcher) && Extends(s.ctxManager, t.ctxManager)
  }

  /** Scrapes the front entry's query, which is unexplored and above the bound, and records its pages. */
  method Visit(s: Search, topic: string, maxDepth: nat, o: Oracles) returns (t: Search)
    requires Valid(s, topic, maxDepth) && s.frontier != []
    requires s.arena[s.frontier[0].0].query !in s.explored && s.frontier[0].1 < maxDepth
    ensures Valid(t, topic, maxDepth)
    ensures t.frontier == s.frontier[1..] && Shrinks(s.frontier, t.frontier, maxDepth)
    ensures t.scraped == s.scraped + [(s.arena[s.frontier[0].0].query, s.frontier[0].1)]
    ensures |t.arena| == |s.arena| && t.arena[s.frontier[0].0] == s.arena[s.frontier[0].0].(data := t.arena[s.frontier[0].0].data)
    ensures t.tokenLog == s.tokenLog && t.ctxManager == s.ctxManager
    ensures |t.ctxResearcher| == |s.ctxResearcher| + 1 && Extends(s.ctxResearcher, t.ctxResearcher)
    ensures var n := s.frontier[0].0; var pages := o.scrape(s.arena[n].query);
            && t.arena == WithData(s.arena, n, pages)
            && t.ctxResearcher == s.ctxResearcher + [pages]
            && t.explored == s.explored + {s.arena[n].query}
  {
    var n := s.frontier[0].0;
    var query := s.arena[n].query;
    var data := o.scrape(query);
    VisitOk(s.arena, s.frontier, s.explored, s.scraped, topic, maxDepth, data);
    t := Search(WithData(s.arena, n, data), s.frontier[1..], s.explored + {query}, s.scraped + [(query, s.frontier[0].1)],
                Advance(s.progressLog, 5), s.tokenLog, s.ctxResearcher + [data], s.ctxManager);
  }

  /**
    The search after the branch step: the token log and manager context move
    on, and when the tree grew below entry `n` its new children are queued one
    level down.
   */
  function Decided(s: Search, n: nat, tokenLog: seq<nat>, ctxManager: seq<string>,
                   grown: Option<Branching>): (t: Search)
    requires TokensOk(tokenLog) && n < |s.arena|
    ensures t.scraped == s.scraped && |s.frontier| <= |t.frontier| && t.frontier[..|s.frontier|] == s.frontier
    ensures forall k :: |s.frontier| <= k < |t.frontier| ==> t.frontier[k].1 == s.arena[n].depth + 1
    ensures t.ctxResearcher == s.ctxResearcher && t.ctxManager == ctxManager
    ensures grown.None? ==> t.arena == s.arena && t.frontier == s.frontier
    ensures grown.Some? ==> t.arena == grown.value.arena && t.frontier == s.frontier + Enqueue(grown.value.returned, s.arena[n].depth + 1)
  {
    match grown
    case None =>
      Search(s.arena, s.frontier, s.explored, s.scraped, s.progressLog, tokenLog, s.ctxResearcher, ctxManager)
    case Some(g) =>
      var f := s.frontier + Enqueue(g.returned, s.arena[n].depth + 1);
      assert f[..|s.frontier|] == s.frontier;
      Search(g.arena, f, s.explored, s.scraped, s.progressLog, Track(tokenLog, g.tokens), s.ctxResearcher, ctxManager)
  }

  /** The branch step keeps the search valid, whether or not the tree grew. */
  lemma DecidedValid(s: Search, topic: string, maxDepth: nat, n: nat, tokenLog: seq<nat>, ctxManager: seq<string>,
                     grown: Option<Branching>)
    requires Valid(s, topic, maxDepth) && n < |s.arena| && |s.scraped| > 0
    requires s.arena[n].data != [] && s.arena[n].depth < maxDepth
    requires forall k :: 0 <= k < |s.frontier| ==> s.frontier[k].0 != n && s.arena[n].depth <= s.frontier[k].1 <= s.arena[n].depth + 1
    requires forall k :: 0 <= k < |s.scraped| ==> s.scraped[k].1 <= s.arena[n].depth
    requires TokensOk(tokenLog)
    requires grown.Some? ==> ArenaOk(grown.value.arena) && Grown(s.arena, grown.value.arena, n, grown.value.attached)
    requires grown.Some? ==> grown.value.returned == grown.value.attached || grown.value.returned == []
    ensures Valid(Decided(s, n, tokenLog, ctxManager, grown), topic, maxDepth)
  {
    match grown
    case None =>
      ValidOfParts(s.arena, s.frontier, s.explored, s.scraped, s.progressLog, tokenLog, s.ctxResearcher, ctxManager,
                   topic, maxDepth);
      assert Decided(s, n, tokenLog, ctxManager, grown) ==
             Search(s.arena, s.frontier, s.explored, s.scraped, s.progressLog, tokenLog, s.ctxResearcher, ctxManager);
    case Some(g) =>
      GrownValid(s, topic, maxDepth, n, tokenLog, ctxManager, g);
      assert Decided(s, n, tokenLog, ctxManager, grown) ==
             Search(g.arena, s.frontier + Enqueue(g.returned, s.arena[n].depth + 1), s.explored, s.scraped,
                    s.progressLog, Track(tokenLog, g.tokens), s.ctxResearcher, ctxManager);
  }

  /** The grown case of `DecidedValid`: the returned children queued one level down keep the search valid. */
  lemma GrownValid(s: Search, topic: string, maxDepth: nat, n: nat, tokenLog: seq<nat>, ctxManager: seq<string>,
                   g: Branching)
    requires SearchOk(s.arena, s.frontier, s.explored, s.scraped, topic, maxDepth) && ProgressOk(s.progressLog)
    requires n < |s.arena| && |s.scraped| > 0
    requires s.arena[n].data != [] && s.arena[n].depth < maxDepth
    requires forall k :: 0 <= k < |s.frontier| ==> s.frontier[k].0 != n && s.arena[n].depth <= s.frontier[k].1 <= s.arena[n].depth + 1
    requires forall k :: 0 <= k < |s.scraped| ==> s.scraped[k].1 <= s.arena[n].depth
    requires TokensOk(tokenLog)
    requires ArenaOk(g.arena) && Grown(s.arena, g.arena, n, g.attached) && (g.returned == g.attached || g.returned == [])
    ensures Valid(Search(g.arena, s.frontier + Enqueue(g.returned, s.arena[n].depth + 1), s.explored, s.scraped,
                         s.progressLog, Track(tokenLog, g.tokens), s.ctxResearcher, ctxManager), topic, maxDepth)
  {
    BranchOk(s.arena, g.arena, s.frontier, s.explored, s.scraped, topic, maxDepth, n, g.attached, g.returned);
    ValidOfParts(g.arena, s.frontier + Enqueue(g.returned, s.arena[n].depth + 1), s.explored, s.scraped,
                 s.progressLog, Track(tokenLog, g.tokens), s.ctxResearcher, ctxManager, topic, maxDepth);
  }

  /** The key findings the manager context gains from entry `n`'s pages. */
  function Findings(s: Search, topic: string, o: Oracles, n: nat): string
    requires n < |s.arena|
  {
    o.summarize(topic, s.arena[n].data).value
  }

  /** The reply to the branch decision on entry `n`, asked with its findings already in the manager context. */
  function Asked(s: Search, topic: string, o: Oracles, n: nat): Reply<Option<bool>>
    requires ArenaOk(s.arena) && n < |s.arena|
  {
    o.decide(s.arena[n].query, s.arena[n].depth, ArenaPath(s.arena, n), s.ctxManager + [Findings(s, topic, o, n)])
  }

  /** The parsed branch decision on entry `n`: None when the reply did not parse. */
  function Verdict(s: Search, topic: string, o: Oracles, n: nat): Option<bool>
    requires ArenaOk(s.arena) && n < |s.arena|
  {
    Asked(s, topic, o, n).value
  }

  /** What `_analyze_and_branch` makes of entry `n` once the decision is to branch. */
  function Analysis(s: Search, topic: string, o: Oracles, n: nat): Branching
    requires ArenaOk(s.arena) && n < |s.arena|
  {
    AnalyzeAndBranch(s.arena, n, o.analyze(topic, s.ctxManager + [Findings(s, topic, o, n)]))
  }

  /** Every branch decision reply parses, whatever it is asked. */
  ghost predicate DecisionsParse(o: Oracles) {
    forall q, d, p, c :: o.decide(q, d, p, c).value.Some?
  }

  /**
    The branch step after a scrape of entry `n` that found data: the key
    findings go to the manager context, the decision is asked, and on `true`
    the new children go to the back of the frontier one level down.
   */
  method Decide(s: Search, topic: string, maxDepth: nat, o: Oracles, n: nat) returns (t: Search, aborted: bool)
    requires Valid(s, topic, maxDepth) && n < |s.arena| && |s.scraped| > 0
    requires s.arena[n].data != [] && s.arena[n].depth < maxDepth
    requires forall k :: 0 <= k < |s.frontier| ==> s.frontier[k].0 != n && s.arena[n].depth <= s.frontier[k].1 <= s.arena[n].depth + 1
    requires forall k :: 0 <= k < |s.scraped| ==> s.scraped[k].1 <= s.arena[n].depth
    ensures Valid(t, topic, maxDepth) && t.scraped == s.scraped
    ensures |s.frontier| <= |t.frontier| && t.frontier[..|s.frontier|] == s.frontier
    ensures forall k :: |s.frontier| <= k < |t.frontier| ==> t.frontier[k].1 == s.arena[n].depth + 1
    ensures t.ctxResearcher == s.ctxResearcher && t.ctxManager == s.ctxManager + [Findings(s, topic, o, n)]
    ensures aborted <==> Verdict(s, topic, o, n).None?
    ensures Verdict(s, topic, o, n) != Some(true) ==> t.arena == s.arena && t.frontier == s.frontier
    ensures Verdict(s, topic, o, n) == Some(true) ==>
              var g := Analysis(s, topic, o, n);
              t.arena == g.arena && t.frontier == s.frontier + Enqueue(g.returned, s.arena[n].depth + 1)
    ensures t.explored == s.explored && t.progressLog == s.progressLog
    ensures Last(t.tokenLog) == Last(s.tokenLog) + o.summarize(topic, s.arena[n].data).tokens + Asked(s, topic, o, n).tokens
                                + (if Verdict(s, topic, o, n) == Some(true) then Analysis(s, topic, o, n).tokens else 0)
  {
    var summary := o.summarize(topic, s.arena[n].data);
    var tokenLog := Track(s.tokenLog, summary.tokens);
    var ctxManager := s.ctxManager + [summary.value];
    var decision := o.decide(s.arena[n].query, s.arena[n].depth, ArenaPath(s.arena, n), ctxManager);
    tokenLog := Track(tokenLog, decision.tokens);
    aborted := decision.value.None?;
    var grown := None;
    if decision.value == Some(true) {
      grown := Some(AnalyzeAndBranch(s.arena, n, o.analyze(topic, ctxManager)));
    }
    DecidedValid(s, topic, maxDepth, n, tokenLog, ctxManager, grown);
    t := Decided(s, n, tokenLog, ctxManager, grown);
    DecidedOutcome(s, topic, o, n, tokenLog, grown);
  }

  /** What `Decide` leaves in the arena and the frontier, by the branch decision. */
  lemma DecidedOutcome(s: Search, topic: string, o: Oracles, n: nat, tokenLog: seq<nat>, grown: Option<Branching>)
    requires ArenaOk(s.arena) && n < |s.arena| && TokensOk(tokenLog)
    requires grown == (if Verdict(s, topic, o, n) == Some(true) then Some(Analysis(s, topic, o, n)) else None)
    ensures var t := Decided(s, n, tokenLog, s.ctxManager + [Findings(s, topic, o, n)], grown);
            && (Verdict(s, topic, o, n) != Some(true) ==> t.arena == s.arena && t.frontier == s.frontier)
            && (Verdict(s, topic, o, n) == Some(true) ==>
                  var g := Analysis(s, topic, o, n);
                  t.arena == g.arena && t.frontier == s.frontier + Enqueue(g.returned, s.arena[n].depth + 1))
            && t.explored == s.explored && t.progressLog == s.progressLog
            && Last(t.tokenLog) == Last(tokenLog) + (if Verdict(s, topic, o, n) == Some(true) then Analysis(s, topic, o, n).tokens else 0)
  {
    var ctxManager := s.ctxManager + [Findings(s, topic, o, n)];
    if Verdict(s, topic, o, n) == Some(true) {
      var g := Analysis(s, topic, o, n);
      assert Decided(s, n, tokenLog, ctxManager, grown) ==
             Search(g.arena, s.frontier + Enqueue(g.returned, s.arena[n].depth + 1), s.explored, s.scraped,
                    s.progressLog, Track(tokenLog, g.tokens), s.ctxResearcher, ctxManager);
    } else {
      assert Decided(s, n, tokenLog, ctxManager, grown) ==
             Search(s.arena, s.frontier, s.explored, s.scraped, s.progressLog, tokenLog, s.ctxResearcher, ctxManager);
    }
  }

  /**
    One iteration of the `conduct_research` loop on the front entry. `aborted`
    is set when the branch decision did not parse.
   */
  method Step(s: Search, topic: string, maxDepth: nat, o: Oracles) returns (t: Search, aborted: bool)
    requires Valid(s, topic, maxDepth) && s.frontier != []
    ensures Valid(t, topic, maxDepth)
    ensures !aborted ==> Shrinks(s.frontier, t.frontier, maxDepth)
    ensures aborted ==> |t.scraped| > 0
    ensures |s.scraped| <= |t.scraped|
    ensures |s.scraped| == 0 && maxDepth > 0 ==> |t.scraped| == 1
    ensures ContextsGrow(s, t)
    ensures DecisionsParse(o) ==> !aborted
  {
    var n := s.frontier[0].0;
    var d := s.frontier[0].1;
    aborted := false;
    if |s.scraped| == 0 {
      assert s.explored == {};
    }
    if s.arena[n].query in s.explored || d >= maxDepth {
      SkipOk(s.arena, s.frontier, s.explored, s.scraped, topic, maxDepth);
      t := s.(frontier := s.frontier[1..]);
      return;
    }
    t, aborted := Expand(s, topic, maxDepth, o);
  }

  /**
    The loop body for a front entry that is scraped: its pages are recorded,
    and when they hold data the branch decision follows.
   */
  method Expand(s: Search, topic: string, maxDepth: nat, o: Oracles) returns (t: Search, aborted: bool)
    requires Valid(s, topic, maxDepth) && s.frontier != []
    requires s.arena[s.frontier[0].0].query !in s.explored && s.frontier[0].1 < maxDepth
    ensures Valid(t, topic, maxDepth)
    ensures !aborted ==> Shrinks(s.frontier, t.frontier, maxDepth)
    ensures |t.scraped| == |s.scraped| + 1
    ensures ContextsGrow(s, t)
    ensures DecisionsParse(o) ==> !aborted
  {
    var n := s.frontier[0].0;
    var d := s.frontier[0].1;
    aborted := false;
    t := Visit(s, topic, maxDepth, o);
    if t.arena[n].data != [] {
      AfterVisit(s, t, topic, maxDepth);
      t, aborted := Consider(s, t, topic, maxDepth, o);
    }
  }

  /** The branch step of `Expand` on the entry `s` popped and `t` scraped, which found data. */
  method Consider(s: Search, t: Search, topic: string, maxDepth: nat, o: Oracles) returns (u: Search, aborted: bool)
    requires Valid(s, topic, maxDepth) && s.frontier != [] && s.frontier[0].1 < maxDepth
    requires Valid(t, topic, maxDepth) && t.frontier == s.frontier[1..] && |t.scraped| == |s.scraped| + 1
    requires |t.arena| == |s.arena| && t.arena[s.frontier[0].0].depth == s.frontier[0].1
    requires t.arena[s.frontier[0].0].data != [] && ContextsGrow(s, t)
    requires forall k :: 0 <= k < |s.frontier| ==> s.frontier[0].1 <= s.frontier[k].1 <= s.frontier[0].1 + 1
    requires forall k :: 0 <= k < |t.frontier| ==>
               t.frontier[k].0 != s.frontier[0].0 && s.frontier[0].1 <= t.frontier[k].1 <= s.frontier[0].1 + 1
    requires forall k :: 0 <= k < |t.scraped| ==> t.scraped[k].1 <= s.frontier[0].1
    ensures Valid(u, topic, maxDepth) && |u.scraped| == |s.scraped| + 1 && ContextsGrow(s, u)
    ensures !aborted ==> Shrinks(s.frontier, u.frontier, maxDepth)
    ensures aborted <==> Verdict(t, topic, o, s.frontier[0].0).None?
    ensures DecisionsParse(o) ==> !aborted
  {
    u, aborted := Decide(t, topic, maxDepth, o, s.frontier[0].0);
    Expanded(s, t, u, maxDepth);
  }

  /** The visit and branch steps together shrink the frontier and keep both contexts growing. */
  lemma Expanded(s: Search, t: Search, u: Search, maxDepth: nat)
    requires s.frontier != [] && s.frontier[0].1 <= maxDepth
    requires forall k :: 0 <= k < |s.frontier| ==> s.frontier[0].1 <= s.frontier[k].1 <= s.frontier[0].1 + 1
    requires t.frontier == s.frontier[1..] && |t.frontier| <= |u.frontier| && u.frontier[..|t.frontier|] == t.frontier
    requires forall k :: |t.frontier| <= k < |u.frontier| ==> u.frontier[k].1 == s.frontier[0].1 + 1
    requires ContextsGrow(s, t) && u.ctxResearcher == t.ctxResearcher && Extends(t.ctxManager, u.ctxManager)
    ensures Shrinks(s.frontier, u.frontier, maxDepth) && ContextsGrow(s, u)
  {
    QueuedShrinks(s.frontier, u.frontier, maxDepth);
    ExtendsTrans(s.ctxManager, t.ctxManager, u.ctxManager);
  }

  /** After the front entry is scraped, the rest of the frontier and the scrape log sit at its level or the next. */
  lemma AfterVisit(s: Search, t: Search, topic: string, maxDepth: nat)
    requires Valid(s, topic, maxDepth) && s.frontier != []
    requires t.frontier == s.frontier[1..]
    requires t.scraped == s.scraped + [(s.arena[s.frontier[0].0].query, s.frontier[0].1)]
    ensures forall k :: 0 <= k < |s.frontier| ==> s.frontier[0].1 <= s.frontier[k].1 <= s.frontier[0].1 + 1
    ensures forall k :: 0 <= k < |t.frontier| ==>
              t.frontier[k].0 != s.frontier[0].0 && s.frontier[0].1 <= t.frontier[k].1 <= s.frontier[0].1 + 1
    ensures forall k :: 0 <= k < |t.scraped| ==> t.scraped[k].1 <= s.frontier[0].1
  {
    var d := s.frontier[0].1;
    forall k | 0 <= k < |t.frontier| ensures t.frontier[k].0 != s.frontier[0].0 && d <= t.frontier[k].1 <= d + 1 {
      assert t.frontier[k] == s.frontier[k + 1];
    }
    forall k | 0 <= k < |t.scraped| ensures t.scraped[k].1 <= d {
      if k < |s.scraped| { assert t.scraped[k] == s.scraped[k]; }
    }
  }

  /** Popping the front entry and queueing entries one level below it shrinks the frontier's measure. */
  lemma QueuedShrinks(f: seq<(nat, int)>, g: seq<(nat, int)>, maxDepth: nat)
    requires f != [] && f[0].1 <= maxDepth
    requires forall k :: 0 <= k < |f| ==> f[0].1 <= f[k].1 <= f[0].1 + 1
    requires |f| - 1 <= |g| && g[..|f| - 1] == f[1..]
    requires forall k :: |f| - 1 <= k < |g| ==> g[k].1 == f[0].1 + 1
    ensures Shrinks(f, g, maxDepth)
  {
    var added := g[|f| - 1..];
    assert g == f[1..] + added;
    PopShrinks(f, added, maxDepth);
  }

  /**
    The exploration loop of `conduct_research`: breadth-first from a root
    holding the topic. Each frontier entry is taken from the front; it is
    skipped when its query was already explored or its depth reached
    `maxDepth`; otherwise its pages are scraped, and only a node with data
    below the bound asks whether to branch, whose children go to the back of
    the frontier. `aborted` is set when a branch decision did not parse.
   */
  method Explore(topic: string, maxDepth: nat, researcher: seq<seq<Page>>, manager: seq<string>, o: Oracles)
    returns (s: Search, aborted: bool)
    ensures Valid(s, topic, maxDepth)
    ensures maxDepth > 0 ==> |s.scraped| > 0
    ensures !aborted ==> s.frontier == []
    ensures Extends(researcher, s.ctxResearcher) && Extends(manager, s.ctxManager)
    ensures DecisionsParse(o) ==> !aborted && s.frontier == []
  {
    var start := ProgressUpdate(0, 5, "", false).0;
    StartOk(topic, maxDepth);
    s := Search([Entry(topic, 0, -1, [], [])], [(0, 0)], {}, [], [start], [0], researcher, manager);
    aborted := false;
    while s.frontier != []
      invariant Valid(s, topic, maxDepth)
      invariant maxDepth > 0 && |s.scraped| == 0 ==> s.frontier != []
      invariant Extends(researcher, s.ctxResearcher) && Extends(manager, s.ctxManager)
      invariant DecisionsParse(o) ==> !aborted
      decreases LevelsLeft(s.frontier, maxDepth), FrontCount(s.frontier)
    {
      var s0 := s;
      s, aborted := Step(s, topic, maxDepth, o);
      ExtendsTrans(researcher, s0.ctxResearcher, s.ctxResearcher);
      ExtendsTrans(manager, s0.ctxManager, s.ctxManager);
      if aborted {
        return;
      }
    }
  }

  /**
    The end of `conduct_research`: progress goes to 100 and the final report
    is written from the tree and the manager context, its tokens counted.
   */
  method Finish(s: Search, topic: string, maxDepth: nat, o: Oracles) returns (t: Search, report: Report)
    requires Valid(s, topic, maxDepth)
    ensures Valid(t, topic, maxDepth) && t.scraped == s.scraped
    ensures t.ctxResearcher == s.ctxResearcher && t.ctxManager == s.ctxManager
    ensures Last(t.progressLog) == 100
    ensures report.topic == topic && report.metadata.totalTokens == Last(t.tokenLog)
    ensures t.arena == s.arena && Last(t.tokenLog) == Last(s.tokenLog) + o.report(topic, Join("\n", s.ctxManager)).tokens
    ensures report == FinalReport(ToTree(s.arena, 0), Last(s.tokenLog), o.report(topic, Join("\n", s.ctxManager)))
  {
    var progressLog := Advance(Advance(s.progressLog, 30), 100);
    var tokenLog := s.tokenLog;
    var root := ToTree(s.arena, 0);
    var reply := o.report(root.query, Join("\n", s.ctxManager));
    report := FinalReport(root, Last(tokenLog), reply);
    t := Search(s.arena, s.frontier, s.explored, s.scraped, progressLog, Track(tokenLog, reply.tokens),
                s.ctxResearcher, s.ctxManager);
  }

  /**
    `conduct_research`: the exploration loop, then the final report. `report`
    is None when a branch decision did not parse (the source re-raises).
    `researcher` and `manager` are the instance's contexts before the call:
    they are never reset, so a later research on the same instance sees every
    earlier finding in its prompts.
   */
  method ConductResearch(topic: string, maxDepth: nat, researcher: seq<seq<Page>>, manager: seq<string>, o: Oracles)
    returns (s: Search, report: Option<Report>)
    ensures Valid(s, topic, maxDepth)
    ensures Extends(researcher, s.ctxResearcher) && Extends(manager, s.ctxManager)
    ensures maxDepth > 0 ==> |s.scraped| > 0
    ensures report.Some? ==> Last(s.progressLog) == 100
    ensures DecisionsParse(o) ==> report.Some?
    ensures report.Some? ==> report.value.topic == topic && report.value.metadata.totalTokens == Last(s.tokenLog)
    ensures report.Some? ==> && report.value.tree == ShapeOf(ToTree(s.arena, 0))
                             && report.value.media == Collate(ConcatData(Preorder(ToTree(s.arena, 0))))
                             && report.value.metadata == TreeMetadata(ToTree(s.arena, 0), Last(s.tokenLog))
                             && report.value.content == o.report(topic, Join("\n", s.ctxManager)).value
  {
    var aborted;
    s, aborted := Explore(topic, maxDepth, researcher, manager, o);
    if aborted {
      report := None;
    } else {
      var final;
      s, final := Finish(s, topic, maxDepth, o);
      report := Some(final);
    }
  }

  /**
    What the loop invariant promises about a finished (or aborted) run: the
    root holds the topic and is scraped first; no scrape is at or below the
    depth bound; no query is scraped twice; scrapes come in breadth-first
    order; only nodes with data above the bound have children; progress stays
    in (0, 100] and never falls; the token count starts at 0 and never falls.
   */
  lemma ValidMeans(s: Search, topic: string, maxDepth: nat)
    requires Valid(s, topic, maxDepth)
    ensures ArenaOk(s.arena) && s.arena[0].query == topic
    ensures |s.scraped| > 0 ==> s.scraped[0] == (topic, 0)
    ensures forall k :: 0 <= k < |s.scraped| ==> 0 <= s.scraped[k].1 < maxDepth
    ensures forall k, l :: 0 <= k < l < |s.scraped| ==> s.scraped[k].0 != s.scraped[l].0
    ensures forall k, l :: 0 <= k < l < |s.scraped| ==> s.scraped[k].1 <= s.scraped[l].1
    ensures forall i :: 0 <= i < |s.arena| && s.arena[i].children != [] ==> s.arena[i].data != [] && s.arena[i].depth < maxDepth
    ensures forall i :: 0 <= i < |s.progressLog| ==> 0 < s.progressLog[i] <= 100
    ensures forall i, j :: 0 <= i < j < |s.progressLog| ==> s.progressLog[i] <= s.progressLog[j]
    ensures |s.tokenLog| > 0 && s.tokenLog[0] == 0
    ensures forall i, j :: 0 <= i < j < |s.tokenLog| ==> s.tokenLog[i] <= s.tokenLog[j]
  {
  }
}

=== FILE: layout.dfy ===
/**
  The chat layout's choice of which research tree the graph tab shows: the
  tree of the most recent finished research, else the tree of the most recent
  progress message that carries one, else none.
 */
module Layout {
  import opened Wrappers
  import opened ResearchTree
  import opened Chat
  import opened ChatContext

  /** A finished assistant message that carries a research tree. */
  predicate IsFinishedResearch(m: Message) {
    m.role == Assistant && !m.isProgress && m.tree.Some?
  }

  /** A progress assistant message that carries a research tree. */
  predicate IsResearchInProgress(m: Message) {
    m.role == Assistant && m.isProgress && m.tree.Some?
  }

  /** The tree the graph view shows for these messages. */
  function LatestResearchTree(ms: seq<Message>): (r: Option<Snapshot>)
    ensures r.None? <==> forall i :: 0 <= i < |ms| ==> !(ms[i].role == Assistant && ms[i].tree.Some?)
    ensures r.Some? ==> exists i :: 0 <= i < |ms| && ms[i].role == Assistant && ms[i].tree == r
    ensures (exists i :: 0 <= i < |ms| && IsFinishedResearch(ms[i])) ==>
              exists i :: 0 <= i < |ms| && IsFinishedResearch(ms[i]) && ms[i].tree == r &&
                          forall j :: i < j < |ms| ==> !IsFinishedResearch(ms[j])
    ensures (forall i :: 0 <= i < |ms| ==> !IsFinishedResearch(ms[i])) && r.Some? ==>
              exists i :: 0 <= i < |ms| && IsResearchInProgress(ms[i]) && ms[i].tree == r &&
                          forall j :: i < j < |ms| ==> !IsResearchInProgress(ms[j])
  {
    var k := FindLastIndex(ms, IsFinishedResearch);
    if k >= 0 then ms[k].tree
    else
      var p := FindLastIndex(ms, IsResearchInProgress);
      assert forall i :: 0 <= i < |ms| && ms[i].role == Assistant && ms[i].tree.Some? ==>
               IsFinishedResearch(ms[i]) || IsResearchInProgress(ms[i]);
      if p >= 0 then ms[p].tree else None
  }

  /** While no research has finished, the view follows every status update that carries a tree. */
  lemma ViewFollowsStatus(st: ChatState, u: StatusUpdate, freshId: string)
    requires forall i :: 0 <= i < |st.messages| ==> !IsFinishedResearch(st.messages[i])
    requires u.tree.Some?
    ensures LatestResearchTree(OnStatus(st, u, freshId).messages) == u.tree
  {
    var ms := OnStatus(st, u, freshId).messages;
    var k := FindLastIndex(st.messages, IsLiveProgress);
    var p := if k >= 0 then k else |st.messages|;
    assert |ms| == p + 1 || (k >= 0 && |ms| == |st.messages|);
    forall i | 0 <= i < |ms| ensures !IsFinishedResearch(ms[i]) && (p < i ==> !IsResearchInProgress(ms[i])) {
      if i < |st.messages| && i != k {
        assert ms[i] == st.messages[i];
        if p < i { assert !IsLiveProgress(st.messages[i]); }
      }
    }
    assert IsResearchInProgress(ms[p]) && ms[p].tree == u.tree;
    assert FindLastIndex(ms, IsFinishedResearch) == -1;
    assert FindLastIndex(ms, IsResearchInProgress) == p;
  }

  /** Once a research with a tree completes, the view shows that research's tree. */
  lemma ViewShowsCompletedResearch(st: ChatState, res: ResearchResults, freshId: string)
    requires res.tree.Some?
    ensures LatestResearchTree(OnComplete(st, res, freshId).messages) == res.tree
  {
    var ms := OnComplete(st, res, freshId).messages;
    assert IsFinishedResearch(ms[|ms| - 1]);
    assert FindLastIndex(ms, IsFinishedResearch) == |ms| - 1;
  }
}

=== FILE: media.dfy ===
/**
  Media collation for the final report (shared by the backend `KNet` report and
  the LangGraph `gen_report_node`): images and videos of every collected page
  are flattened and de-duplicated by value; links are renamed `href` -> `url`
  and de-duplicated by structural equality. The source builds a Python `set`,
  whose iteration order is unspecified; this model keeps first occurrences,
  and the contracts promise only what any order gives: the same elements, each once.
 */
module Media {
  import opened ResearchTree

  /** A report link `{"url": ..., "text": ...}`. */
  datatype Link = Link(url: string, text: string)

  datatype MediaBundle = MediaBundle(images: seq<string>, videos: seq<string>, links: seq<Link>)

  predicate Distinct<T(==)>(s: seq<T>) {
    forall i, j :: 0 <= i < j < |s| ==> s[i] != s[j]
  }

  /** Keeps the first occurrence of every value. */
  function Dedup<T(==)>(s: seq<T>): (r: seq<T>)
    ensures Distinct(r)
    ensures forall i :: 0 <= i < |s| ==> s[i] in r
    ensures forall i :: 0 <= i < |r| ==> r[i] in s
    ensures |r| <= |s|
  {
    if s == [] then []
    else
      var prev := Dedup(s[..|s| - 1]);
      var last := s[|s| - 1];
      assert forall i :: 0 <= i < |s| - 1 ==> s[i] == s[..|s| - 1][i];
      if last in prev then prev else prev + [last]
  }

  /** De-duplication keeps exactly the values of its input. */
  lemma DedupSameElements<T>(s: seq<T>, x: T)
    ensures x in Dedup(s) <==> x in s
  {
    if x in Dedup(s) {
      var i :| 0 <= i < |Dedup(s)| && Dedup(s)[i] == x;
    }
    if x in s {
      var i :| 0 <= i < |s| && s[i] == x;
    }
  }

  /** De-duplicating an already distinct sequence changes nothing. */
  lemma {:induction false} DedupOfDistinct<T>(s: seq<T>)
    requires Distinct(s)
    ensures Dedup(s) == s
  {
    if s != [] {
      var init := s[..|s| - 1];
      assert Distinct(init) by {
        forall i, j | 0 <= i < j < |init| ensures init[i] != init[j] { assert init[i] == s[i] && init[j] == s[j]; }
      }
      DedupOfDistinct(init);
      assert s[|s| - 1] !in init by {
        forall i | 0 <= i < |init| ensures init[i] != s[|s| - 1] { assert init[i] == s[i]; }
      }
      assert init + [s[|s| - 1]] == s;
    }
  }

  /** De-duplication is idempotent. */
  lemma DedupIdempotent<T>(s: seq<T>)
    ensures Dedup(Dedup(s)) == Dedup(s)
  {
    DedupOfDistinct(Dedup(s));
  }

  function AllImages(pages: seq<Page>): seq<string> {
    if pages == [] then [] else pages[0].images + AllImages(pages[1..])
  }

  function AllVideos(pages: seq<Page>): seq<string> {
    if pages == [] then [] else pages[0].videos + AllVideos(pages[1..])
  }

  /** Every page's links with `href` renamed to `url`, in order. */
  function AllLinks(pages: seq<Page>): seq<Link> {
    if pages == [] then []
    else
      var ls := pages[0].links;
      seq(|ls|, k requires 0 <= k < |ls| => Link(ls[k].href, ls[k].text)) + AllLinks(pages[1..])
  }

  lemma {:induction false} AllImagesMembers(pages: seq<Page>, x: string)
    ensures x in AllImages(pages) <==> exists k :: 0 <= k < |pages| && x in pages[k].images
  {
    if pages != [] {
      AllImagesMembers(pages[1..], x);
      if exists k :: 0 <= k < |pages| && x in pages[k].images {
        var k :| 0 <= k < |pages| && x in pages[k].images;
        if k > 0 { assert pages[1..][k - 1] == pages[k]; }
      }
      if exists k :: 0 <= k < |pages[1..]| && x in pages[1..][k].images {
        var k :| 0 <= k < |pages[1..]| && x in pages[1..][k].images;
        assert pages[k + 1] == pages[1..][k];
      }
    }
  }

  lemma {:induction false} AllVideosMembers(pages: seq<Page>, x: string)
    ensures x in AllVideos(pages) <==> exists k :: 0 <= k < |pages| && x in pages[k].videos
  {
    if pages != [] {
      AllVideosMembers(pages[1..], x);
      if exists k :: 0 <= k < |pages| && x in pages[k].videos {
        var k :| 0 <= k < |pages| && x in pages[k].videos;
        if k > 0 { assert pages[1..][k - 1] == pages[k]; }
      }
      if exists k :: 0 <= k < |pages[1..]| && x in pages[1..][k].videos {
        var k :| 0 <= k < |pages[1..]| && x in pages[1..][k].videos;
        assert pages[k + 1] == pages[1..][k];
      }
    }
  }

  /** A link is collected exactly when some page has a raw link with that href and text. */
  lemma {:induction false} AllLinksMembers(pages: seq<Page>, l: Link)
    ensures l in AllLinks(pages) <==> exists k :: 0 <= k < |pages| && RawLink(l.url, l.text) in pages[k].links
  {
    if pages != [] {
      AllLinksMembers(pages[1..], l);
      var ls := pages[0].links;
      var head := seq(|ls|, k requires 0 <= k < |ls| => Link(ls[k].href, ls[k].text));
      assert AllLinks(pages) == head + AllLinks(pages[1..]);
      assert l in head <==> RawLink(l.url, l.text) in ls by {
        if l in head {
          var k :| 0 <= k < |head| && head[k] == l;
          assert ls[k] == RawLink(l.url, l.text);
        }
        if RawLink(l.url, l.text) in ls {
          var k :| 0 <= k < |ls| && ls[k] == RawLink(l.url, l.text);
          assert head[k] == l;
        }
      }
      if exists k :: 0 <= k < |pages| && RawLink(l.url, l.text) in pages[k].links {
        var k :| 0 <= k < |pages| && RawLink(l.url, l.text) in pages[k].links;
        if k > 0 { assert pages[1..][k - 1] == pages[k]; }
      }
      if exists k :: 0 <= k < |pages[1..]| && RawLink(l.url, l.text) in pages[1..][k].links {
        var k :| 0 <= k < |pages[1..]| && RawLink(l.url, l.text) in pages[1..][k].links;
        assert pages[k + 1] == pages[1..][k];
      }
    }
  }

  /**
    The media part of the report: each image, video and link of any page
    appears exactly once, and nothing else does.
   */
  function Collate(pages: seq<Page>): (r: MediaBundle)
    ensures Distinct(r.images) && Distinct(r.videos) && Distinct(r.links)
    ensures forall x :: x in r.images <==> exists k :: 0 <= k < |pages| && x in pages[k].images
    ensures forall x :: x in r.videos <==> exists k :: 0 <= k < |pages| && x in pages[k].videos
    ensures forall l :: l in r.links <==> exists k :: 0 <= k < |pages| && RawLink(l.url, l.text) in pages[k].links
  {
    forall x ensures x in Dedup(AllImages(pages)) <==> exists k :: 0 <= k < |pages| && x in pages[k].images {
      AllImagesMembers(pages, x);
      DedupSameElements(AllImages(pages), x);
    }
    forall x ensures x in Dedup(AllVideos(pages)) <==> exists k :: 0 <= k < |pages| && x in pages[k].videos {
      AllVideosMembers(pages, x);
      DedupSameElements(AllVideos(pages), x);
    }
    forall l ensures l in Dedup(AllLinks(pages)) <==> exists k :: 0 <= k < |pages| && RawLink(l.url, l.text) in pages[k].links {
      AllLinksMembers(pages, l);
      DedupSameElements(AllLinks(pages), l);
    }
    MediaBundle(Dedup(AllImages(pages)), Dedup(AllVideos(pages)), Dedup(AllLinks(pages)))
  }

  /** Collating is idempotent on its own output: de-duplicating the bundle again changes nothing. */
  lemma CollateIsDeduplicated(pages: seq<Page>)
    ensures var m := Collate(pages); Dedup(m.images) == m.images && Dedup(m.videos) == m.videos && Dedup(m.links) == m.links
  {
    var m := Collate(pages);
    DedupOfDistinct(m.images);
    DedupOfDistinct(m.videos);
    DedupOfDistinct(m.links);
  }
}

=== FILE: research_tree.dfy ===
/**
  The research query tree (`ResearchNode`, in both the LangGraph and the older
  backend variant). A node owns its query, depth, ordered children and the page
  records retrieved for it. Parent back-references are positional: a node is
  addressed by the path of child indices that leads to it from the root, and
  its ancestors are the nodes on that path. Ids are abstract naturals (the
  source uses random UUID strings).
 */
module ResearchTree {
  import opened Wrappers
  import opened Text

  type NodeId = nat

  /** One outbound link of a page as extracted (`{"href": ..., "text": ...}`). */
  datatype RawLink = RawLink(href: string, text: string)

  /** A retrieved page record (`{"url", "text", "images", "videos", "links"}`). */
  datatype Page = Page(url: string, text: string, images: seq<string>, videos: seq<string>, links: seq<RawLink>)

  datatype Node = Node(id: NodeId, query: string, depth: int, children: seq<Node>, data: seq<Page>)

  /** A fresh node: no children, no data (`ResearchNode(query, depth=depth)`). */
  function NewNode(id: NodeId, query: string, depth: int): Node {
    Node(id, query, depth, [], [])
  }

  /** The session's master node: the constructor's defaults `query="_"`, `depth=0`. */
  function MasterNode(id: NodeId): Node {
    NewNode(id, "_", 0)
  }

  // ---------------------------------------------------------------------------
  // Pre-order view of a tree: the independent reference for the operations below.

  function Preorder(t: Node): (r: seq<Node>)
    ensures |r| >= 1 && r[0] == t
  {
    [t] + PreorderForest(t.children)
  }

  function PreorderForest(cs: seq<Node>): seq<Node> {
    if cs == [] then [] else Preorder(cs[0]) + PreorderForest(cs[1..])
  }

  /** Every id occurring in the tree. */
  function Ids(t: Node): set<NodeId> {
    set k | 0 <= k < |Preorder(t)| :: Preorder(t)[k].id
  }

  /** The first node with the given id in a sequence, scanning left to right. */
  function FirstWithId(ns: seq<Node>, id: NodeId): (r: Option<Node>)
    ensures r.None? <==> forall k :: 0 <= k < |ns| ==> ns[k].id != id
    ensures r.Some? ==> exists k :: 0 <= k < |ns| && ns[k] == r.value && r.value.id == id
                                    && forall j :: 0 <= j < k ==> ns[j].id != id
  {
    if ns == [] then None
    else if ns[0].id == id then Some(ns[0])
    else
      var r := FirstWithId(ns[1..], id);
      assert r.Some? ==> exists k :: 1 <= k < |ns| && ns[k] == r.value && r.value.id == id
                                     && forall j :: 0 <= j < k ==> ns[j].id != id by {
        if r.Some? {
          var k :| 0 <= k < |ns[1..]| && ns[1..][k] == r.value && r.value.id == id
                   && forall j :: 0 <= j < k ==> ns[1..][j].id != id;
          assert ns[k + 1] == r.value;
          forall j | 0 <= j < k + 1 ensures ns[j].id != id {
            if j > 0 { assert ns[j] == ns[1..][j - 1]; }
          }
        }
      }
      r
  }

  lemma {:induction false} FirstWithIdAppend(a: seq<Node>, b: seq<Node>, id: NodeId)
    ensures FirstWithId(a + b, id) == if FirstWithId(a, id).Some? then FirstWithId(a, id) else FirstWithId(b, id)
  {
    if a != [] {
      assert (a + b)[1..] == a[1..] + b;
      FirstWithIdAppend(a[1..], b, id);
    } else {
      assert a + b == b;
    }
  }

  // ---------------------------------------------------------------------------
  // find_node

  /** `find_node`: the node itself if its id matches, else the first hit among the children in order. */
  function FindNode(t: Node, id: NodeId): (r: Option<Node>)
    ensures r.Some? ==> r.value.id == id
  {
    if t.id == id then Some(t) else FindForest(t.children, id)
  }

  function FindForest(cs: seq<Node>, id: NodeId): (r: Option<Node>)
    ensures r.Some? ==> r.value.id == id
  {
    if cs == [] then None
    else
      var hit := FindNode(cs[0], id);
      if hit.Some? then hit else FindForest(cs[1..], id)
  }

  /** `find_node` returns the first node in pre-order that carries the id, and None when none does. */
  lemma {:induction false} FindNodeIsFirstInPreorder(t: Node, id: NodeId)
    ensures FindNode(t, id) == FirstWithId(Preorder(t), id)
    ensures FindNode(t, id).None? <==> id !in Ids(t)
  {
    FindForestIsFirstInPreorder(t.children, id);
    FirstWithIdAppend([t], PreorderForest(t.children), id);
    var r := FirstWithId(Preorder(t), id);
    if r.None? {
      assert forall k :: 0 <= k < |Preorder(t)| ==> Preorder(t)[k].id != id;
    } else {
      var k :| 0 <= k < |Preorder(t)| && Preorder(t)[k] == r.value && r.value.id == id;
      assert id in Ids(t);
    }
  }

  lemma {:induction false} FindForestIsFirstInPreorder(cs: seq<Node>, id: NodeId)
    ensures FindForest(cs, id) == FirstWithId(PreorderForest(cs), id)
  {
    if cs != [] {
      FindNodeIsFirstInPreorder(cs[0], id);
      FindForestIsFirstInPreorder(cs[1..], id);
      FirstWithIdAppend(Preorder(cs[0]), PreorderForest(cs[1..]), id);
    }
  }

  // ---------------------------------------------------------------------------
  // add_child

  /** `add_child(query)`: one new leaf appended at the end, one level below its parent. */
  function AddChild(t: Node, query: string, childId: NodeId): (r: Node)
    ensures r.id == t.id && r.query == t.query && r.depth == t.depth && r.data == t.data
    ensures |r.children| == |t.children| + 1 && r.children[..|t.children|] == t.children
    ensures r.children[|t.children|] == NewNode(childId, query, t.depth + 1)
  {
    t.(children := t.children + [NewNode(childId, query, t.depth + 1)])
  }

  /**
    `add_child(query, node)` with a pre-built node: the node is appended at the
    end and its depth overwritten to one below the parent; its own subtree is
    kept as it is.
   */
  function AdoptChild(t: Node, node: Node): (r: Node)
    ensures r.id == t.id && r.query == t.query && r.depth == t.depth && r.data == t.data
    ensures |r.children| == |t.children| + 1 && r.children[..|t.children|] == t.children
    ensures r.children[|t.children|].depth == t.depth + 1
    ensures (var c := r.children[|t.children|];
             c.id == node.id && c.query == node.query && c.children == node.children && c.data == node.data)
  {
    t.(children := t.children + [node.(depth := t.depth + 1)])
  }

  /** Adopting a fresh, empty node is the same as adding a child with its query and id. */
  lemma AdoptFreshIsAddChild(t: Node, id: NodeId, query: string, depth: int)
    ensures AdoptChild(t, NewNode(id, query, depth)) == AddChild(t, query, id)
  {
  }

  // ---------------------------------------------------------------------------
  // Well-formedness: every child is one level below its parent.

  predicate WellFormed(t: Node) {
    forall i :: 0 <= i < |t.children| ==> t.children[i].depth == t.depth + 1 && WellFormed(t.children[i])
  }

  /** Adding a fresh child keeps every parent/child depth step equal to one. */
  lemma AddChildKeepsWellFormed(t: Node, query: string, childId: NodeId)
    requires WellFormed(t)
    ensures WellFormed(AddChild(t, query, childId))
  {
    var r := AddChild(t, query, childId);
    forall i | 0 <= i < |r.children| ensures r.children[i].depth == r.depth + 1 && WellFormed(r.children[i]) {
      if i < |t.children| { assert r.children[i] == t.children[i]; }
    }
  }

  // ---------------------------------------------------------------------------
  // Paths and get_path_to_root

  predicate ValidPath(t: Node, p: seq<nat>)
    decreases |p|
  {
    p == [] || (p[0] < |t.children| && ValidPath(t.children[p[0]], p[1..]))
  }

  function NodeAt(t: Node, p: seq<nat>): Node
    requires ValidPath(t, p)
    decreases |p|
  {
    if p == [] then t else NodeAt(t.children[p[0]], p[1..])
  }

  lemma {:induction false} ValidPathPrefix(t: Node, p: seq<nat>, k: nat)
    requires ValidPath(t, p) && k <= |p|
    ensures ValidPath(t, p[..k])
    decreases |p|
  {
    if k > 0 {
      assert p[..k][1..] == p[1..][..k - 1];
      ValidPathPrefix(t.children[p[0]], p[1..], k - 1);
    }
  }

  lemma {:induction false} NodeAtSnoc(t: Node, p: seq<nat>, i: nat)
    requires ValidPath(t, p + [i])
    ensures ValidPath(t, p) && i < |NodeAt(t, p).children|
    ensures NodeAt(t, p + [i]) == NodeAt(t, p).children[i]
    decreases |p|
  {
    if p == [] {
      assert (p + [i])[1..] == [];
    } else {
      assert (p + [i])[1..] == p[1..] + [i];
      NodeAtSnoc(t.children[p[0]], p[1..], i);
    }
  }

  /**
    The ancestor walk of `get_path_to_root`: the node's own query first, then
    each parent's query up to the root's (the list before it is reversed).
   */
  function AncestorQueries(t: Node, p: seq<nat>): (r: seq<string>)
    requires ValidPath(t, p)
    ensures |r| == |p| + 1
    decreases |p|
  {
    ValidPathPrefix(t, p, if p == [] then 0 else |p| - 1);
    if p == [] then [t.query] else [NodeAt(t, p).query] + AncestorQueries(t, p[..|p| - 1])
  }

  function Reverse<T>(s: seq<T>): (r: seq<T>)
    ensures |r| == |s| && forall i :: 0 <= i < |s| ==> r[i] == s[|s| - 1 - i]
  {
    if s == [] then [] else Reverse(s[1..]) + [s[0]]
  }

  lemma ReverseAt<T>(s: seq<T>, i: nat)
    requires i < |s|
    ensures Reverse(s)[i] == s[|s| - 1 - i]
  {
  }

  /** `get_path_to_root`: the queries from the root down to the addressed node. */
  function PathToRoot(t: Node, p: seq<nat>): (r: seq<string>)
    requires ValidPath(t, p)
    ensures |r| == |p| + 1
    ensures r[0] == t.query && r[|p|] == NodeAt(t, p).query
  {
    var r := Reverse(AncestorQueries(t, p));
    PathToRootEntries(t, p);
    r
  }

  /** Entry `k` of the reversed walk is the query of the ancestor `k` steps below the root. */
  lemma PathToRootEntries(t: Node, p: seq<nat>)
    requires ValidPath(t, p)
    ensures forall k :: 0 <= k <= |p| ==> ValidPath(t, p[..k])
    ensures forall k :: 0 <= k <= |p| ==> Reverse(AncestorQueries(t, p))[k] == NodeAt(t, p[..k]).query
  {
    forall k | 0 <= k <= |p|
      ensures ValidPath(t, p[..k]) && Reverse(AncestorQueries(t, p))[k] == NodeAt(t, p[..k]).query
    {
      ValidPathPrefix(t, p, k);
      PathToRootEntry(t, p, k);
    }
  }

  lemma PathToRootEntry(t: Node, p: seq<nat>, k: nat)
    requires ValidPath(t, p) && k <= |p| && ValidPath(t, p[..k])
    ensures Reverse(AncestorQueries(t, p))[k] == NodeAt(t, p[..k]).query
  {
    var a := AncestorQueries(t, p);
    var j := |p| - k;
    ReverseAt(a, k);
    AncestorAt(t, p, j);
    assert |a| - 1 - k == j && |p| - j == k;
  }

  /** Entry `j` of the ancestor walk is the query of the ancestor `j` levels up. */
  lemma {:induction false} AncestorAt(t: Node, p: seq<nat>, j: nat)
    requires ValidPath(t, p) && j <= |p|
    ensures ValidPath(t, p[..|p| - j]) && AncestorQueries(t, p)[j] == NodeAt(t, p[..|p| - j]).query
    decreases |p|
  {
    ValidPathPrefix(t, p, |p| - j);
    if j == 0 {
      assert p[..|p|] == p;
    } else {
      var q := p[..|p| - 1];
      ValidPathPrefix(t, p, |p| - 1);
      AncestorAt(t, q, j - 1);
      assert q[..|q| - (j - 1)] == p[..|p| - j];
      assert AncestorQueries(t, p)[j] == AncestorQueries(t, q)[j - 1];
    }
  }

  /** In a well-formed tree the addressed node lies exactly |p| levels below the root. */
  lemma {:induction false} DepthAlongPath(t: Node, p: seq<nat>)
    requires WellFormed(t) && ValidPath(t, p)
    ensures NodeAt(t, p).depth == t.depth + |p|
    decreases |p|
  {
    if p != [] {
      DepthAlongPath(t.children[p[0]], p[1..]);
    }
  }

  /**
    The path of a node has one entry per ancestor plus the node itself: from a
    root at depth 0 its length is the node's depth plus one, it starts at the
    root's query and ends with the node's own.
   */
  lemma PathToRootLength(t: Node, p: seq<nat>)
    requires WellFormed(t) && ValidPath(t, p) && t.depth == 0
    ensures |PathToRoot(t, p)| == NodeAt(t, p).depth + 1
    ensures PathToRoot(t, p)[0] == t.query
    ensures PathToRoot(t, p)[NodeAt(t, p).depth] == NodeAt(t, p).query
  {
    DepthAlongPath(t, p);
  }

  // ---------------------------------------------------------------------------
  // max_depth

  function MaxDepth(t: Node): int {
    if t.children == [] then t.depth else MaxDepthForest(t.children)
  }

  function MaxDepthForest(cs: seq<Node>): int
    requires cs != []
  {
    if |cs| == 1 then MaxDepth(cs[0])
    else
      var a := MaxDepth(cs[0]);
      var b := MaxDepthForest(cs[1..]);
      if a >= b then a else b
  }

  /** The nodes without children, in pre-order. */
  function Leaves(t: Node): (r: seq<Node>)
    ensures |r| >= 1
  {
    if t.children == [] then [t] else LeavesForest(t.children)
  }

  function LeavesForest(cs: seq<Node>): (r: seq<Node>)
    ensures cs != [] ==> |r| >= 1
  {
    if cs == [] then [] else Leaves(cs[0]) + LeavesForest(cs[1..])
  }

  /** `max_depth` is the greatest depth among the leaves (a leaf's own depth when it has no children). */
  lemma {:induction false} MaxDepthIsGreatestLeaf(t: Node)
    ensures forall k :: 0 <= k < |Leaves(t)| ==> Leaves(t)[k].depth <= MaxDepth(t)
    ensures exists k :: 0 <= k < |Leaves(t)| && Leaves(t)[k].depth == MaxDepth(t)
  {
    if t.children != [] {
      MaxDepthForestIsGreatestLeaf(t.children);
      assert Leaves(t) == LeavesForest(t.children);
      var k :| 0 <= k < |LeavesForest(t.children)| && LeavesForest(t.children)[k].depth == MaxDepthForest(t.children);
      assert Leaves(t)[k].depth == MaxDepth(t);
    } else {
      assert Leaves(t)[0].depth == MaxDepth(t);
    }
  }

  lemma {:induction false} MaxDepthForestIsGreatestLeaf(cs: seq<Node>)
    requires cs != []
    ensures forall k :: 0 <= k < |LeavesForest(cs)| ==> LeavesForest(cs)[k].depth <= MaxDepthForest(cs)
    ensures exists k :: 0 <= k < |LeavesForest(cs)| && LeavesForest(cs)[k].depth == MaxDepthForest(cs)
  {
    MaxDepthIsGreatestLeaf(cs[0]);
    var l0 := Leaves(cs[0]);
    var all := LeavesForest(cs);
    if |cs| == 1 {
      assert LeavesForest(cs[1..]) == [];
      assert all == l0;
      var k :| 0 <= k < |l0| && l0[k].depth == MaxDepth(cs[0]);
      assert all[k] == l0[k];
    } else {
      MaxDepthForestIsGreatestLeaf(cs[1..]);
      var rest := LeavesForest(cs[1..]);
      assert all == l0 + rest;
      var m := MaxDepthForest(cs);
      forall k | 0 <= k < |all| ensures all[k].depth <= m {
        if k < |l0| { assert all[k] == l0[k]; } else { assert all[k] == rest[k - |l0|]; }
      }
      if MaxDepth(cs[0]) >= MaxDepthForest(cs[1..]) {
        var k :| 0 <= k < |l0| && l0[k].depth == MaxDepth(cs[0]);
        assert all[k] == l0[k];
      } else {
        var k :| 0 <= k < |rest| && rest[k].depth == MaxDepthForest(cs[1..]);
        assert all[|l0| + k] == rest[k];
      }
    }
  }

  /** In a well-formed tree `max_depth` is at least the node's own depth. */
  lemma {:induction false} MaxDepthAtLeastOwnDepth(t: Node)
    requires WellFormed(t)
    ensures MaxDepth(t) >= t.depth
    ensures t.children == [] ==> MaxDepth(t) == t.depth
  {
    if t.children != [] {
      MaxDepthForestAtLeast(t.children, t.depth + 1);
    }
  }

  lemma {:induction false} MaxDepthForestAtLeast(cs: seq<Node>, d: int)
    requires cs != []
    requires forall i :: 0 <= i < |cs| ==> cs[i].depth == d && WellFormed(cs[i])
    ensures MaxDepthForest(cs) >= d
  {
    MaxDepthAtLeastOwnDepth(cs[0]);
    if |cs| > 1 {
      MaxDepthForestAtLeast(cs[1..], d);
    }
  }

  // ---------------------------------------------------------------------------
  // total_children

  function TotalChildren(t: Node): nat {
    if t.children == [] then 0 else |t.children| + TotalForest(t.children)
  }

  function TotalForest(cs: seq<Node>): nat {
    if cs == [] then 0 else TotalChildren(cs[0]) + TotalForest(cs[1..])
  }

  /** `total_children` counts every node below this one: the pre-order size minus the node itself. */
  lemma {:induction false} TotalChildrenCountsDescendants(t: Node)
    ensures TotalChildren(t) == |Preorder(t)| - 1
    ensures t.children == [] ==> TotalChildren(t) == 0
  {
    TotalForestCounts(t.children);
  }

  lemma {:induction false} TotalForestCounts(cs: seq<Node>)
    ensures |PreorderForest(cs)| == |cs| + TotalForest(cs)
  {
    if cs != [] {
      TotalChildrenCountsDescendants(cs[0]);
      TotalForestCounts(cs[1..]);
    }
  }

  // ---------------------------------------------------------------------------
  // get_all_data

  function AllData(t: Node): seq<Page> {
    t.data + AllDataForest(t.children)
  }

  function AllDataForest(cs: seq<Node>): seq<Page> {
    if cs == [] then [] else AllData(cs[0]) + AllDataForest(cs[1..])
  }

  /** Concatenation of the `data` of a sequence of nodes, in order. */
  function ConcatData(ns: seq<Node>): seq<Page> {
    if ns == [] then [] else ns[0].data + ConcatData(ns[1..])
  }

  /** Total number of page records held by a sequence of nodes. */
  function DataCount(ns: seq<Node>): nat {
    if ns == [] then 0 else |ns[0].data| + DataCount(ns[1..])
  }

  lemma {:induction false} ConcatDataAppend(a: seq<Node>, b: seq<Node>)
    ensures ConcatData(a + b) == ConcatData(a) + ConcatData(b)
    ensures DataCount(a + b) == DataCount(a) + DataCount(b)
  {
    if a == [] {
      assert a + b == b;
    } else {
      assert (a + b)[1..] == a[1..] + b;
      ConcatDataAppend(a[1..], b);
    }
  }

  lemma {:induction false} ConcatDataLength(ns: seq<Node>)
    ensures |ConcatData(ns)| == DataCount(ns)
  {
    if ns != [] {
      ConcatDataLength(ns[1..]);
    }
  }

  /**
    `get_all_data` is the pre-order concatenation of every node's `data`, so its
    length is the sum of the nodes' record counts.
   */
  lemma {:induction false} AllDataIsPreorderConcat(t: Node)
    ensures AllData(t) == ConcatData(Preorder(t))
    ensures |AllData(t)| == DataCount(Preorder(t))
  {
    AllDataForestIsPreorderConcat(t.children);
    ConcatDataAppend([t], PreorderForest(t.children));
    assert ConcatData([t]) == t.data;
    ConcatDataLength(Preorder(t));
  }

  lemma {:induction false} AllDataForestIsPreorderConcat(cs: seq<Node>)
    ensures AllDataForest(cs) == ConcatData(PreorderForest(cs))
  {
    if cs != [] {
      AllDataIsPreorderConcat(cs[0]);
      AllDataForestIsPreorderConcat(cs[1..]);
      ConcatDataAppend(Preorder(cs[0]), PreorderForest(cs[1..]));
    }
  }

  /** A freshly constructed node is a leaf with no descendants, no data and its own depth as max depth. */
  lemma NewNodeIsEmptyLeaf(id: NodeId, query: string, depth: int)
    ensures NewNode(id, query, depth).children == [] && NewNode(id, query, depth).data == []
    ensures TotalChildren(NewNode(id, query, depth)) == 0
    ensures AllData(NewNode(id, query, depth)) == []
    ensures MaxDepth(NewNode(id, query, depth)) == depth
    ensures WellFormed(NewNode(id, query, depth))
  {
  }

  /** Adding a child adds exactly one descendant and leaves the collected data unchanged. */
  lemma AddChildCounts(t: Node, query: string, childId: NodeId)
    ensures TotalChildren(AddChild(t, query, childId)) == TotalChildren(t) + 1
    ensures AllData(AddChild(t, query, childId)) == AllData(t)
  {
    var r := AddChild(t, query, childId);
    var c := NewNode(childId, query, t.depth + 1);
    ForestSnoc(t.children, c);
  }

  lemma {:induction false} ForestSnoc(cs: seq<Node>, c: Node)
    ensures TotalForest(cs + [c]) == TotalForest(cs) + TotalChildren(c)
    ensures AllDataForest(cs + [c]) == AllDataForest(cs) + AllData(c)
  {
    if cs == [] {
      assert cs + [c] == [c];
      assert [c][1..] == [];
    } else {
      assert (cs + [c])[1..] == cs[1..] + [c];
      ForestSnoc(cs[1..], c);
    }
  }

  // ---------------------------------------------------------------------------
  // build_tree_structure

  /**
    An ordered dictionary with string keys and Python `dict` semantics: keys are unique
    and keep the position of their first insertion; a later assignment replaces
    the value in place.
   */
  type Dict<V> = seq<(string, V)>

  function Keys<V>(d: Dict<V>): set<string> {
    set i | 0 <= i < |d| :: d[i].0
  }

  predicate UniqueKeys<V>(d: Dict<V>) {
    forall i, j :: 0 <= i < j < |d| ==> d[i].0 != d[j].0
  }

  function Lookup<V>(d: Dict<V>, k: string): Option<V> {
    if d == [] then None else if d[0].0 == k then Some(d[0].1) else Lookup(d[1..], k)
  }

  /** `d[k] = v`: replaces the value in place when the key is present, else appends the pair. */
  function Put<V>(d: Dict<V>, k: string, v: V): (r: Dict<V>)
    ensures |r| == if k in Keys(d) then |d| else |d| + 1
  {
    if d == [] then [(k, v)]
    else if d[0].0 == k then [(k, v)] + d[1..]
    else
      KeysTail(d);
      [d[0]] + Put(d[1..], k, v)
  }

  /** After `d[k] = v` the key set gains `k`, the keys stay unique, `k` maps to `v` and every other key is untouched. */
  lemma PutSemantics<V>(d: Dict<V>, k: string, v: V)
    requires UniqueKeys(d)
    ensures UniqueKeys(Put(d, k, v)) && Keys(Put(d, k, v)) == Keys(d) + {k}
    ensures Lookup(Put(d, k, v), k) == Some(v)
    ensures forall k' :: k' != k ==> Lookup(Put(d, k, v), k') == Lookup(d, k')
  {
    PutKeys(d, k, v);
    PutLookup(d, k, v);
  }

  lemma {:induction false} PutKeys<V>(d: Dict<V>, k: string, v: V)
    requires UniqueKeys(d)
    ensures UniqueKeys(Put(d, k, v)) && Keys(Put(d, k, v)) == Keys(d) + {k}
  {
    var r := Put(d, k, v);
    if d == [] {
      KeysTail(r);
      assert r[1..] == [];
    } else if d[0].0 == k {
      KeysTail(d);
      assert r[1..] == d[1..];
      KeysTail(r);
    } else {
      KeysTail(d);
      PutKeys(d[1..], k, v);
      var rest := Put(d[1..], k, v);
      assert r[1..] == rest;
      KeysTail(r);
      assert d[0].0 !in Keys(rest);
      forall i, j | 0 <= i < j < |r| ensures r[i].0 != r[j].0 {
        if i == 0 { assert r[j] == rest[j - 1]; assert rest[j - 1].0 in Keys(rest); }
        else { assert r[i] == rest[i - 1] && r[j] == rest[j - 1]; }
      }
    }
  }

  lemma {:induction false} PutLookup<V>(d: Dict<V>, k: string, v: V)
    ensures Lookup(Put(d, k, v), k) == Some(v)
    ensures forall k' :: k' != k ==> Lookup(Put(d, k, v), k') == Lookup(d, k')
  {
    if d != [] && d[0].0 != k {
      PutLookup(d[1..], k, v);
      assert Put(d, k, v)[1..] == Put(d[1..], k, v);
    } else if d != [] {
      assert Put(d, k, v)[1..] == d[1..];
    }
  }

  /** A present key keeps its position; a new key goes to the end. */
  lemma {:induction false} PutKeepsOrder<V>(d: Dict<V>, k: string, v: V)
    ensures k in Keys(d) ==> forall i :: 0 <= i < |d| ==> Put(d, k, v)[i].0 == d[i].0
    ensures k !in Keys(d) ==> Put(d, k, v) == d + [(k, v)]
  {
    if d != [] && d[0].0 != k {
      KeysTail(d);
      PutKeepsOrder(d[1..], k, v);
      assert Put(d, k, v)[1..] == Put(d[1..], k, v);
    } else if d != [] {
      assert d[0].0 in Keys(d);
    }
  }

  lemma KeysTail<V>(d: Dict<V>)
    requires d != []
    ensures Keys(d) == {d[0].0} + Keys(d[1..])
  {
    forall x | x in Keys(d) ensures x in {d[0].0} + Keys(d[1..]) {
      var i :| 0 <= i < |d| && d[i].0 == x;
      if i > 0 { assert d[1..][i - 1].0 == x; }
    }
    forall x | x in Keys(d[1..]) ensures x in Keys(d) {
      var i :| 0 <= i < |d[1..]| && d[1..][i].0 == x;
      assert d[i + 1].0 == x;
    }
  }

  lemma {:induction false} LookupAbsent<V>(d: Dict<V>, k: string)
    requires k !in Keys(d)
    ensures Lookup(d, k) == None
  {
    if d != [] {
      KeysTail(d);
      LookupAbsent(d[1..], k);
    }
  }

  /** A record contributes a source only when both its url and its text are non-empty (truthy). */
  predicate HasSource(p: Page) {
    p.url != [] && p.text != []
  }

  /** The text of the last record in `data` that has a source with this url. */
  function LastText(data: seq<Page>, url: string): Option<string> {
    if data == [] then None
    else
      var p := data[|data| - 1];
      if HasSource(p) && p.url == url then Some(p.text) else LastText(data[..|data| - 1], url)
  }

  /** The urls of the records that have a source. */
  function SourceUrls(data: seq<Page>): set<string> {
    set i | 0 <= i < |data| && HasSource(data[i]) :: data[i].url
  }

  /**
    `{d["url"]: d["text"] for d in data if d.get("url") and d.get("text")}`:
    one key per qualifying url, in order of first appearance, mapped to the text
    of the last record with that url.
   */
  function SourcesOf(data: seq<Page>): (r: Dict<string>)
    ensures UniqueKeys(r)
    ensures Keys(r) == SourceUrls(data)
    ensures forall u :: Lookup(r, u) == LastText(data, u)
  {
    if data == [] then []
    else
      var init := data[..|data| - 1];
      var p := data[|data| - 1];
      var prev := SourcesOf(init);
      assert SourceUrls(data) == SourceUrls(init) + (if HasSource(p) then {p.url} else {}) by {
        forall x | x in SourceUrls(data) ensures x in SourceUrls(init) + (if HasSource(p) then {p.url} else {}) {
          var i :| 0 <= i < |data| && HasSource(data[i]) && data[i].url == x;
          if i < |init| { assert init[i] == data[i]; }
        }
        forall x | x in SourceUrls(init) ensures x in SourceUrls(data) {
          var i :| 0 <= i < |init| && HasSource(init[i]) && init[i].url == x;
          assert data[i] == init[i];
        }
      }
      if HasSource(p) then
        PutSemantics(prev, p.url, p.text);
        Put(prev, p.url, p.text)
      else prev
  }

  /** The light snapshot of a node: query, depth, url→text sources and child snapshots. */
  datatype Snapshot = Snapshot(query: string, depth: int, sources: Dict<string>, children: seq<Snapshot>)

  /** `build_tree_structure`. */
  function BuildSnapshot(t: Node): (r: Snapshot)
    ensures r.query == t.query && r.depth == t.depth
    ensures Keys(r.sources) == SourceUrls(t.data) && UniqueKeys(r.sources)
    ensures forall u :: Lookup(r.sources, u) == LastText(t.data, u)
    ensures |r.children| == |t.children|
    ensures forall i :: 0 <= i < |t.children| ==>
              r.children[i].query == t.children[i].query && r.children[i].depth == t.children[i].depth
  {
    Snapshot(t.query, t.depth, SourcesOf(t.data), SnapshotForest(t.children))
  }

  function SnapshotForest(cs: seq<Node>): (r: seq<Snapshot>)
    ensures |r| == |cs|
    ensures forall i :: 0 <= i < |cs| ==> r[i].query == cs[i].query && r[i].depth == cs[i].depth
  {
    if cs == [] then [] else [BuildSnapshot(cs[0])] + SnapshotForest(cs[1..])
  }

  /** Number of nodes of a snapshot, in pre-order. */
  function SnapshotSize(s: Snapshot): nat {
    1 + SnapshotForestSize(s.children)
  }

  function SnapshotForestSize(ss: seq<Snapshot>): nat {
    if ss == [] then 0 else SnapshotSize(ss[0]) + SnapshotForestSize(ss[1..])
  }

  /** The snapshot has exactly one entry per tree node. */
  lemma {:induction false} SnapshotKeepsShape(t: Node)
    ensures SnapshotSize(BuildSnapshot(t)) == |Preorder(t)|
  {
    SnapshotForestKeepsShape(t.children);
  }

  lemma {:induction false} SnapshotForestKeepsShape(cs: seq<Node>)
    ensures SnapshotForestSize(SnapshotForest(cs)) == |PreorderForest(cs)|
  {
    if cs != [] {
      SnapshotKeepsShape(cs[0]);
      SnapshotForestKeepsShape(cs[1..]);
      assert SnapshotForest(cs)[1..] == SnapshotForest(cs[1..]);
    }
  }

  // ---------------------------------------------------------------------------
  // deep_copy_tree

  /**
    `deep_copy_tree`: a node-by-node rebuild keeping id, query, depth, data and
    child order. In this value model the copy is equal to the original; the
    parent back-references of the copy are the positional parents of the copy.
   */
  function DeepCopy(t: Node): (r: Node)
    ensures r == t
  {
    Node(t.id, t.query, t.depth, CopyForest(t.children), t.data)
  }

  function CopyForest(cs: seq<Node>): (r: seq<Node>)
    ensures r == cs
  {
    if cs == [] then [] else [DeepCopy(cs[0])] + CopyForest(cs[1..])
  }

  /** `find_node` on the copy succeeds for every id of the original, at the node with the same contents. */
  lemma DeepCopyFindsEveryId(t: Node, id: NodeId)
    requires id in Ids(t)
    ensures FindNode(DeepCopy(t), id).Some?
    ensures FindNode(DeepCopy(t), id) == FindNode(t, id)
  {
    FindNodeIsFirstInPreorder(t, id);
  }

  // ---------------------------------------------------------------------------
  // Attaching below the first node carrying an id (`find_node(id).add_child(...)`).

  /**
    Adopts `c` below the first node in pre-order whose id is `target`; None when
    no node carries it (the source then fails calling `add_child` on `None`).
   */
  function AttachAt(t: Node, target: NodeId, c: Node): (r: Option<Node>)
    ensures r.Some? <==> FindNode(t, target).Some?
    ensures r.Some? ==> r.value.id == t.id && r.value.depth == t.depth
  {
    if t.id == target then Some(AdoptChild(t, c))
    else
      var cs := AttachForest(t.children, target, c);
      if cs.Some? then Some(t.(children := cs.value)) else None
  }

  function AttachForest(cs: seq<Node>, target: NodeId, c: Node): (r: Option<seq<Node>>)
    ensures r.Some? <==> FindForest(cs, target).Some?
    ensures r.Some? ==> |r.value| == |cs|
  {
    if cs == [] then None
    else
      var hit := AttachAt(cs[0], target, c);
      if hit.Some? then Some([hit.value] + cs[1..])
      else
        var rest := AttachForest(cs[1..], target, c);
        if rest.Some? then Some([cs[0]] + rest.value) else None
  }

  /**
    Attaching grows the tree by the attached subtree, and looking the target up
    again finds it with the attached node as its last child.
   */
  lemma {:induction false} AttachAtGrowsAndIsFound(t: Node, target: NodeId, c: Node)
    requires FindNode(t, target).Some?
    ensures AttachAt(t, target, c).Some?
    ensures |Preorder(AttachAt(t, target, c).value)| == |Preorder(t)| + |Preorder(c)|
    ensures FindNode(AttachAt(t, target, c).value, target) == Some(AdoptChild(FindNode(t, target).value, c))
  {
    if t.id == target {
      var r := AdoptChild(t, c);
      PreorderForestSnoc(t.children, c.(depth := t.depth + 1));
    } else {
      AttachForestGrowsAndIsFound(t.children, target, c);
    }
  }

  lemma {:induction false} AttachForestGrowsAndIsFound(cs: seq<Node>, target: NodeId, c: Node)
    requires FindForest(cs, target).Some?
    ensures AttachForest(cs, target, c).Some?
    ensures |PreorderForest(AttachForest(cs, target, c).value)| == |PreorderForest(cs)| + |Preorder(c)|
    ensures FindForest(AttachForest(cs, target, c).value, target) == Some(AdoptChild(FindForest(cs, target).value, c))
  {
    var r := AttachForest(cs, target, c).value;
    if FindNode(cs[0], target).Some? {
      AttachAtGrowsAndIsFound(cs[0], target, c);
      assert r[1..] == cs[1..];
    } else {
      AttachForestGrowsAndIsFound(cs[1..], target, c);
      assert r[0] == cs[0] && r[1..] == AttachForest(cs[1..], target, c).value;
    }
  }

  /** Looking an id up in a forest grown by one tree at the end: earlier trees win. */
  lemma {:induction false} FindForestSnoc(cs: seq<Node>, c: Node, id: NodeId)
    ensures FindForest(cs + [c], id) == if FindForest(cs, id).Some? then FindForest(cs, id) else FindNode(c, id)
  {
    if cs == [] {
      assert cs + [c] == [c];
      assert [c][1..] == [];
    } else {
      assert (cs + [c])[1..] == cs[1..] + [c];
      FindForestSnoc(cs[1..], c, id);
    }
  }

  /** A node whose id occurs nowhere in the tree is found, after adoption, as the new last child. */
  lemma AdoptFindsNew(t: Node, c: Node)
    requires FindNode(t, c.id).None?
    ensures FindNode(AdoptChild(t, c), c.id) == Some(c.(depth := t.depth + 1))
  {
    FindForestSnoc(t.children, c.(depth := t.depth + 1), c.id);
  }

  /**
    Attaching a node whose id is new to the tree: afterwards `find_node` on that
    id returns it, one level below the node it was attached to.
   */
  lemma {:induction false} AttachFindsNew(t: Node, target: NodeId, c: Node)
    requires FindNode(t, target).Some? && FindNode(t, c.id).None?
    ensures AttachAt(t, target, c).Some?
    ensures FindNode(AttachAt(t, target, c).value, c.id) == Some(c.(depth := FindNode(t, target).value.depth + 1))
  {
    if t.id == target {
      AdoptFindsNew(t, c);
    } else {
      AttachForestFindsNew(t.children, target, c);
    }
  }

  lemma {:induction false} AttachForestFindsNew(cs: seq<Node>, target: NodeId, c: Node)
    requires FindForest(cs, target).Some? && FindForest(cs, c.id).None?
    ensures AttachForest(cs, target, c).Some?
    ensures FindForest(AttachForest(cs, target, c).value, c.id) == Some(c.(depth := FindForest(cs, target).value.depth + 1))
  {
    var r := AttachForest(cs, target, c).value;
    if FindNode(cs[0], target).Some? {
      AttachFindsNew(cs[0], target, c);
    } else {
      AttachForestFindsNew(cs[1..], target, c);
      assert r[0] == cs[0] && r[1..] == AttachForest(cs[1..], target, c).value;
    }
  }

  // ---------------------------------------------------------------------------
  // get_path_to_root of the node carrying an id

  /**
    The queries from the root down to the first node (in pre-order) carrying
    `id`, as `find_node(id).get_path_to_root()` lists them; None when no node does.
   */
  function QueriesTo(t: Node, id: NodeId): (r: Option<seq<string>>)
    ensures r.Some? <==> FindNode(t, id).Some?
    ensures r.Some? ==> |r.value| >= 1 && r.value[0] == t.query && r.value[|r.value| - 1] == FindNode(t, id).value.query
  {
    if t.id == id then Some([t.query])
    else
      var qs := QueriesForest(t.children, id);
      if qs.Some? then Some([t.query] + qs.value) else None
  }

  function QueriesForest(cs: seq<Node>, id: NodeId): (r: Option<seq<string>>)
    ensures r.Some? <==> FindForest(cs, id).Some?
    ensures r.Some? ==> |r.value| >= 1 && r.value[|r.value| - 1] == FindForest(cs, id).value.query
  {
    if cs == [] then None
    else
      var hit := QueriesTo(cs[0], id);
      if hit.Some? then hit else QueriesForest(cs[1..], id)
  }

  /** In a well-formed tree the path to a node has one entry per level between the root and the node, plus one. */
  lemma {:induction false} QueriesToLength(t: Node, id: NodeId)
    requires WellFormed(t) && FindNode(t, id).Some?
    ensures |QueriesTo(t, id).value| == FindNode(t, id).value.depth - t.depth + 1
  {
    if t.id != id {
      QueriesForestLength(t.children, id, t.depth + 1);
    }
  }

  lemma {:induction false} QueriesForestLength(cs: seq<Node>, id: NodeId, d: int)
    requires forall i :: 0 <= i < |cs| ==> cs[i].depth == d && WellFormed(cs[i])
    requires FindForest(cs, id).Some?
    ensures |QueriesForest(cs, id).value| == FindForest(cs, id).value.depth - d + 1
  {
    if FindNode(cs[0], id).Some? {
      QueriesToLength(cs[0], id);
    } else {
      QueriesForestLength(cs[1..], id, d);
    }
  }

  lemma {:induction false} PreorderForestSnoc(cs: seq<Node>, c: Node)
    ensures |PreorderForest(cs + [c])| == |PreorderForest(cs)| + |Preorder(c)|
  {
    if cs == [] {
      assert cs + [c] == [c];
      assert [c][1..] == [];
    } else {
      assert (cs + [c])[1..] == cs[1..] + [c];
      PreorderForestSnoc(cs[1..], c);
    }
  }
}

=== FILE: scraper.dfy ===
/**
  The post-processing around the web scraper: normalising the result urls of
  a DuckDuckGo page, keeping the pages that scraped, picking YouTube frames,
  merging the newspaper extraction over the fallback extraction, and the
  started/closed flag of the crawler.

  The network, the HTML parser and the newspaper extractor are oracles: the
  search page is given as the list of `href` attributes it holds (or `None`
  when the request failed), and a page scrape as a function from url to record.
 */
module Scraper {
  import opened Wrappers
  import opened Text
  import opened ResearchTree

  // ---------------------------------------------------------------------------
  // Python values in scraped records

  /** The values a scraped record holds, with Python truthiness. */
  datatype PyValue =
    | PNone
    | PStr(s: string)
    | PList(items: seq<string>)
    | POpaque(truthy: bool)

  predicate Truthy(v: PyValue) {
    match v
    case PNone => false
    case PStr(s) => s != []
    case PList(items) => items != []
    case POpaque(t) => t
  }

  /** A scraped record: a Python dict from field name to value. */
  type Record = Dict<PyValue>

  /** `d.get(k)`. */
  function Get(d: Record, k: string): PyValue {
    Lookup(d, k).GetOr(PNone)
  }

  // ---------------------------------------------------------------------------
  // _duckduckgo_search

  /** `str.replace(pat, "")`: removes the non-overlapping occurrences of `pat`, scanning left to right. */
  function RemoveAll(s: string, pat: string): (r: string)
    requires pat != []
    ensures |r| <= |s|
    ensures forall i :: 0 <= i < |r| ==> r[i] in s
    ensures |pat| == 1 ==> pat[0] !in r
    decreases |s|
  {
    if s == [] then []
    else if StartsWith(s, pat) then RemoveAll(s[|pat|..], pat)
    else [s[0]] + RemoveAll(s[1..], pat)
  }

  /** A string holding no occurrence of `pat` loses nothing to `RemoveAll`. */
  lemma {:induction false} RemoveAllAbsent(s: string, pat: string)
    requires pat != [] && !Contains(s, pat)
    ensures RemoveAll(s, pat) == s
    decreases |s|
  {
    if s != [] {
      assert !OccursAt(s, pat, 0);
      assert !Contains(s[1..], pat) by {
        forall i | 0 <= i <= |s[1..]| - |pat| ensures !OccursAt(s[1..], pat, i) {
          assert !OccursAt(s, pat, i + 1);
          assert s[1..][i..i + |pat|] == s[i + 1..i + 1 + |pat|];
        }
      }
      RemoveAllAbsent(s[1..], pat);
    }
  }

  /** Reference definition: the characters of `s` other than `c`, in their order. */
  function Without(s: string, c: char): (r: string)
    ensures c !in r
    ensures forall x :: x != c ==> (x in r <==> x in s)
    decreases |s|
  {
    if s == [] then [] else (if s[0] == c then [] else [s[0]]) + Without(s[1..], c)
  }

  /** Removing a one-character pattern keeps exactly the other characters, in order. */
  lemma {:induction false} RemoveCharIsWithout(s: string, c: char)
    ensures RemoveAll(s, [c]) == Without(s, c)
    decreases |s|
  {
    if s != [] {
      RemoveCharIsWithout(s[1..], c);
      assert StartsWith(s, [c]) <==> s[0] == c by { assert |s[..1]| == 1 && s[..1][0] == s[0]; }
    }
  }

  const Escape: string := ['\\', 'n']

  predicate HasScheme(u: string) {
    StartsWith(u, "http://") || StartsWith(u, "https://")
  }

  /** The url of one search hit: spaces and literal `\n` escapes removed, `https://` added unless a scheme is there. */
  function NormalizeUrl(href: string): (r: string)
    ensures ' ' !in r
    ensures HasScheme(r)
  {
    var u := RemoveAll(RemoveAll(href, " "), Escape);
    if HasScheme(u) then u else "https://" + u
  }

  /**
    The normalised url is the `href` with every space and every `\n` escape
    removed, prefixed with `https://` unless that leaves it with a scheme.
   */
  lemma NormalizeUrlCleans(href: string)
    ensures var u := RemoveAll(Without(href, ' '), Escape);
            NormalizeUrl(href) == if HasScheme(u) then u else "https://" + u
  {
    RemoveCharIsWithout(href, ' ');
  }

  /** A url that already has a scheme and no space or escape is kept as it is. */
  lemma NormalizeKeepsCleanUrl(href: string)
    requires HasScheme(href) && ' ' !in href && !Contains(href, Escape)
    ensures NormalizeUrl(href) == href
  {
    assert !Contains(href, " ") by {
      forall i | 0 <= i < |href| ensures !OccursAt(href, " ", i) {
        assert href[i] != ' ';
        assert href[i..i + 1][0] == href[i];
      }
    }
    RemoveAllAbsent(href, " ");
    RemoveAllAbsent(href, Escape);
  }

  /** A bare host or path with no space or escape only gains the `https://` scheme. */
  lemma NormalizeAddsScheme(href: string)
    requires !HasScheme(href) && ' ' !in href && !Contains(href, Escape)
    ensures NormalizeUrl(href) == "https://" + href
  {
    RemoveCharIsWithout(href, ' ');
    WithoutAbsent(href, ' ');
    RemoveAllAbsent(href, Escape);
  }

  lemma {:induction false} WithoutAbsent(s: string, c: char)
    requires c !in s
    ensures Without(s, c) == s
    decreases |s|
  {
    if s != [] {
      WithoutAbsent(s[1..], c);
    }
  }

  /** One pass can leave an escape behind: `\\nn` becomes `\n`. */
  lemma NormalizeLeavesEscape()
    ensures Contains(NormalizeUrl(['\\', '\\', 'n', 'n']), Escape)
  {
    var s := ['\\', '\\', 'n', 'n'];
    var u := ['\\', 'n'];
    RemoveEscapeStep(s);
    assert NormalizeUrl(s) == "https://" + u by { assert !StartsWith(u, "http://") && !StartsWith(u, "https://"); }
    assert OccursAt(u, Escape, 0);
    OccursAfter("https://", u, Escape, 0);
    assert OccursAt(NormalizeUrl(s), Escape, 8);
  }

  /** Removing spaces leaves `\\nn` alone; the single escape pass then leaves `\n`. */
  lemma RemoveEscapeStep(s: string)
    requires s == ['\\', '\\', 'n', 'n']
    ensures RemoveAll(RemoveAll(s, " "), Escape) == ['\\', 'n']
  {
    assert !Contains(s, " ") by {
      forall i | 0 <= i < |s| ensures !OccursAt(s, " ", i) { assert s[i..i + 1][0] == s[i]; }
    }
    RemoveAllAbsent(s, " ");
    assert !StartsWith(s[3..], Escape);
    assert RemoveAll(s[3..], Escape) == ['n'];
    assert StartsWith(s[1..], Escape) && s[1..][2..] == s[3..];
    assert RemoveAll(s[1..], Escape) == ['n'];
    assert !StartsWith(s, Escape);
  }

  /**
    `_duckduckgo_search(query, num_results)` given the `href`s of the result
    page (`None` when the request failed): the normalised urls in page order,
    stopping once `num_results` are collected, so at least one url is taken
    whenever there is a hit. A hit without an `href` makes the whole search
    fail with no url.
   */
  function DuckDuckGo(hrefs: Option<seq<Option<string>>>, numResults: int): (r: seq<string>)
    ensures hrefs.None? ==> r == []
    ensures hrefs.Some? ==> |r| <= |hrefs.value|
    ensures |r| <= if numResults < 1 then 1 else numResults
    ensures forall i :: 0 <= i < |r| ==> ' ' !in r[i] && HasScheme(r[i])
    ensures hrefs.Some? ==> forall i :: 0 <= i < |r| ==> hrefs.value[i].Some? && r[i] == NormalizeUrl(hrefs.value[i].value)
  {
    match hrefs
    case None => []
    case Some(hs) =>
      var urls := CollectUrls(hs, numResults, []);
      if urls.Some? then
        UrlsOfFirstHits(hs, urls.value);
        urls.value
      else []
  }

  /** The search loop: `None` when a hit without `href` is reached before the cap. */
  function CollectUrls(hs: seq<Option<string>>, numResults: int, acc: seq<string>): (r: Option<seq<string>>)
    requires |acc| < (if numResults < 1 then 1 else numResults)
    ensures r.Some? ==> |acc| <= |r.value| <= |acc| + |hs|
    ensures r.Some? ==> |r.value| <= if numResults < 1 then 1 else numResults
    ensures r.Some? ==> r.value[..|acc|] == acc
    ensures r.Some? ==> forall i :: |acc| <= i < |r.value| ==> ' ' !in r.value[i] && HasScheme(r.value[i])
    ensures r.Some? ==> forall i :: |acc| <= i < |r.value| ==> UrlOfHit(hs, |acc|, r.value, i)
    decreases |hs|
  {
    if hs == [] then Some(acc)
    else match hs[0]
      case None => None
      case Some(href) =>
        var acc' := acc + [NormalizeUrl(href)];
        if |acc'| >= numResults then Some(acc')
        else
          var r := CollectUrls(hs[1..], numResults, acc');
          if r.Some? then
            assert r.value[..|acc|] == r.value[..|acc'|][..|acc|];
            UrlsFollowHits(hs, acc, acc', r.value);
            r
          else r
  }

  /** Url `i` is the normalised `href` of hit `i - off`. */
  predicate UrlOfHit(hs: seq<Option<string>>, off: int, urls: seq<string>, i: int)
    requires 0 <= i - off < |hs| && 0 <= i < |urls|
  {
    hs[i - off].Some? && urls[i] == NormalizeUrl(hs[i - off].value)
  }

  lemma UrlsOfFirstHits(hs: seq<Option<string>>, urls: seq<string>)
    requires |urls| <= |hs| && forall i :: 0 <= i < |urls| ==> UrlOfHit(hs, 0, urls, i)
    ensures forall i :: 0 <= i < |urls| ==> hs[i].Some? && urls[i] == NormalizeUrl(hs[i].value)
  {
    forall i | 0 <= i < |urls| ensures hs[i].Some? && urls[i] == NormalizeUrl(hs[i].value) {
      assert UrlOfHit(hs, 0, urls, i);
    }
  }

  /** The url after the accumulated ones comes from the first hit, the later ones from the later hits. */
  lemma UrlsFollowHits(hs: seq<Option<string>>, acc: seq<string>, acc': seq<string>, rv: seq<string>)
    requires hs != [] && hs[0].Some? && acc' == acc + [NormalizeUrl(hs[0].value)]
    requires |acc'| <= |rv| <= |acc| + |hs| && rv[..|acc'|] == acc'
    requires forall i :: |acc'| <= i < |rv| ==> UrlOfHit(hs[1..], |acc'|, rv, i)
    ensures forall i :: |acc| <= i < |rv| ==> UrlOfHit(hs, |acc|, rv, i)
  {
    forall k | |acc| <= k < |rv| ensures UrlOfHit(hs, |acc|, rv, k) {
      if k == |acc| {
        assert rv[k] == rv[..|acc'|][k];
      } else {
        assert UrlOfHit(hs[1..], |acc'|, rv, k);
        assert hs[1..][k - |acc'|] == hs[k - |acc|];
      }
    }
  }

  /** The cap: with at least as many clean hits as asked for, exactly `max(num_results, 1)` urls come back. */
  lemma {:induction false} CollectUrlsFills(hs: seq<Option<string>>, numResults: int, acc: seq<string>)
    requires |acc| < (if numResults < 1 then 1 else numResults)
    requires forall i :: 0 <= i < |hs| ==> hs[i].Some?
    ensures CollectUrls(hs, numResults, acc).Some?
    ensures var cap := if numResults < 1 then 1 else numResults;
            |CollectUrls(hs, numResults, acc).value| == if |acc| + |hs| < cap then |acc| + |hs| else cap
    decreases |hs|
  {
    if hs != [] {
      var acc' := acc + [NormalizeUrl(hs[0].value)];
      if |acc'| < numResults { CollectUrlsFills(hs[1..], numResults, acc'); }
    }
  }

  /** A hit without `href` reached before the cap makes the whole search give no url, as a failed request does. */
  lemma MissingHrefFailsSearch(hs: seq<Option<string>>, numResults: int, k: nat)
    requires k < |hs| && hs[k].None? && forall j :: 0 <= j < k ==> hs[j].Some?
    requires k < if numResults < 1 then 1 else numResults
    ensures DuckDuckGo(Some(hs), numResults) == []
  {
    CollectUrlsFails(hs, numResults, [], k);
  }

  /** The search loop fails when the `k`-th remaining hit has no `href` and the cap is not reached before it. */
  lemma {:induction false} CollectUrlsFails(hs: seq<Option<string>>, numResults: int, acc: seq<string>, k: nat)
    requires k < |hs| && hs[k].None? && forall j :: 0 <= j < k ==> hs[j].Some?
    requires |acc| + k < if numResults < 1 then 1 else numResults
    ensures CollectUrls(hs, numResults, acc).None?
    decreases k
  {
    if k > 0 {
      var acc' := acc + [NormalizeUrl(hs[0].value)];
      assert hs[1..][k - 1] == hs[k];
      CollectUrlsFails(hs[1..], numResults, acc', k - 1);
    }
  }

  // ---------------------------------------------------------------------------
  // search_and_scrape

  /** A dict is truthy when it is non-empty. */
  predicate Scraped(d: Record) {
    d != []
  }

  /** `picked` lists, increasingly, exactly the positions of `urls` whose scrape is non-empty, and `data` holds those scrapes. */
  predicate KeepsScraped(urls: seq<string>, scrape: string -> Record, picked: seq<nat>, data: seq<Record>) {
    |picked| == |data|
    && (forall k :: 0 <= k < |picked| ==> picked[k] < |urls| && data[k] == scrape(urls[picked[k]]))
    && (forall k, l :: 0 <= k < l < |picked| ==> picked[k] < picked[l])
    && (forall j :: 0 <= j < |urls| && Scraped(scrape(urls[j])) ==> j in picked)
    && (forall k :: 0 <= k < |data| ==> Scraped(data[k]))
  }

  /**
    `search_and_scrape(query, num_sites)`: every url of the search is scraped
    in order and the non-empty records are kept, in order.
   */
  method SearchAndScrape(hrefs: Option<seq<Option<string>>>, numSites: int, scrape: string -> Record)
    returns (data: seq<Record>)
    ensures var urls := DuckDuckGo(hrefs, numSites);
            |data| <= |urls| && exists picked :: KeepsScraped(urls, scrape, picked, data)
  {
    var urls := DuckDuckGo(hrefs, numSites);
    data := [];
    ghost var picked: seq<nat> := [];
    var i := 0;
    while i < |urls|
      invariant 0 <= i <= |urls|
      invariant |data| <= i
      invariant KeepsScraped(urls[..i], scrape, picked, data)
    {
      var page := scrape(urls[i]);
      KeepStep(urls, i, scrape, picked, data);
      if Scraped(page) {
        data := data + [page];
        picked := picked + [i];
      }
      i := i + 1;
    }
    assert urls[..i] == urls;
  }

  /** One more url scraped: the record is kept exactly when it is non-empty. */
  lemma KeepStep(urls: seq<string>, i: nat, scrape: string -> Record, picked: seq<nat>, data: seq<Record>)
    requires i < |urls| && KeepsScraped(urls[..i], scrape, picked, data)
    ensures var page := scrape(urls[i]);
            if Scraped(page) then KeepsScraped(urls[..i + 1], scrape, picked + [i], data + [page])
            else KeepsScraped(urls[..i + 1], scrape, picked, data)
  {
    var page := scrape(urls[i]);
    var us := urls[..i + 1];
    assert forall j :: 0 <= j < i ==> us[j] == urls[..i][j];
    assert us[i] == urls[i];
  }

  // ---------------------------------------------------------------------------
  // Extraction helpers

  /** YouTube frames: a `src` naming youtube.com or youtu.be. */
  predicate IsYouTube(src: string) {
    Contains(src, "youtube.com") || Contains(src, "youtu.be")
  }

  /** `_extract_videos`: the `src` of every iframe (empty when missing) that is a YouTube frame, in page order. */
  function ExtractVideos(srcs: seq<Option<string>>): (r: seq<string>)
    ensures |r| <= |srcs|
    ensures forall i :: 0 <= i < |r| ==> IsYouTube(r[i])
    ensures forall i :: 0 <= i < |r| ==> Some(r[i]) in srcs
  {
    if srcs == [] then []
    else
      var src := srcs[0].GetOr("");
      assert IsYouTube(src) ==> src != [];
      (if IsYouTube(src) then [src] else []) + ExtractVideos(srcs[1..])
  }

  /** Every YouTube frame is kept. */
  lemma {:induction false} ExtractVideosKeepsAll(srcs: seq<Option<string>>)
    ensures forall j :: 0 <= j < |srcs| && IsYouTube(srcs[j].GetOr("")) ==> srcs[j].GetOr("") in ExtractVideos(srcs)
  {
    if srcs != [] {
      ExtractVideosKeepsAll(srcs[1..]);
      forall j | 0 <= j < |srcs| && IsYouTube(srcs[j].GetOr(""))
        ensures srcs[j].GetOr("") in ExtractVideos(srcs)
      {
        if j > 0 { assert srcs[1..][j - 1] == srcs[j]; }
      }
    }
  }

  /** The frames are kept in page order: extracting from two halves of a page is extracting from the page. */
  lemma {:induction false} ExtractVideosAppend(xs: seq<Option<string>>, ys: seq<Option<string>>)
    ensures ExtractVideos(xs + ys) == ExtractVideos(xs) + ExtractVideos(ys)
  {
    if xs == [] {
      assert xs + ys == ys;
    } else {
      assert (xs + ys)[0] == xs[0] && (xs + ys)[1..] == xs[1..] + ys;
      ExtractVideosAppend(xs[1..], ys);
    }
  }

  /** `_extract_images` and `_extract_links`: the attributes that are present and non-empty, in page order. */
  function Present(attrs: seq<Option<string>>): (r: seq<string>)
    ensures |r| <= |attrs|
    ensures forall i :: 0 <= i < |r| ==> r[i] != []
    ensures forall j :: 0 <= j < |attrs| && attrs[j].Some? && attrs[j].value != [] ==> attrs[j].value in r
    ensures forall i :: 0 <= i < |r| ==> Some(r[i]) in attrs
  {
    if attrs == [] then []
    else
      var rest := Present(attrs[1..]);
      assert forall j :: 1 <= j < |attrs| ==> attrs[j] == attrs[1..][j - 1];
      (if attrs[0].Some? && attrs[0].value != [] then [attrs[0].value] else []) + rest
  }

  /** Page order is kept: the attributes of a concatenation are collected part by part. */
  lemma {:induction false} PresentAppend(xs: seq<Option<string>>, ys: seq<Option<string>>)
    ensures Present(xs + ys) == Present(xs) + Present(ys)
  {
    if xs == [] {
      assert xs + ys == ys;
    } else {
      assert (xs + ys)[0] == xs[0] && (xs + ys)[1..] == xs[1..] + ys;
      PresentAppend(xs[1..], ys);
    }
  }

  // ---------------------------------------------------------------------------
  // _merge_extraction_results

  /** The fields the newspaper extraction overrides when it has them. */
  const OverrideFields: seq<string> := ["title", "text", "images", "links"]

  /** The fields the newspaper extraction always sets. */
  const NewsFields: seq<string> := ["summary", "keywords", "authors", "publish_date", "metadata"]

  /** `merged[field] = news[field]` for each override field the news record has truthily. */
  function Override(merged: Record, news: Record, fields: seq<string>): (r: Record)
    requires UniqueKeys(merged)
    ensures UniqueKeys(r)
    ensures forall k :: k !in fields ==> Lookup(r, k) == Lookup(merged, k)
    ensures forall k :: k in fields && Truthy(Get(news, k)) ==> Lookup(r, k) == Some(Get(news, k))
    ensures forall k :: k in fields && !Truthy(Get(news, k)) ==> Lookup(r, k) == Lookup(merged, k)
    decreases |fields|
  {
    if fields == [] then merged
    else
      var f := fields[0];
      var step := if Truthy(Get(news, f)) then Put(merged, f, Get(news, f)) else merged;
      PutSemantics(merged, f, Get(news, f));
      var r := Override(step, news, fields[1..]);
      assert forall k :: k in fields && k != f ==> k in fields[1..];
      r
  }

  /** `merged.update({k: news.get(k) for k in fields})`. */
  function SetAll(merged: Record, news: Record, fields: seq<string>): (r: Record)
    requires UniqueKeys(merged)
    ensures UniqueKeys(r)
    ensures forall k :: k !in fields ==> Lookup(r, k) == Lookup(merged, k)
    ensures forall k :: k in fields ==> Lookup(r, k) == Some(Get(news, k))
    decreases |fields|
  {
    if fields == [] then merged
    else
      var f := fields[0];
      PutSemantics(merged, f, Get(news, f));
      var r := SetAll(Put(merged, f, Get(news, f)), news, fields[1..]);
      assert forall k :: k in fields && k != f ==> k in fields[1..];
      r
  }

  /** `_merge_extraction_results(news_data, selenium_data)`. */
  function MergeExtraction(news: Record, selenium: Record): (r: Record)
    requires UniqueKeys(selenium)
    ensures UniqueKeys(r)
    ensures news == [] ==> r == selenium
  {
    if news == [] then selenium
    else SetAll(Override(selenium, news, OverrideFields), news, NewsFields)
  }

  /**
    A non-empty news record wins every override field it has truthily and sets
    every news field (to `None` when missing); every other field keeps the
    fallback's value.
   */
  lemma MergeFieldwise(news: Record, selenium: Record, k: string)
    requires UniqueKeys(selenium) && news != []
    ensures var r := MergeExtraction(news, selenium);
            (k in NewsFields ==> Lookup(r, k) == Some(Get(news, k))) &&
            (k in OverrideFields && Truthy(Get(news, k)) ==> Lookup(r, k) == Some(Get(news, k))) &&
            (k in OverrideFields && !Truthy(Get(news, k)) ==> Lookup(r, k) == Lookup(selenium, k)) &&
            (k !in OverrideFields && k !in NewsFields ==> Lookup(r, k) == Lookup(selenium, k))
  {
    assert forall k :: k in NewsFields ==> k !in OverrideFields;
  }

  /**
    `_scrape_page(url)`: `news` is the newspaper record (`None` when parsing
    raised), `fallback` the record read from the raw page (`None` when that
    raised). A record with text is returned as it is; otherwise the fallback is
    merged under it; an exception gives the empty record.
   */
  function ScrapePage(news: Option<Record>, fallback: Option<Record>): (r: Record)
    requires fallback.Some? ==> UniqueKeys(fallback.value)
    ensures news.None? ==> r == []
    ensures news.Some? && Truthy(Get(news.value, "text")) ==> r == news.value
    ensures news.Some? && !Truthy(Get(news.value, "text")) && fallback.None? ==> r == []
  {
    match news
    case None => []
    case Some(n) =>
      if Truthy(Get(n, "text")) then n
      else match fallback
        case None => []
        case Some(f) => MergeExtraction(n, f)
  }

  /** When the newspaper text is empty, the merged record takes the fallback's text. */
  lemma ScrapePageFallsBackForText(news: Record, fallback: Record)
    requires UniqueKeys(fallback) && news != [] && !Truthy(Get(news, "text"))
    ensures Lookup(ScrapePage(Some(news), Some(fallback)), "text") == Lookup(fallback, "text")
  {
    MergeFieldwise(news, fallback, "text");
  }

  // ---------------------------------------------------------------------------
  // CrawlForAIScraper.start / close

  /** The crawler flag and how many times the browser was started and closed. */
  datatype Crawler = Crawler(started: bool, starts: nat, closes: nat)

  function Start(c: Crawler): (r: Crawler)
    ensures r.started
  {
    if c.started then c else Crawler(true, c.starts + 1, c.closes)
  }

  function Close(c: Crawler): (r: Crawler)
    ensures !r.started
  {
    if c.started then Crawler(false, c.starts, c.closes + 1) else c
  }

  /** The browser is running exactly when it was started once more than it was closed. */
  predicate Balanced(c: Crawler) {
    c.starts == c.closes + (if c.started then 1 else 0)
  }

  datatype CrawlerOp = OpStart | OpClose

  function Run(c: Crawler, ops: seq<CrawlerOp>): Crawler
    decreases |ops|
  {
    if ops == [] then c else Run(if ops[0] == OpStart then Start(c) else Close(c), ops[1..])
  }

  /** Starting twice is starting once, and closing twice is closing once. */
  lemma StartCloseIdempotent(c: Crawler)
    ensures Start(Start(c)) == Start(c)
    ensures Close(Close(c)) == Close(c)
  {
  }

  /**
    From any balanced crawler, a fresh one included, every sequence of starts
    and closes keeps it balanced: each real start is matched by at most one
    real close.
   */
  lemma {:induction false} RunStaysBalanced(c: Crawler, ops: seq<CrawlerOp>)
    requires Balanced(c)
    ensures Balanced(Run(c, ops))
    decreases |ops|
  {
    if ops != [] {
      RunStaysBalanced(if ops[0] == OpStart then Start(c) else Close(c), ops[1..]);
    }
  }
}

=== FILE: similarity.dfy ===
/**
  The offline evaluation of a finished report: the sources stored in a
  serialised research tree are pulled out, the report and every source are
  normalised to lower-case words, each source is scored against the report by
  a TF-IDF cosine, and the scores are summarised.

  The JSON document is a parsed value; the vectoriser and the cosine are
  oracles (`Vectorizer`). Scores are exact reals.
 */
module Similarity {
  import opened Wrappers
  import opened Text
  import opened ResearchTree

  // ---------------------------------------------------------------------------
  // Parsed JSON and source extraction

  /** A value as `json.load` returns it; objects keep their key order. */
  datatype Json =
    | JNull
    | JBool(b: bool)
    | JNum(n: real)
    | JStr(s: string)
    | JList(items: seq<Json>)
    | JObject(fields: Dict<Json>)

  /** One extracted source: its url and its raw text. */
  datatype Source = Source(id: string, text: string)

  /** The entries of a `sources` object whose value is a string with a non-whitespace character. */
  function StringSources(es: Dict<Json>): (r: seq<Source>)
    ensures |r| <= |es|
    ensures forall i :: 0 <= i < |r| ==> !IsBlank(r[i].text)
    ensures forall i :: 0 <= i < |es| && es[i].1.JStr? && !IsBlank(es[i].1.s) ==> Source(es[i].0, es[i].1.s) in r
    ensures forall i :: 0 <= i < |r| ==> exists j :: 0 <= j < |es| && es[j] == (r[i].id, JStr(r[i].text))
  {
    if es == [] then []
    else
      var own := match es[0].1
        case JStr(t) => if IsBlank(t) then [] else [Source(es[0].0, t)]
        case _ => [];
      own + StringSources(es[1..])
  }

  /** The sources an object holds itself: nothing unless its `sources` field is an object. */
  function OwnSources(fields: Dict<Json>): seq<Source> {
    match Lookup<Json>(fields, "sources")
    case Some(JObject(es)) => StringSources(es)
    case _ => []
  }

  /**
    `extract_source_texts_from_tree`: an object contributes its own sources
    first, then those found under every other field in key order; a list
    contributes its items' sources in order; a scalar contributes nothing.
   */
  function Extract(j: Json): seq<Source>
    decreases j, 1
  {
    match j
    case JObject(fields) => OwnSources(fields) + ExtractFields(j, fields)
    case JList(items) => ExtractList(items)
    case _ => []
  }

  /** The sources under every field of `parent` except `sources`, in key order. */
  function ExtractFields(ghost parent: Json, fields: Dict<Json>): seq<Source>
    requires forall i :: 0 <= i < |fields| ==> fields[i].1 < parent
    decreases parent, 0, |fields|
  {
    if fields == [] then []
    else (if fields[0].0 == "sources" then [] else Extract(fields[0].1)) + ExtractFields(parent, fields[1..])
  }

  function ExtractList(items: seq<Json>): seq<Source>
    decreases items
  {
    if items == [] then [] else Extract(items[0]) + ExtractList(items[1..])
  }

  predicate AllNonBlank(ss: seq<Source>) {
    forall i :: 0 <= i < |ss| ==> !IsBlank(ss[i].text)
  }

  /** Every extracted text has a non-whitespace character, whatever the document. */
  lemma {:induction false} ExtractedAreNonBlank(j: Json)
    ensures AllNonBlank(Extract(j))
    decreases j, 1
  {
    match j
    case JObject(fields) => ExtractedFieldsAreNonBlank(j, fields);
    case JList(items) => ExtractedListIsNonBlank(items);
    case _ =>
  }

  lemma {:induction false} ExtractedFieldsAreNonBlank(parent: Json, fields: Dict<Json>)
    requires forall i :: 0 <= i < |fields| ==> fields[i].1 < parent
    ensures AllNonBlank(ExtractFields(parent, fields)) && AllNonBlank(OwnSources(fields))
    decreases parent, 0, |fields|
  {
    if fields != [] {
      if fields[0].0 != "sources" { ExtractedAreNonBlank(fields[0].1); }
      ExtractedFieldsAreNonBlank(parent, fields[1..]);
    }
  }

  lemma {:induction false} ExtractedListIsNonBlank(items: seq<Json>)
    ensures AllNonBlank(ExtractList(items))
    decreases items
  {
    if items != [] {
      ExtractedAreNonBlank(items[0]);
      ExtractedListIsNonBlank(items[1..]);
    }
  }

  // ---------------------------------------------------------------------------
  // The serialised research tree

  /** A url→text dictionary as a JSON object. */
  function TextsJson(d: Dict<string>): (r: Dict<Json>)
    ensures |r| == |d|
    ensures forall i :: 0 <= i < |d| ==> r[i] == (d[i].0, JStr(d[i].1))
  {
    if d == [] then [] else [(d[0].0, JStr(d[0].1))] + TextsJson(d[1..])
  }

  /** The JSON object `json.dump` writes for a `build_tree_structure` snapshot. */
  function SnapshotJson(s: Snapshot): Json {
    JObject([("query", JStr(s.query)), ("depth", JNum(s.depth as real)),
             ("sources", JObject(TextsJson(s.sources))), ("children", JList(SnapshotsJson(s.children)))])
  }

  /** The fields of a snapshot object, in the order `json.dump` writes them. */
  function SnapshotFields(s: Snapshot): Dict<Json> {
    [("query", JStr(s.query)), ("depth", JNum(s.depth as real)),
     ("sources", JObject(TextsJson(s.sources))), ("children", JList(SnapshotsJson(s.children)))]
  }

  function SnapshotsJson(ss: seq<Snapshot>): (r: seq<Json>)
    ensures |r| == |ss|
  {
    if ss == [] then [] else [SnapshotJson(ss[0])] + SnapshotsJson(ss[1..])
  }

  /** The non-blank entries of a url→text dictionary, in order. */
  function NonBlankSources(d: Dict<string>): seq<Source> {
    if d == [] then []
    else (if IsBlank(d[0].1) then [] else [Source(d[0].0, d[0].1)]) + NonBlankSources(d[1..])
  }

  /** Reference order: the non-blank sources of each node, nodes taken in pre-order. */
  function PreorderSources(ns: seq<Node>): seq<Source> {
    if ns == [] then [] else NonBlankSources(SourcesOf(ns[0].data)) + PreorderSources(ns[1..])
  }

  lemma {:induction false} PreorderSourcesAppend(a: seq<Node>, b: seq<Node>)
    ensures PreorderSources(a + b) == PreorderSources(a) + PreorderSources(b)
  {
    if a != [] {
      PreorderSourcesAppend(a[1..], b);
      calc {
        PreorderSources(a + b);
        { assert (a + b)[0] == a[0] && (a + b)[1..] == a[1..] + b; }
        NonBlankSources(SourcesOf(a[0].data)) + PreorderSources(a[1..] + b);
        NonBlankSources(SourcesOf(a[0].data)) + (PreorderSources(a[1..]) + PreorderSources(b));
      }
    } else {
      assert a + b == b;
    }
  }

  lemma {:induction false} StringSourcesOfTexts(d: Dict<string>)
    ensures StringSources(TextsJson(d)) == NonBlankSources(d)
  {
    if d != [] {
      assert TextsJson(d)[1..] == TextsJson(d[1..]);
      StringSourcesOfTexts(d[1..]);
    }
  }

  /** A saved snapshot yields its own non-blank sources, then its children's. */
  lemma SnapshotJsonSources(s: Snapshot)
    ensures Extract(SnapshotJson(s)) == NonBlankSources(s.sources) + ExtractList(SnapshotsJson(s.children))
  {
    SnapshotOwnSources(s);
    SnapshotFieldSources(s);
  }

  lemma SnapshotOwnSources(s: Snapshot)
    ensures OwnSources(SnapshotFields(s)) == NonBlankSources(s.sources)
  {
    var fields := SnapshotFields(s);
    var own := Some(JObject(TextsJson(s.sources)));
    assert Lookup(fields[2..], "sources") == own;
    assert Lookup(fields[1..], "sources") == own by { assert fields[1..][1..] == fields[2..]; }
    StringSourcesOfTexts(s.sources);
  }

  lemma SnapshotFieldSources(s: Snapshot)
    ensures SnapshotJson(s) == JObject(SnapshotFields(s))
    ensures ExtractFields(SnapshotJson(s), SnapshotFields(s)) == ExtractList(SnapshotsJson(s.children))
  {
    var fields := SnapshotFields(s);
    var j := SnapshotJson(s);
    assert j == JObject(fields);
    var children := ExtractList(SnapshotsJson(s.children));
    assert ExtractFields(j, fields[3..]) == children by { assert fields[3..][1..] == []; }
    assert ExtractFields(j, fields[2..]) == children by { assert fields[2..][1..] == fields[3..]; }
    assert ExtractFields(j, fields[1..]) == children by { assert fields[1..][1..] == fields[2..]; }
  }

  /**
    Extracting the sources of a saved tree lists every node's own non-blank
    sources before those of its descendants, nodes in pre-order.
   */
  lemma {:induction false} ExtractFollowsPreorder(t: Node)
    ensures Extract(SnapshotJson(BuildSnapshot(t))) == PreorderSources(Preorder(t))
  {
    SnapshotJsonSources(BuildSnapshot(t));
    ExtractForestFollowsPreorder(t.children);
    assert Preorder(t)[0] == t && Preorder(t)[1..] == PreorderForest(t.children);
  }

  lemma {:induction false} ExtractForestFollowsPreorder(cs: seq<Node>)
    ensures ExtractList(SnapshotsJson(SnapshotForest(cs))) == PreorderSources(PreorderForest(cs))
  {
    if cs != [] {
      ExtractFollowsPreorder(cs[0]);
      ExtractForestFollowsPreorder(cs[1..]);
      assert SnapshotForest(cs)[1..] == SnapshotForest(cs[1..]);
      assert SnapshotsJson(SnapshotForest(cs))[1..] == SnapshotsJson(SnapshotForest(cs[1..]));
      PreorderSourcesAppend(Preorder(cs[0]), PreorderForest(cs[1..]));
    }
  }

  // ---------------------------------------------------------------------------
  // preprocess_text

  /**
    An ASCII letter, digit or underscore. Python's `\w` on `str` also matches
    every Unicode letter and digit (`é`, `日`); this model treats those as
    non-word characters, so `re.sub(r'\W+', ' ', ...)` here turns `café` into
    `caf `.
   */
  predicate IsWordChar(c: char) {
    'a' <= c <= 'z' || 'A' <= c <= 'Z' || '0' <= c <= '9' || c == '_'
  }

  predicate HasWord(s: string) {
    exists i :: 0 <= i < |s| && IsWordChar(s[i])
  }

  predicate WordsOrSpaces(s: string) {
    forall i :: 0 <= i < |s| ==> IsWordChar(s[i]) || s[i] == ' '
  }

  predicate LowerCase(s: string) {
    forall i :: 0 <= i < |s| ==> !('A' <= s[i] <= 'Z')
  }

  predicate SingleSpaced(s: string) {
    forall i :: 0 <= i < |s| - 1 ==> !(s[i] == ' ' && s[i + 1] == ' ')
  }

  /** Lower-case words separated by single spaces, with no space at either end. */
  predicate Normalized(s: string) {
    WordsOrSpaces(s) && LowerCase(s) && SingleSpaced(s) && (s == [] || (s[0] != ' ' && s[|s| - 1] != ' '))
  }

  /** Drops the leading run of characters that are not word characters. */
  function SkipNonWord(s: string): (r: string)
    ensures |r| <= |s| && r == s[|s| - |r|..]
    ensures r == [] || IsWordChar(r[0])
    ensures HasWord(r) <==> HasWord(s)
  {
    if s != [] && !IsWordChar(s[0]) then
      var r := SkipNonWord(s[1..]);
      assert r == s[|s| - |r|..] by { assert s[1..][|s| - 1 - |r|..] == s[|s| - |r|..]; }
      HasWordSplit(s);
      r
    else s
  }

  /** `re.sub(r'\W+', ' ', s)`: each maximal run of non-word characters becomes one space. */
  function SubNonWord(s: string): (r: string)
    ensures WordsOrSpaces(r) && SingleSpaced(r)
    ensures s != [] <==> r != []
    ensures s != [] ==> (r[0] == ' ' <==> !IsWordChar(s[0]))
    decreases |s|
  {
    if s == [] then []
    else if IsWordChar(s[0]) then [s[0]] + SubNonWord(s[1..])
    else [' '] + SubNonWord(SkipNonWord(s[1..]))
  }

  /** Replacing non-word runs introduces no upper-case letter. */
  lemma {:induction false} SubNonWordKeepsLowerCase(s: string)
    requires LowerCase(s)
    ensures LowerCase(SubNonWord(s))
    decreases |s|
  {
    if s != [] {
      var tail := if IsWordChar(s[0]) then s[1..] else SkipNonWord(s[1..]);
      var head := if IsWordChar(s[0]) then s[0] else ' ';
      assert tail == s[|s| - |tail|..] by {
        if !IsWordChar(s[0]) { assert s[1..][|s| - 1 - |tail|..] == s[|s| - |tail|..]; }
      }
      LowerCaseSuffix(s, |s| - |tail|);
      SubNonWordKeepsLowerCase(tail);
      assert SubNonWord(s) == [head] + SubNonWord(tail);
      LowerCaseConcat([head], SubNonWord(tail));
    }
  }

  /** A suffix of a lower-case string is lower case. */
  lemma LowerCaseSuffix(s: string, k: nat)
    requires LowerCase(s) && k <= |s|
    ensures LowerCase(s[k..])
  {
    assert forall i :: 0 <= i < |s| - k ==> s[k..][i] == s[k + i];
  }

  /** Two lower-case strings joined are lower case. */
  lemma LowerCaseConcat(a: string, b: string)
    requires LowerCase(a) && LowerCase(b)
    ensures LowerCase(a + b)
  {
    assert forall i :: |a| <= i < |a + b| ==> (a + b)[i] == b[i - |a|];
  }

  /** A non-empty string has a word character exactly when its head is one or its tail has one. */
  lemma HasWordSplit(s: string)
    requires s != []
    ensures HasWord(s) <==> IsWordChar(s[0]) || HasWord(s[1..])
  {
    if HasWord(s) && !IsWordChar(s[0]) {
      var i :| 0 <= i < |s| && IsWordChar(s[i]);
      assert s[1..][i - 1] == s[i];
    }
    if HasWord(s[1..]) {
      var i :| 0 <= i < |s[1..]| && IsWordChar(s[1..][i]);
      assert s[i + 1] == s[1..][i];
    }
  }

  /** Replacing non-word runs keeps some word character exactly when there was one. */
  lemma {:induction false} SubNonWordKeepsWords(s: string)
    ensures HasWord(SubNonWord(s)) <==> HasWord(s)
    decreases |s|
  {
    if s != [] {
      var r := SubNonWord(s);
      HasWordSplit(s);
      HasWordSplit(r);
      if !IsWordChar(s[0]) {
        var rest := SkipNonWord(s[1..]);
        SubNonWordKeepsWords(rest);
        assert r[1..] == SubNonWord(rest);
      }
    }
  }

  /** Drops the leading run of whitespace. */
  function SkipSpace(s: string): (r: string)
    ensures |r| <= |s| && r == s[|s| - |r|..]
    ensures r == [] || !IsSpace(r[0])
  {
    if s != [] && IsSpace(s[0]) then SkipSpace(s[1..]) else s
  }

  /** `re.sub(r'\s+', ' ', s)`: each maximal run of whitespace becomes one space. */
  function SubSpace(s: string): (r: string)
    ensures s != [] <==> r != []
    ensures forall i :: 0 <= i < |r| && IsSpace(r[i]) ==> r[i] == ' '
    ensures forall i :: 0 <= i < |r| - 1 ==> !(IsSpace(r[i]) && IsSpace(r[i + 1]))
    decreases |s|
  {
    if s == [] then []
    else if !IsSpace(s[0]) then [s[0]] + SubSpace(s[1..])
    else [' '] + SubSpace(SkipSpace(s[1..]))
  }

  /** On words separated by single spaces, collapsing whitespace changes nothing. */
  lemma {:induction false} SubSpaceKeepsSingleSpaced(s: string)
    requires WordsOrSpaces(s) && SingleSpaced(s)
    ensures SubSpace(s) == s
    decreases |s|
  {
    if s != [] {
      var tail := s[1..];
      assert s == [s[0]] + tail;
      TailWordsSingleSpaced(s);
      SubSpaceKeepsSingleSpaced(tail);
      if IsSpace(s[0]) {
        SpaceThenWord(s);
        assert SkipSpace(tail) == tail;
        assert SubSpace(s) == [' '] + SubSpace(tail);
      } else {
        assert SubSpace(s) == [s[0]] + SubSpace(tail);
      }
    }
  }

  /** Dropping the first character keeps words separated by single spaces. */
  lemma TailWordsSingleSpaced(s: string)
    requires s != [] && WordsOrSpaces(s) && SingleSpaced(s)
    ensures WordsOrSpaces(s[1..]) && SingleSpaced(s[1..])
  {
    var tail := s[1..];
    forall i | 0 <= i < |tail| ensures IsWordChar(tail[i]) || tail[i] == ' ' {
      assert tail[i] == s[i + 1];
    }
    forall i | 0 <= i < |tail| - 1 ensures !(tail[i] == ' ' && tail[i + 1] == ' ') {
      assert tail[i] == s[i + 1] && tail[i + 1] == s[i + 2];
    }
  }

  /** In words separated by single spaces, a leading non-word character is a space followed by a word character. */
  lemma SpaceThenWord(s: string)
    requires s != [] && WordsOrSpaces(s) && SingleSpaced(s) && !IsWordChar(s[0])
    ensures s[0] == ' ' && (|s| == 1 || IsWordChar(s[1]))
  {
    if |s| > 1 {
      assert !(s[0] == ' ' && s[1] == ' ');
    }
  }

  /** On words separated by single spaces, replacing non-word runs changes nothing. */
  lemma {:induction false} SubNonWordKeepsSingleSpaced(s: string)
    requires WordsOrSpaces(s) && SingleSpaced(s)
    ensures SubNonWord(s) == s
    decreases |s|
  {
    if s != [] {
      var tail := s[1..];
      assert s == [s[0]] + tail;
      TailWordsSingleSpaced(s);
      SubNonWordKeepsSingleSpaced(tail);
      if IsWordChar(s[0]) {
        assert SubNonWord(s) == [s[0]] + SubNonWord(tail);
      } else {
        SpaceThenWord(s);
        assert SkipNonWord(tail) == tail;
        assert SubNonWord(s) == [' '] + SubNonWord(tail);
      }
    }
  }

  /**
    `preprocess_text`: lower-case, turn every run of non-word characters into
    one space, every run of whitespace into one space, and strip.
   */
  function Preprocess(text: string): string {
    if text == [] then [] else Trim(SubSpace(SubNonWord(Lower(text))))
  }

  lemma LowerIsLowerCase(s: string)
    ensures LowerCase(Lower(s))
    ensures HasWord(Lower(s)) <==> HasWord(s)
  {
    var l := Lower(s);
    if HasWord(s) {
      var i :| 0 <= i < |s| && IsWordChar(s[i]);
      assert IsWordChar(l[i]);
    }
    if HasWord(l) {
      var i :| 0 <= i < |l| && IsWordChar(l[i]);
      assert IsWordChar(s[i]);
    }
  }

  /** The result is made of lower-case words separated by single spaces, with no space at either end. */
  lemma PreprocessNormalizes(text: string)
    ensures Normalized(Preprocess(text))
  {
    if text != [] {
      var x := SubNonWord(Lower(text));
      LowerIsLowerCase(text);
      SubNonWordKeepsLowerCase(Lower(text));
      SubSpaceKeepsSingleSpaced(x);
      assert Preprocess(text) == Trim(x);
      TrimNormalizes(x);
    }
  }

  lemma TrimNormalizes(x: string)
    requires WordsOrSpaces(x) && LowerCase(x) && SingleSpaced(x)
    ensures Normalized(Trim(x))
  {
    var i, j :| 0 <= i <= j <= |x| && Trim(x) == x[i..j];
    var r := x[i..j];
    assert WordsOrSpaces(r) by {
      forall k | 0 <= k < |r| ensures IsWordChar(r[k]) || r[k] == ' ' { assert r[k] == x[i + k]; }
    }
    assert LowerCase(r) by {
      forall k | 0 <= k < |r| ensures !('A' <= r[k] <= 'Z') { assert r[k] == x[i + k]; }
    }
    assert SingleSpaced(r) by {
      forall k | 0 <= k < |r| - 1 ensures !(r[k] == ' ' && r[k + 1] == ' ') {
        assert r[k] == x[i + k] && r[k + 1] == x[i + k + 1];
      }
    }
  }

  /** A normalised string is its own normal form. */
  lemma NormalizedIsFixed(t: string)
    requires Normalized(t)
    ensures Preprocess(t) == t
  {
    if t != [] {
      assert Lower(t) == t by {
        forall i | 0 <= i < |t| ensures Lower(t)[i] == t[i] {
          assert !('A' <= t[i] <= 'Z');
        }
      }
      SubNonWordKeepsSingleSpaced(t);
      SubSpaceKeepsSingleSpaced(t);
      assert !IsSpace(t[0]) && !IsSpace(t[|t| - 1]);
      TrimKeepsStripped(t);
    }
  }

  /** `preprocess_text` is idempotent. */
  lemma PreprocessIdempotent(text: string)
    ensures Preprocess(Preprocess(text)) == Preprocess(text)
  {
    PreprocessNormalizes(text);
    NormalizedIsFixed(Preprocess(text));
  }

  /** A text preprocesses to the empty string exactly when it has no word character. */
  lemma PreprocessEmptyIff(text: string)
    ensures Preprocess(text) == [] <==> !HasWord(text)
  {
    if text != [] {
      var x := SubNonWord(Lower(text));
      LowerIsLowerCase(text);
      SubNonWordKeepsWords(Lower(text));
      SubSpaceKeepsSingleSpaced(x);
      assert Preprocess(text) == Trim(x);
      TrimEmptyIffBlank(x);
      BlankIffNoWord(x);
    }
  }

  /** Among words and spaces, blank means wordless. */
  lemma BlankIffNoWord(x: string)
    requires WordsOrSpaces(x)
    ensures IsBlank(x) <==> !HasWord(x)
  {
    if HasWord(x) {
      var k :| 0 <= k < |x| && IsWordChar(x[k]);
      assert !IsSpace(x[k]);
    }
    if !IsBlank(x) {
      var k :| 0 <= k < |x| && !IsSpace(x[k]);
      assert IsWordChar(x[k]);
    }
  }

  // ---------------------------------------------------------------------------
  // calculate_similarity

  /**
    The TF-IDF vectoriser and cosine similarity: `fits(corpus)` is false when
    fitting raises `ValueError` (for instance an empty vocabulary);
    `cosine(corpus, i)` is the cosine between document 0 (the report) and
    document `i + 1` (the `i`-th usable source).
   */
  datatype Vectorizer = Vectorizer(fits: seq<string> -> bool, cosine: (seq<string>, nat) -> real)

  /** The sources whose text keeps a word after preprocessing, paired with that preprocessed text. */
  function Usable(sources: seq<Source>): (r: seq<Source>)
    ensures |r| <= |sources|
    ensures forall i :: 0 <= i < |r| ==> r[i].text != []
  {
    if sources == [] then []
    else
      var p := Preprocess(sources[0].text);
      (if p == [] then [] else [Source(sources[0].id, p)]) + Usable(sources[1..])
  }

  /** Reference count: the sources with at least one word character. */
  function CountWithWords(sources: seq<Source>): nat {
    if sources == [] then 0 else (if HasWord(sources[0].text) then 1 else 0) + CountWithWords(sources[1..])
  }

  /** Exactly the sources with a word character are usable. */
  lemma {:induction false} UsableCount(sources: seq<Source>)
    ensures |Usable(sources)| == CountWithWords(sources)
  {
    if sources != [] {
      PreprocessEmptyIff(sources[0].text);
      UsableCount(sources[1..]);
    }
  }

  function Texts(ss: seq<Source>): (r: seq<string>)
    ensures |r| == |ss|
    ensures forall i :: 0 <= i < |ss| ==> r[i] == ss[i].text
  {
    if ss == [] then [] else [ss[0].text] + Texts(ss[1..])
  }

  /** `results[id] = similarities[0, i]` for the first `n` usable sources, in order. */
  function ScoreTable(usable: seq<Source>, corpus: seq<string>, v: Vectorizer, n: nat): Dict<real>
    requires n <= |usable|
  {
    if n == 0 then [] else Put(ScoreTable(usable, corpus, v, n - 1), usable[n - 1].id, v.cosine(corpus, n - 1))
  }

  /** No usable source after index `k` has the same id as the one at `k`. */
  predicate LastWithId(usable: seq<Source>, k: nat, n: nat)
    requires k < n <= |usable|
  {
    forall m :: k < m < n ==> usable[m].id != usable[k].id
  }

  /** The ids of the first `n` usable sources. */
  function IdsUpTo(usable: seq<Source>, n: nat): set<string>
    requires n <= |usable|
  {
    set i | 0 <= i < n :: usable[i].id
  }

  lemma IdsUpToStep(usable: seq<Source>, n: nat)
    requires 0 < n <= |usable|
    ensures IdsUpTo(usable, n) == IdsUpTo(usable, n - 1) + {usable[n - 1].id}
  {
    var a := IdsUpTo(usable, n);
    var b := IdsUpTo(usable, n - 1) + {usable[n - 1].id};
    forall x | x in a ensures x in b {
      var i :| 0 <= i < n && usable[i].id == x;
      if i < n - 1 { assert x in IdsUpTo(usable, n - 1); }
    }
    forall x | x in b ensures x in a {
      if x != usable[n - 1].id {
        var i :| 0 <= i < n - 1 && usable[i].id == x;
        assert usable[i].id in a;
      }
    }
  }

  /** The table has one entry per distinct id of the scored sources. */
  lemma {:induction false} ScoreTableKeys(usable: seq<Source>, corpus: seq<string>, v: Vectorizer, n: nat)
    requires n <= |usable|
    ensures UniqueKeys(ScoreTable(usable, corpus, v, n))
    ensures Keys(ScoreTable(usable, corpus, v, n)) == IdsUpTo(usable, n)
  {
    if n > 0 {
      var prev := ScoreTable(usable, corpus, v, n - 1);
      ScoreTableKeys(usable, corpus, v, n - 1);
      PutKeys(prev, usable[n - 1].id, v.cosine(corpus, n - 1));
      IdsUpToStep(usable, n);
    }
  }

  /** Each id maps to the score of the last usable source carrying it. */
  lemma {:induction false} ScoreTableSemantics(usable: seq<Source>, corpus: seq<string>, v: Vectorizer, n: nat)
    requires n <= |usable|
    ensures forall k :: 0 <= k < n && LastWithId(usable, k, n) ==>
              Lookup(ScoreTable(usable, corpus, v, n), usable[k].id) == Some(v.cosine(corpus, k))
  {
    if n > 0 {
      var prev := ScoreTable(usable, corpus, v, n - 1);
      var id := usable[n - 1].id;
      var r := ScoreTable(usable, corpus, v, n);
      ScoreTableSemantics(usable, corpus, v, n - 1);
      PutLookup(prev, id, v.cosine(corpus, n - 1));
      assert r == Put(prev, id, v.cosine(corpus, n - 1));
      forall k | 0 <= k < n && LastWithId(usable, k, n)
        ensures Lookup(r, usable[k].id) == Some(v.cosine(corpus, k))
      {
        if k < n - 1 {
          assert usable[k].id != id;
          assert LastWithId(usable, k, n - 1);
          assert Lookup(r, usable[k].id) == Lookup(prev, usable[k].id);
        }
      }
    }
  }

  /** What `calculate_similarity` returns: the score table and the number of usable sources. */
  datatype SimilarityResult = SimilarityResult(scores: Dict<real>, used: nat)

  /** `calculate_similarity(main_text, source_texts_list)`. */
  function CalculateSimilarity(mainText: string, sources: seq<Source>, v: Vectorizer): (r: SimilarityResult)
    ensures IsBlank(mainText) || sources == [] ==> r == SimilarityResult([], 0)
    ensures !IsBlank(mainText) ==> r.used == CountWithWords(sources)
    ensures UniqueKeys(r.scores) && |r.scores| <= r.used
  {
    if IsBlank(mainText) || sources == [] then SimilarityResult([], 0)
    else
      var usable := Usable(sources);
      UsableCount(sources);
      var corpus := [Preprocess(mainText)] + Texts(usable);
      if |corpus| < 2 || !v.fits(corpus) then SimilarityResult([], |usable|)
      else
        ScoreTableKeys(usable, corpus, v, |usable|);
        ScoreTableSize(usable, corpus, v, |usable|);
        SimilarityResult(ScoreTable(usable, corpus, v, |usable|), |usable|)
  }

  lemma {:induction false} ScoreTableSize(usable: seq<Source>, corpus: seq<string>, v: Vectorizer, n: nat)
    requires n <= |usable|
    ensures |ScoreTable(usable, corpus, v, n)| <= n
  {
    if n > 0 { ScoreTableSize(usable, corpus, v, n - 1); }
  }

  /**
    When the report is not blank and the vectoriser fits, every usable source
    is scored under its url, and a url shared by several sources carries the
    score of the last of them.
   */
  lemma ScoresCoverUsableSources(mainText: string, sources: seq<Source>, v: Vectorizer)
    requires !IsBlank(mainText)
    requires v.fits([Preprocess(mainText)] + Texts(Usable(sources)))
    ensures var usable := Usable(sources);
            var r := CalculateSimilarity(mainText, sources, v);
            Keys(r.scores) == IdsUpTo(usable, |usable|) &&
            forall k :: 0 <= k < |usable| && LastWithId(usable, k, |usable|) ==>
              Lookup(r.scores, usable[k].id) == Some(v.cosine([Preprocess(mainText)] + Texts(usable), k))
  {
    var usable := Usable(sources);
    ScoreTableKeys(usable, [Preprocess(mainText)] + Texts(usable), v, |usable|);
    ScoreTableSemantics(usable, [Preprocess(mainText)] + Texts(usable), v, |usable|);
  }

  // ---------------------------------------------------------------------------
  // calculate_aggregate_metrics

  /** The metrics row of one report. */
  datatype Metrics = Metrics(totalInTree: int, usedForSim: int, average: real, max: real,
                             topSource: string, above03: nat, above05: nat)

  function Values(d: Dict<real>): (r: seq<real>)
    ensures |r| == |d|
    ensures forall i :: 0 <= i < |d| ==> r[i] == d[i].1
  {
    if d == [] then [] else [d[0].1] + Values(d[1..])
  }

  function Sum(xs: seq<real>): real {
    if xs == [] then 0.0 else xs[0] + Sum(xs[1..])
  }

  /** `np.max`. */
  function Max(xs: seq<real>): (m: real)
    requires xs != []
    ensures forall i :: 0 <= i < |xs| ==> xs[i] <= m
    ensures exists i :: 0 <= i < |xs| && xs[i] == m
  {
    if |xs| == 1 then xs[0]
    else
      var rest := Max(xs[1..]);
      assert forall i :: 1 <= i < |xs| ==> xs[i] == xs[1..][i - 1];
      var k :| 0 <= k < |xs[1..]| && xs[1..][k] == rest;
      assert xs[k + 1] == rest;
      if xs[0] >= rest then xs[0] else rest
  }

  /** The first key whose score equals `m`, or "N/A". */
  function FirstWithScore(d: Dict<real>, m: real): string {
    if d == [] then "N/A" else if d[0].1 == m then d[0].0 else FirstWithScore(d[1..], m)
  }

  /** `sum(1 for score in scores if score > t)`. */
  function CountAbove(xs: seq<real>, t: real): (r: nat)
    ensures r <= |xs|
  {
    if xs == [] then 0 else (if xs[0] > t then 1 else 0) + CountAbove(xs[1..], t)
  }

  /** `calculate_aggregate_metrics(similarity_scores, total, used)`. */
  function AggregateMetrics(scores: Dict<real>, total: int, used: int): (m: Metrics)
    ensures m.totalInTree == total && m.usedForSim == used
    ensures scores == [] ==> m == Metrics(total, used, 0.0, 0.0, "N/A", 0, 0)
    ensures scores != [] ==> (forall i :: 0 <= i < |scores| ==> scores[i].1 <= m.max) &&
                             (exists i :: 0 <= i < |scores| && scores[i].1 == m.max)
  {
    if scores == [] then Metrics(total, used, 0.0, 0.0, "N/A", 0, 0)
    else
      var xs := Values(scores);
      var mx := Max(xs);
      MaxOfValues(scores);
      Metrics(total, used, Sum(xs) / (|scores| as real), mx, FirstWithScore(scores, mx),
              CountAbove(xs, 0.3), CountAbove(xs, 0.5))
  }

  /** The average lies between the smallest and the largest score. */
  lemma AverageWithinScores(scores: Dict<real>, total: int, used: int)
    requires scores != []
    ensures var m := AggregateMetrics(scores, total, used);
            (exists i :: 0 <= i < |scores| && scores[i].1 <= m.average) && m.average <= m.max
  {
    var xs := Values(scores);
    MeanWithin(xs, Sum(xs) / (|xs| as real));
    var k :| 0 <= k < |xs| && xs[k] <= Sum(xs) / (|xs| as real);
    assert scores[k].1 == xs[k];
  }

  /** The mean of non-empty values is at most their maximum and at least one of them. */
  lemma MeanWithin(xs: seq<real>, mean: real)
    requires xs != [] && mean == Sum(xs) / (|xs| as real)
    ensures (exists i :: 0 <= i < |xs| && xs[i] <= mean) && mean <= Max(xs)
  {
    MeanBelowMax(xs, mean);
    MeanAboveSome(xs, mean);
  }

  lemma MeanBelowMax(xs: seq<real>, mean: real)
    requires xs != [] && mean == Sum(xs) / (|xs| as real)
    ensures mean <= Max(xs)
  {
    var hi, total, n := Max(xs), Sum(xs), |xs| as real;
    SumAtMost(xs, hi);
    MeanAtMost(total, n, hi, mean);
  }

  lemma MeanAboveSome(xs: seq<real>, mean: real)
    requires xs != [] && mean == Sum(xs) / (|xs| as real)
    ensures exists i :: 0 <= i < |xs| && xs[i] <= mean
  {
    if forall i :: 0 <= i < |xs| ==> xs[i] > mean {
      SumAbove(xs, mean);
      MeanAbove(Sum(xs), |xs| as real, mean, mean);
      assert false;
    }
  }

  /** Values bounded by `hi` sum to at most `|xs|` times `hi`. */
  lemma {:induction false} SumAtMost(xs: seq<real>, hi: real)
    requires forall i :: 0 <= i < |xs| ==> xs[i] <= hi
    ensures Sum(xs) <= (|xs| as real) * hi
  {
    if xs != [] {
      SumAtMost(xs[1..], hi);
      assert (|xs| as real) * hi == ((|xs| - 1) as real) * hi + hi;
    }
  }

  /** Non-empty values all above `lo` sum to more than `|xs|` times `lo`. */
  lemma {:induction false} SumAbove(xs: seq<real>, lo: real)
    requires xs != [] && forall i :: 0 <= i < |xs| ==> xs[i] > lo
    ensures Sum(xs) > (|xs| as real) * lo
  {
    if |xs| == 1 {
      assert Sum(xs[1..]) == 0.0;
    } else {
      SumAbove(xs[1..], lo);
      assert (|xs| as real) * lo == ((|xs| - 1) as real) * lo + lo;
    }
  }

  /** A sum at most `n` times `b` has its mean at most `b`. */
  lemma MeanAtMost(sum: real, n: real, b: real, mean: real)
    requires n > 0.0 && mean == sum / n && sum <= n * b
    ensures mean <= b
  {
    assert mean * n == sum;
  }

  /** A sum above `n` times `b` has its mean above `b`. */
  lemma MeanAbove(sum: real, n: real, b: real, mean: real)
    requires n > 0.0 && mean == sum / n && sum > n * b
    ensures mean > b
  {
    assert mean * n == sum;
  }

  /** The maximum of the scores is one of the scores and bounds them all. */
  lemma MaxOfValues(scores: Dict<real>)
    requires scores != []
    ensures forall i :: 0 <= i < |scores| ==> scores[i].1 <= Max(Values(scores))
    ensures exists i :: 0 <= i < |scores| && scores[i].1 == Max(Values(scores))
  {
    var xs := Values(scores);
    var k :| 0 <= k < |xs| && xs[k] == Max(xs);
    assert scores[k].1 == xs[k];
  }

  /** `FirstWithScore` finds the first entry with that score, when there is one. */
  lemma {:induction false} FirstWithScoreIsFirst(d: Dict<real>, m: real, k: nat)
    requires k < |d| && d[k].1 == m
    ensures exists j :: 0 <= j <= k && d[j].0 == FirstWithScore(d, m) && d[j].1 == m &&
                        forall i :: 0 <= i < j ==> d[i].1 != m
  {
    if d[0].1 != m {
      FirstWithScoreIsFirst(d[1..], m, k - 1);
      var j :| 0 <= j <= k - 1 && d[1..][j].0 == FirstWithScore(d[1..], m) && d[1..][j].1 == m &&
               forall i :: 0 <= i < j ==> d[1..][i].1 != m;
      assert d[j + 1] == d[1..][j];
      assert forall i :: 1 <= i < j + 1 ==> d[i] == d[1..][i - 1];
    }
  }

  /** The top source is the first url whose score is the maximum. */
  lemma TopIsFirstMaximum(scores: Dict<real>, total: int, used: int)
    requires scores != []
    ensures var m := AggregateMetrics(scores, total, used);
            exists j :: 0 <= j < |scores| && scores[j].0 == m.topSource && scores[j].1 == m.max &&
                        (forall i :: 0 <= i < j ==> scores[i].1 < m.max) &&
                        (forall i :: 0 <= i < |scores| ==> scores[i].1 <= m.max)
  {
    var m := AggregateMetrics(scores, total, used);
    var k :| 0 <= k < |scores| && scores[k].1 == m.max;
    FirstWithScoreIsFirst(scores, m.max, k);
  }

  /** Raising the threshold never raises the count. */
  lemma {:induction false} CountAboveAntitone(xs: seq<real>, lo: real, hi: real)
    requires lo <= hi
    ensures CountAbove(xs, hi) <= CountAbove(xs, lo)
  {
    if xs != [] { CountAboveAntitone(xs[1..], lo, hi); }
  }

  /** More sources clear 0.3 than 0.5, and neither count exceeds the number of scores. */
  lemma ThresholdCountsNest(scores: Dict<real>, total: int, used: int)
    ensures var m := AggregateMetrics(scores, total, used);
            m.above05 <= m.above03 <= |scores|
  {
    CountAboveAntitone(Values(scores), 0.3, 0.5);
  }
}

=== FILE: text.dfy ===
/**
  String helpers shared by the backend and the front end: whitespace stripping
  (Python `str.strip`, JavaScript `String.trim`), joining, substring search
  (Python `str.find`, JavaScript `includes`) and decimal rendering of numbers.
  Strings are sequences of characters; no Unicode case folding or normalisation.
 */
module Text {

  /**
    The six ASCII whitespace characters: space, tab, line feed, vertical tab,
    form feed, carriage return. Both runtimes strip these, and each strips
    more: Python's `str.strip` also strips the separators U+001C to U+001F,
    U+0085 and the Unicode spaces, and JavaScript's `String.trim` also strips
    U+00A0, U+FEFF and the Unicode spaces. Only these six are modelled.
   */
  predicate IsSpace(c: char) {
    c == ' ' || c == '\t' || c == '\n' || c == '\r' || c as int == 11 || c as int == 12
  }

  /** A string that is empty or made only of whitespace (falsy after `strip()`). */
  predicate IsBlank(s: string) {
    forall i :: 0 <= i < |s| ==> IsSpace(s[i])
  }

  /** The first position at or after `i` that does not hold whitespace (`|s|` when there is none). */
  function SkipSpaces(s: string, i: nat): (n: nat)
    requires i <= |s|
    ensures i <= n <= |s|
    ensures forall k :: i <= k < n ==> IsSpace(s[k])
    ensures n == |s| || !IsSpace(s[n])
    decreases |s| - i
  {
    if i < |s| && IsSpace(s[i]) then SkipSpaces(s, i + 1) else i
  }

  /** The end of `s[lo..j]` once its trailing whitespace is dropped. */
  function BackSpaces(s: string, lo: nat, j: nat): (n: nat)
    requires lo <= j <= |s|
    ensures lo <= n <= j
    ensures forall k :: n <= k < j ==> IsSpace(s[k])
    ensures n == lo || !IsSpace(s[n - 1])
    decreases j
  {
    if j > lo && IsSpace(s[j - 1]) then BackSpaces(s, lo, j - 1) else j
  }

  /** Python `str.strip()` / JavaScript `trim()` on the whitespace set above. */
  function Trim(s: string): (r: string)
    ensures exists i, j :: 0 <= i <= j <= |s| && r == s[i..j] && IsBlank(s[..i]) && IsBlank(s[j..])
    ensures r == [] || (!IsSpace(r[0]) && !IsSpace(r[|r| - 1]))
  {
    var i := SkipSpaces(s, 0);
    var j := BackSpaces(s, i, |s|);
    assert IsBlank(s[..i]) by { assert forall k :: 0 <= k < i ==> s[..i][k] == s[k]; }
    assert IsBlank(s[j..]) by { assert forall k :: 0 <= k < |s| - j ==> s[j..][k] == s[j + k]; }
    assert i < j ==> s[i..j][0] == s[i] && s[i..j][j - i - 1] == s[j - 1];
    s[i..j]
  }

  /** A string with no whitespace at either end strips to itself. */
  lemma TrimKeepsStripped(s: string)
    requires s == [] || (!IsSpace(s[0]) && !IsSpace(s[|s| - 1]))
    ensures Trim(s) == s
  {
    assert SkipSpaces(s, 0) == 0;
    assert BackSpaces(s, 0, |s|) == |s|;
  }

  /** A string strips to the empty string exactly when it is blank. */
  lemma TrimEmptyIffBlank(s: string)
    ensures Trim(s) == [] <==> IsBlank(s)
  {
    var r := Trim(s);
    var i, j :| 0 <= i <= j <= |s| && r == s[i..j] && IsBlank(s[..i]) && IsBlank(s[j..]);
    if r == [] {
      forall k | 0 <= k < |s| ensures IsSpace(s[k]) {
        if k < i { assert s[..i][k] == s[k]; } else { assert s[j..][k - j] == s[k]; }
      }
    } else {
      assert s[i] == r[0];
    }
  }

  /** `sep.join(parts)`. */
  function Join(sep: string, parts: seq<string>): (r: string)
    ensures parts == [] ==> r == []
    ensures |parts| == 1 ==> r == parts[0]
  {
    if |parts| == 0 then []
    else if |parts| == 1 then parts[0]
    else parts[0] + sep + Join(sep, parts[1..])
  }

  /** Joining one more part adds the separator and that part at the end. */
  lemma {:induction false} JoinSnoc(sep: string, parts: seq<string>, last: string)
    requires |parts| > 0
    ensures Join(sep, parts + [last]) == Join(sep, parts) + sep + last
  {
    if |parts| == 1 {
      assert (parts + [last])[1..] == [last];
    } else {
      assert (parts + [last])[1..] == parts[1..] + [last];
      JoinSnoc(sep, parts[1..], last);
    }
  }

  /** `s` starts with `p`. */
  predicate StartsWith(s: string, p: string) {
    |p| <= |s| && s[..|p|] == p
  }

  /** `sub` occurs in `s` at position `i`. */
  predicate OccursAt(s: string, sub: string, i: int) {
    0 <= i && i + |sub| <= |s| && s[i..i + |sub|] == sub
  }

  /** Substring containment (`sub in s`, `s.includes(sub)`). */
  predicate Contains(s: string, sub: string) {
    exists i | 0 <= i <= |s| :: OccursAt(s, sub, i)
  }

  /** An occurrence inside an occurrence is an occurrence in the outer string. */
  lemma OccursWithin(s: string, block: string, at: int, sub: string, j: int)
    requires OccursAt(s, block, at) && OccursAt(block, sub, j)
    ensures OccursAt(s, sub, at + j)
  {
    forall k | 0 <= k < |sub| ensures s[at + j + k] == sub[k] {
      assert block[j + k] == sub[k] && s[at..at + |block|][j + k] == s[at + j + k];
    }
    assert s[at + j..at + j + |sub|] == sub;
  }

  /** An occurrence in `b` is an occurrence in `a + b`, shifted by `|a|`. */
  lemma OccursAfter(a: string, b: string, sub: string, j: int)
    requires OccursAt(b, sub, j)
    ensures OccursAt(a + b, sub, |a| + j)
  {
    assert (a + b)[|a| + j..|a| + j + |sub|] == b[j..j + |sub|];
  }

  /** Python `s.find(sub)`: the first occurrence at or after `from`, or -1. */
  function FindFrom(s: string, sub: string, from: nat): (r: int)
    requires from <= |s|
    decreases |s| - from
    ensures r == -1 || (from <= r && OccursAt(s, sub, r))
    ensures r == -1 ==> forall i :: from <= i ==> !OccursAt(s, sub, i)
    ensures r != -1 ==> forall i :: from <= i < r ==> !OccursAt(s, sub, i)
  {
    if from + |sub| > |s| then -1
    else if s[from..from + |sub|] == sub then from
    else FindFrom(s, sub, from + 1)
  }

  /** Python `s.find(sub)`: the index of the first occurrence, or -1 when there is none. */
  function Find(s: string, sub: string): (r: int)
    ensures r == -1 <==> !Contains(s, sub)
    ensures r != -1 ==> OccursAt(s, sub, r) && forall i :: 0 <= i < r ==> !OccursAt(s, sub, i)
  {
    FindFrom(s, sub, 0)
  }

  /** The decimal digit for `d`. */
  function Digit(d: nat): char
    requires d < 10
  {
    "0123456789"[d]
  }

  predicate IsDigit(c: char) {
    '0' <= c <= '9'
  }

  /** Value of a string of decimal digits. */
  function DigitsValue(s: string): nat
    requires forall i :: 0 <= i < |s| ==> IsDigit(s[i])
  {
    if |s| == 0 then 0
    else
      assert IsDigit(s[|s| - 1]);
      DigitsValue(s[..|s| - 1]) * 10 + (s[|s| - 1] as int - '0' as int)
  }

  /** Decimal rendering of a natural number, as `str(n)` / template literals print it. */
  function NatToString(n: nat): (r: string)
    ensures |r| >= 1
    ensures forall i :: 0 <= i < |r| ==> IsDigit(r[i])
    ensures |r| > 1 ==> r[0] != '0'
  {
    if n < 10 then [Digit(n)] else NatToString(n / 10) + [Digit(n % 10)]
  }

  /** Reading back the rendered digits yields the number. */
  lemma {:induction false} NatToStringRoundTrip(n: nat)
    ensures DigitsValue(NatToString(n)) == n
  {
    var r := NatToString(n);
    if n >= 10 {
      NatToStringRoundTrip(n / 10);
      assert r[..|r| - 1] == NatToString(n / 10);
    }
  }

  /** Decimal rendering of an integer, with a leading minus sign when negative. */
  function IntToString(i: int): (r: string)
    ensures |r| >= 1
    ensures i < 0 <==> r[0] == '-'
  {
    if i < 0 then "-" + NatToString(-i) else NatToString(i)
  }

  /**
    ASCII lower-casing of one character. Python's `str.lower` also lowers
    non-ASCII letters (`"É"` becomes `"é"`); this does not.
   */
  function LowerChar(c: char): (r: char)
    ensures 'A' <= c <= 'Z' ==> 'a' <= r <= 'z' && r as int - 'a' as int == c as int - 'A' as int
    ensures !('A' <= c <= 'Z') ==> r == c
  {
    if 'A' <= c <= 'Z' then (c as int - 'A' as int + 'a' as int) as char else c
  }

  /** Lower-cases every character. */
  function Lower(s: string): (r: string)
    ensures |r| == |s|
    ensures forall i :: 0 <= i < |s| ==> r[i] == LowerChar(s[i])
  {
    if |s| == 0 then [] else [LowerChar(s[0])] + Lower(s[1..])
  }
}

=== FILE: wrappers.dfy ===
/** Failure-compatible optional values, used wherever the source returns `None`/`undefined`. */
module Wrappers {

  datatype Option<+T> = None | Some(value: T) {

    predicate IsFailure() {
      None?
    }

    function PropagateFailure<U>(): Option<U>
      requires None?
    {
      None
    }

    function Extract(): T
      requires Some?
    {
      value
    }

    /** The contained value, or `default` when there is none (the `x || default` idiom). */
    function GetOr(default: T): T {
      match this
      case Some(v) => v
      case None => default
    }
  }
}
